=== FILE: README.md ===
# Social Dashboard – Productivity Hub, modelled in Dafny

This project models the core of the Social Dashboard productivity hub. The
hub is an Express/Mongoose back end with a React front end. Signed-in users
keep tasks, notes, bookmarks and calendar events, and arrange dashboard
widgets. The model covers these parts:

- **Back end**
  - The owner-scoped CRUD routes for tasks, notes, bookmarks, events and
    widgets (`Resources`, `Listing`, `WidgetBatch`).
  - The Note, Event and Widget schemas: the trim setters and date casts,
    defaults, validation and the `updatedAt` hook (`Schemas`, `NoteModel`, `EventModel`,
    `WidgetModel`, `Casting`).
  - The authentication routes, including the avatar upload filter (`Auth`).
  - The server's CORS policy, socket rooms and error handler (`Server`).
- **Front end**
  - The zustand stores (`DataStore`, `AuthStore`, `ThemeStore`).
  - The header search and notifications (`Header`).
  - The activity feed (`ActivityFeed`).
  - The dashboard: panel drag and drop, previews and counters
    (`Dashboard`).
  - The Tasks, Bookmarks and Profile pages (`TasksPage`, `BookmarksPage`,
    `ProfilePage`).
  - The keyboard shortcuts (`Shortcuts`).

How the model is built:

- JSON bodies and documents are `Json.Value` and `Json.Fields`, a map from
  property names to values. A stored document keeps its `_id` and owner
  apart from its other paths.
- Each route is a pure function from the collection, the socket log and the
  request to a reply, the new collection and the new log. Listing is a
  method, because the database scan is a loop over the stored ids.
- Library behaviour is passed in as function-valued parameters, because the
  model cannot see that code:
  - `isURL`, `isISO8601` and `isEmail`;
  - the `Date` and `URL` constructors;
  - bcrypt hashing and comparison;
  - `JSON.parse`.
- The clock, fresh ids and upload file-name suffixes are parameters too.
- Instants are integers (milliseconds).
- The library modules `Options`, `Strings`, `Seqs`, `Sorting` and `Json`
  hold the JavaScript primitives the code relies on:
  - trimming and ASCII case mapping;
  - `includes`;
  - `slice`, `filter` and `new Set`;
  - `sort`;
  - truthiness and object spread.

## Model

| member | source | states |
|---|---|---|
| Resources.Status | backend/routes/tasks.js:44-74 | Each reply kind has exactly one status: 200 for reads, updates, deletes and batches, 201 for creation, 400 for validation errors, 403 for a foreign document, 404 for a missing one, 500 for failures. |
| Resources.Notice | backend/routes/tasks.js:97-99 | A mutation of a notifying kind (task, note, bookmark, event) appends exactly one `<kind>:<op>` emit to the caller's room and keeps the earlier log as it was. Widget routes leave the log alone. |
| Resources.Lookup | backend/routes/tasks.js:46-61 | A missing id is found before ownership is checked: missing, foreign and owned are exclusive and follow `findById`, then the owner test. |
| Resources.Get | backend/routes/tasks.js:44-74 | The store and log are unchanged. 404 iff the id is absent. 403 iff it is present but owned by another user. Otherwise it is found, with the stored document. |
| Resources.CreateErrors | backend/routes/events.js:78-90 | The validation chain per kind: no errors iff the trimmed title is non-blank (not for widgets), the note content is non-blank, the trimmed bookmark URL passes `isURL`, and both event dates pass `isISO8601`. A blank title is the first error. |
| Resources.TrimPath | backend/routes/notes.js:81-82 | The `trim()` sanitizer rewrites only the named string path, to its trimmed value. Every other path and the key set are kept. |
| Resources.Prepared | backend/routes/bookmarks.js:94-102 | Non-bookmark bodies are only sanitized. A bookmark body gets `favicon = protocol//hostname/favicon.ico` of its trimmed URL, and fails exactly when the `URL` constructor throws. |
| Resources.Create | backend/routes/tasks.js:79-112 | Created iff the validation chain passes, the bookmark URL parses, and the save succeeds: the body's `_id` is absent or a string, the schema build succeeds and the chosen id is free. 400 with exactly the chain's errors iff validation fails. The stored fields are the schema build of the prepared body, owned by the caller. That document is the only change to the store. One `created` emit is sent. On any failure nothing changes. |
| Resources.CreateNote | backend/routes/notes.js:79-112 | A note with a non-blank trimmed title of at most 200 characters and non-blank trimmed content is created under the fresh id, owned by the caller, with the default color, no tags, unpinned, unarchived and both stamps at the current instant. |
| Resources.ClaimedId | backend/routes/tasks.js:92-95 | The `_id` spread from the body into `create`, when the body has one. |
| Resources.Save | backend/routes/tasks.js:92-99 | `create({...body, user})`: stored iff the body's `_id` is absent or a string, the schema build succeeds and the chosen id is not taken. A string `_id` chooses the id, otherwise the fresh id is used. The owner is the caller and the stored fields are the schema build of the body. On failure nothing is stored. |
| Resources.Update | backend/routes/tasks.js:117-157 | 404/403 as for get. Changed iff the caller owns the id, a body `_id` equals that id, a body `user` is a string, and the merge casts and validates. The stored fields become the merge of the body over the stored paths. The owner becomes the body's `user` when one is given, else stays the caller. Only that id changes. One `updated` emit is sent. Every other outcome leaves the store and log unchanged. |
| Resources.UpdateEmptyBody | backend/routes/notes.js:118-150 | An owner's update with an empty body returns the stored document unchanged, leaves the store as it was and sends one `updated` emit. |
| Resources.Delete | backend/routes/tasks.js:162-198 | 404/403 as for get. The owner's delete removes exactly that id and emits `deleted` with the id. Otherwise nothing changes. |
| Resources.CreateIgnoresClaimedOwner | backend/routes/tasks.js:92-95 | A `user` claimed in the body has no effect on create: the outcome equals the outcome without it. |
| Resources.CreateThenGet | backend/routes/tasks.js:44-61 | A created document is found by its owner and refused with 403 to any other user. |
| Resources.DeleteTwice | backend/routes/tasks.js:164-185 | After a successful delete, deleting the same id again is a 404 that changes nothing. |
| Resources.OthersUntouched | backend/routes/tasks.js:128-134 | Create, update and delete by one user never alter or remove a document owned by another user. |
| Resources.BookmarkFavicon | backend/routes/bookmarks.js:95-102 | A created bookmark's favicon is derived from its submitted URL, trimmed, whatever favicon the body carried. |
| Resources.UpdateAppliesBody | backend/routes/tasks.js:136-140 | Update sets each body path to its cast value and keeps every stored path the body leaves out. It adds no other path. |
| Listing.IfGiven | backend/routes/tasks.js:16-18 | A string filter is used iff its parameter is present and non-empty, with the parameter's value. |
| Listing.IfPresent | backend/routes/notes.js:16-17 | A boolean filter is used iff its parameter is present, and is true iff the parameter is the string `true`. |
| Listing.ParseQuery | backend/routes/events.js:16-24 | The event date range is used iff both bounds are given. The query fails iff both are given and one is not a date. Every other kind always parses. |
| Listing.OrderIsTotalPreorder | backend/routes/notes.js:25 | Every kind's sort (`createdAt` desc; `isPinned`,`updatedAt` desc; `isFavorite`,`createdAt` desc; `startDate` asc; `createdAt` asc, missing keys lowest) is a total preorder. |
| Listing.Collect | backend/routes/tasks.js:25 | The scan returns each stored document passing the filter exactly once and nothing else. |
| Listing.Arrange | backend/routes/bookmarks.js:27 | The sorted list is a permutation of the documents, ordered by the kind's keys. |
| Listing.List | backend/routes/tasks.js:10-39 | GET / returns exactly the caller's documents that pass every filter, each once, sorted. It fails with 500 iff the query fails to parse. Nothing changes. |
| Listing.EmptyQueryKeepsAll | backend/routes/tasks.js:14-23 | With no query parameters no document is filtered out. |
| Listing.MentionsIgnoresCase | backend/routes/tasks.js:18-22 | The search text matches regardless of ASCII case. |
| Listing.EventRangeNeedsBoth | backend/routes/events.js:17-23 | With either date bound missing or empty, no event is excluded by date. |
| WidgetBatch.Items | backend/routes/widgets.js:96-101 | The batch needs a `widgets` array with no `null` in it (reading a property of `null` throws). Otherwise there is one item per element; a non-object element has no id, position or size, and an object's `position` and `size` are read as given. |
| WidgetBatch.ItemOf | backend/routes/widgets.js:98-101 | An element's `position` and `size` are present exactly when the object has them, with their values. An id is read only from a string `id` property. A non-object element has none of the three. |
| WidgetBatch.Patch | backend/routes/widgets.js:99-102 | An item's update touches only `position` and `size`. |
| WidgetBatch.Apply | backend/routes/widgets.js:99-103 | One `findOneAndUpdate({_id, user})`. The update is cast first: the step fails iff its position or size does not cast, whichever widget the item names. A result is returned iff the cast succeeds and the id names a widget of the caller. The store then differs only in that widget, whose fields become its stored fields overlaid with the cast update. The result is that updated widget. Otherwise the store is unchanged. |
| WidgetBatch.ApplyAll | backend/routes/widgets.js:98-106 | One result per item, in order. Only the caller's widgets change, and only in position and size. Ids and owners are kept. |
| WidgetBatch.ApplyAllUntouched | backend/routes/widgets.js:98-106 | A widget that no result names is left exactly as it was. |
| WidgetBatch.ApplyAllLastWins | backend/routes/widgets.js:98-106 | A widget that results name holds the last of them afterwards: each `findOneAndUpdate` writes its widget. |
| WidgetBatch.ApplyAllOk | backend/routes/widgets.js:98-118 | The batch of updates succeeds iff every item's position and size cast. |
| WidgetBatch.ApplyAllResults | backend/routes/widgets.js:98-106 | Each non-null result is for an item naming a widget of the caller. It is that widget with the item's own cast position and size and every other path as originally stored. When the batch succeeds, each such item gets a result. |
| WidgetBatch.BatchUpdate | backend/routes/widgets.js:94-119 | Answered with the widgets iff the `widgets` array is present, holds no `null`, and every item's update casts; otherwise 500. A missing array changes nothing. One result per item, non-null iff the item names a widget of the caller, and then that widget with the item's position and size. The store holds, for each widget a result names, the last such result, and every other widget as it was; a failed batch keeps the writes of the updates that ran. No emit is sent. |
| Schemas.Cast | backend/models/Note.js:9-42 | Casting a document succeeds iff every path casts. The key set is kept and each path holds its cast value. |
| Schemas.Stamp | backend/models/Event.js:65-69 | The pre-save hook sets `updatedAt` to now for notes and events, and leaves every other path and every widget, task or bookmark alone. |
| Schemas.Build | backend/models/Note.js:9-49 | A built document passes its schema and has exactly the default paths, the body paths and, for stamped kinds, `updatedAt`. |
| Schemas.Merge | backend/routes/tasks.js:136-140 | `findByIdAndUpdate` with validators: succeeds iff the body casts and the stored paths overlaid with the cast body pass the schema. The result has the stored paths plus the body paths, keeps paths the body omits and holds the cast value of those it sets. |
| Schemas.StampKeepsAccepted | backend/models/Note.js:45-49 | Stamping a valid document keeps it valid. |
| Schemas.CastIdempotent | backend/models/Event.js:9-54 | Casting an already cast document changes nothing. |
| Schemas.BuildKeepsBody | backend/models/Event.js:9-62 | Every body path not overwritten by the hook is stored as its cast value. |
| Schemas.BuildTakesDefault | backend/models/Widget.js:14-33 | A path the body leaves out takes its schema default. |
| Schemas.NoteFromTitleAndContent | backend/models/Note.js:19-42 | A note created from a valid title and content gets colour `#ffffff`, no tags, not pinned, not archived, and both timestamps now. |
| Schemas.MergeEmptyBody | backend/routes/notes.js:118-145 | An update with an empty body leaves a valid stored document unchanged. |
| NoteModel.ReadToFields | backend/models/Note.js:9-42 | The stored form of a note reads back as the same note. |
| NoteModel.CastPathIdempotent | backend/models/Note.js:9-26 | The trim setters and the date casts are idempotent. |
| NoteModel.StampKeepsAccepted | backend/models/Note.js:45-49 | The hook changes only `updatedAt`, and a valid note stays valid. |
| EventModel.ReadToFields | backend/models/Event.js:9-62 | The stored form of an event reads back as the same event. |
| EventModel.DefaultsFill | backend/models/Event.js:28-54 | An event given only a title and dates is not all-day, has colour `#3B82F6`, category `General` and a disabled reminder of 30 minutes. |
| EventModel.ReminderTimeDefault | backend/models/Event.js:40-49 | A reminder given only `enabled` gets `time` 30. |
| EventModel.CastPathIdempotent | backend/models/Event.js:9-54 | Trim setters, date casts and the reminder cast are idempotent. |
| EventModel.StampKeepsAccepted | backend/models/Event.js:65-69 | The hook changes only `updatedAt`, and a valid event stays valid. |
| WidgetModel.ParseTypeName | backend/models/Widget.js:9-13 | Every widget type's name parses back to that type. |
| WidgetModel.ParseTypeExact | backend/models/Widget.js:9-13 | A type string is accepted iff it is one of the seven enumerated names. |
| WidgetModel.DefaultsOnly | backend/models/Widget.js:14-33 | A widget given only its type sits at (0,0), is 4×4, is visible, has empty settings and is created now. |
| WidgetModel.NoUpdatedAt | backend/models/Widget.js:30-33 | The widget schema has no `updatedAt` path. |
| WidgetModel.ReadToFields | backend/models/Widget.js:9-33 | The stored form of a widget reads back as the same widget. |
| WidgetModel.CastPathIdempotent | backend/models/Widget.js:14-21 | The position, size and date casts are idempotent. |
| Casting.CastDate | backend/models/Event.js:20-27 | A date cast yields an instant; an instant is kept as is. |
| Casting.CastPair | backend/models/Event.js:40-49 | A nested sub-document casts to an object with exactly its two sub-paths. |
| Casting.CastPairIdempotent | backend/models/Widget.js:14-21 | Casting a cast sub-document again gives it back unchanged. |
| Casting.TrimTextsIdempotent | backend/models/Note.js:23-26 | The item-wise trim of a string array is idempotent. |
| Server.AllowedOrigins | backend/server.js:15-19 | The list holds the two localhost origins and `CLIENT_URL` when it is set and non-empty, and no empty entry. |
| Server.OriginRefusal | backend/server.js:23-33 | An origin is refused iff it is present, non-empty, not listed and does not contain `vercel.app`. |
| Server.VercelLookalikeAllowed | backend/server.js:47 | Any origin merely containing `vercel.app`, such as `https://vercel.app.example.com`, is allowed. |
| Server.Join | backend/server.js:72-75 | `join` adds the socket to the user's room and changes no other socket. |
| Server.JoinReceives | backend/server.js:72-75 | After `join`, a user's room reaches the joining socket plus those it reached before. Other rooms are unaffected. |
| Server.Disconnect | backend/server.js:77-79 | A disconnected socket leaves every room. Every other socket stays, in exactly the rooms it was in. |
| Server.DisconnectReceives | backend/server.js:72-79 | After a disconnect, each room reaches the sockets it reached before except the disconnected one. |
| Server.ErrorStatus | backend/server.js:119 | The error's own status when it is set and non-zero, else 500. |
| Server.ErrorMessage | backend/server.js:121 | The error's message when non-empty, else `Internal Server Error`. |
| Server.HandleError | backend/server.js:117-123 | The error reply is a failure with that status and message. It carries the error's stack exactly in development mode (`NODE_ENV === "development"`), and never otherwise. |
| Server.HandleErrorStable | backend/server.js:117-123 | Handling an error that carries a handled reply's status, message and stack gives that reply again: the defaults apply once. |
| Server.HandleErrorDefaults | backend/server.js:117-123 | A bare error becomes `500` with `Internal Server Error`. A non-zero status and non-empty message pass through unchanged. The stack is left out of the reply outside development mode and passed through in it. |
| Auth.Status | backend/routes/auth.js:72-159 | Registration answers 201. Validation errors, a taken email and a missing file answer 400. Bad credentials and a wrong current password answer 401. |
| Auth.RegisterErrors | backend/routes/auth.js:58-67 | No errors iff the trimmed name has at least 2 characters, the email passes `isEmail` and the password has at least 6 characters. |
| Auth.Register | backend/routes/auth.js:68-109 | 400 with the chain's errors iff validation fails. 400 taken iff it passes and the email exists. Otherwise exactly one account is added, with the trimmed name and the hashed password, and its summary is returned. |
| Auth.LoginErrors | backend/routes/auth.js:125-128 | No errors iff the email passes `isEmail` and the password is non-empty. |
| Auth.Login | backend/routes/auth.js:129-174 | Accounts are unchanged. Logged in iff validation passes, the email is known and the password matches its hash. Every other valid request gets the same 401. |
| Auth.Me | backend/routes/auth.js:188-202 | Returns the account's profile, including preferences, iff the account exists. |
| Auth.UpdateProfile | backend/routes/auth.js:215-239 | Succeeds iff the account exists and a truthy `name` is a string. It sets name, theme and preferences only when truthy in the body. It never changes id, email, password, avatar or any other account. |
| Auth.UpdateProfileTwice | backend/routes/auth.js:215-239 | Sending the same profile update twice has the effect of sending it once. |
| Auth.UpdateProfileThenMe | backend/routes/auth.js:188-239 | After a profile update, `me` returns the profile the update returned. |
| Auth.PasswordErrors | backend/routes/auth.js:256-262 | No errors iff the current password is non-empty and the new one has at least 6 characters. |
| Auth.ChangePassword | backend/routes/auth.js:263-290 | 400 iff validation fails. Changed iff validation passes, the account exists and the current password matches its hash. 401 iff the current password does not match. On success only that account's password becomes the hash of the new one. |
| Auth.ExtName | backend/routes/auth.js:22 | `path.extname`: empty, or a dot followed by no dot and no slash. |
| Auth.Avatar | backend/routes/auth.js:309-337 | 400 iff no file is sent. Set iff a file is sent, its name and MIME type pass the image filter, it is within 5 MB and the account exists. A refused file fails with the filter's message and status 500. On success the account's avatar becomes `/uploads/avatars/avatar-<suffix><ext>`. |
| Auth.AvatarThenMe | backend/routes/auth.js:188-202 | After an avatar upload, `me` shows the new avatar path. |
| Auth.LoginFailuresAlike | backend/routes/auth.js:142-159 | An unknown email and a wrong password get identical 401 replies. |
| Auth.RegisterThenLogin | backend/routes/auth.js:90-152 | With a consistent hash, logging in with the registration body succeeds with the new account's summary. |
| Auth.ChangePasswordThenLogin | backend/routes/auth.js:279-290 | After a password change, logging in with the new password succeeds. |
| Auth.WrongPasswordKeepsAccounts | backend/routes/auth.js:279-286 | A wrong current password answers 401 and changes no account. |
| Auth.ExtNameOfName | backend/routes/auth.js:22-30 | A name `stem.ext` has extension `.ext`. |
| DataStore.Add | frontend/src/store/dataStore.js:10-12 | The new record is first, followed by the old list unchanged. |
| DataStore.Update | frontend/src/store/dataStore.js:14-18 | The length is kept. Records with the id become `{...record, ...patch}`. Every other record is unchanged. |
| DataStore.Delete | frontend/src/store/dataStore.js:20-22 | The kept records are exactly those without the id. |
| DataStore.DeleteCounts | frontend/src/store/dataStore.js:20-22 | As multisets, the result is the list with every copy of a record with the id removed and every other copy kept. |
| DataStore.DeleteKeepsOrder | frontend/src/store/dataStore.js:20-22 | Delete keeps the remaining records in order. |
| DataStore.DeleteIdempotent | frontend/src/store/dataStore.js:20-22 | Deleting twice is deleting once. |
| DataStore.DeleteUndoesAdd | frontend/src/store/dataStore.js:10-22 | Adding a record with a fresh id and deleting that id restores the list. |
| DataStore.DeleteNothing | frontend/src/store/dataStore.js:20-22 | Deleting an absent id changes nothing. |
| DataStore.UpdateThenDelete | frontend/src/store/dataStore.js:14-22 | Updating a record without changing its id, then deleting it, equals deleting it. |
| DataStore.UpdateReachesAdded | frontend/src/store/dataStore.js:10-18 | An update reaches a just-added record, spreading the patch over it. |
| DataStore.Dispatch | frontend/src/store/dataStore.js:3-105 | An action on one of the four stores changes only that store, by the same laws for all four: set replaces it, add prepends, update is `Update` and delete is `Delete` of that list. |
| Header.HitOf | frontend/src/components/Header.jsx:80-150 | A hit carries the record's kind, id and title. A task shows its description or `No description`; a bookmark shows its url. A note shows the first 100 characters of a non-empty content, or `No content`. An event shows its non-empty description, else its `start` value. |
| Header.Hits | frontend/src/components/Header.jsx:80-95 | At most one hit per record, all of the collection's kind. |
| Header.HitsSound | frontend/src/components/Header.jsx:80-150 | Every hit comes from a record matching the query. |
| Header.HitsComplete | frontend/src/components/Header.jsx:80-150 | Every matching record yields a hit. |
| Header.Search | frontend/src/components/Header.jsx:69-153 | A blank query hides and clears the results. Otherwise the results are the first `min(8, n)` hits, in task, note, bookmark, event order. |
| Header.SearchSound | frontend/src/components/Header.jsx:69-153 | Every shown result comes from a matching record of its kind. |
| Header.MatchingTaskShown | frontend/src/components/Header.jsx:80-95 | A matching task is shown when the tasks alone give no more than eight hits. |
| Header.HitsIgnoreCase | frontend/src/components/Header.jsx:76-82 | Hits do not depend on the query's ASCII case. |
| Header.SearchIgnoresCase | frontend/src/components/Header.jsx:69-76 | The whole search view does not depend on the query's ASCII case. |
| Header.Notifications | frontend/src/components/Header.jsx:38-64 | The notices are the first `min(3, p)` pending tasks, in store order, followed by the first `min(2, u)` upcoming events, in store order, where p and u count pending tasks and upcoming events. |
| Header.NotificationsFromPending | frontend/src/components/Header.jsx:38-64 | A notice is a task notice iff it is among the first `min(3, pending)`. Each task notice comes from a pending task, and each other notice from an upcoming event. |
| Header.PendingTaskNotified | frontend/src/components/Header.jsx:38-64 | With at most three pending tasks, every pending task has a notice. |
| ActivityFeed.TaskActivity | frontend/src/components/ActivityFeed.jsx:17-27 | A task reads `Completed task` iff completed, else `Created task`. It is timestamped by `updatedAt` when set, else by `createdAt`. |
| ActivityFeed.TaskEntries | frontend/src/components/ActivityFeed.jsx:17-27 | Exactly the first `min(3, n)` tasks contribute, in order, as task activities. |
| ActivityFeed.NoteEntries | frontend/src/components/ActivityFeed.jsx:30-41 | The first `min(3, n)` notes, in order, as note activities. |
| ActivityFeed.BookmarkEntries | frontend/src/components/ActivityFeed.jsx:43-54 | The first `min(2, n)` bookmarks, in order, as bookmark activities. |
| ActivityFeed.EventEntries | frontend/src/components/ActivityFeed.jsx:56-69 | The first `min(2, n)` upcoming events, in order, as event activities. |
| ActivityFeed.OtherEntries | frontend/src/components/ActivityFeed.jsx:30-69 | The first three notes, then the first two bookmarks, then the first two upcoming events, each in list order. |
| ActivityFeed.OtherEntriesNoTasks | frontend/src/components/ActivityFeed.jsx:30-69 | No entry after the tasks' is a task activity. |
| ActivityFeed.Candidates | frontend/src/components/ActivityFeed.jsx:13-69 | At most 10 candidates. |
| ActivityFeed.NewerIsTotalPreorder | frontend/src/components/ActivityFeed.jsx:73 | Newest-first by timestamp is a total preorder. |
| ActivityFeed.Activities | frontend/src/components/ActivityFeed.jsx:72-74 | The feed is a newest-first permutation of all candidates; the cap of 10 drops nothing. |
| ActivityFeed.OnlyFrontTasks | frontend/src/components/ActivityFeed.jsx:17-27 | Every task activity shown is that of one of the first three tasks. |
| ActivityFeed.FrontTaskShown | frontend/src/components/ActivityFeed.jsx:17-27 | Each of the first three tasks appears in the feed. |
| ActivityFeed.UpcomingEventShown | frontend/src/components/ActivityFeed.jsx:56-69 | Each of the first two upcoming events appears in the feed. |
| Dashboard.InitialOrder | frontend/src/pages/Dashboard.jsx:34-63 | The panels start as tasks, notes, bookmarks, events, with distinct ids. |
| Dashboard.Move | frontend/src/pages/Dashboard.jsx:136 | `arrayMove`: same length and elements. The moved element lands at the target. The others keep their relative order. |
| Dashboard.MoveBack | frontend/src/pages/Dashboard.jsx:136 | Moving back undoes a move. |
| Dashboard.IndexOf | frontend/src/pages/Dashboard.jsx:134-135 | `findIndex`: the first panel with the id. |
| Dashboard.DragEnd | frontend/src/pages/Dashboard.jsx:129-140 | Dropping a panel on itself changes nothing. Otherwise the dragged panel takes the target's place and the panels are permuted. |
| Dashboard.WidgetData | frontend/src/pages/Dashboard.jsx:142-155 | A panel previews the first five records of its store. An unknown panel type shows none. |
| Dashboard.PanelsHaveData | frontend/src/pages/Dashboard.jsx:142-155 | Every initial panel previews its own store. |
| Dashboard.Load | frontend/src/pages/Dashboard.jsx:89-127 | When any request rejects, `Promise.all` rejects and neither the stores nor the counters change. Otherwise each response reporting success replaces its store and counters, and one that does not leaves them. Completed tasks never exceed total tasks. |
| Dashboard.CompletedWithinTotal | frontend/src/pages/Dashboard.jsx:100-104 | From zeroed counters, the completed-task count is at most the total. |
| Dashboard.LoadTwice | frontend/src/pages/Dashboard.jsx:89-127 | Loading the same responses a second time changes nothing more. |
| TasksPage.Filtered | frontend/src/pages/Tasks.jsx:122-127 | Exactly the tasks the filter shows (all, completed, active or a priority), in list order. |
| TasksPage.AllShowsEverything | frontend/src/pages/Tasks.jsx:123 | The `all` filter shows the whole list. |
| TasksPage.CompletedAndActive | frontend/src/pages/Tasks.jsx:124-125 | Completed and active tasks partition the list. |
| TasksPage.TogglePayload | frontend/src/pages/Tasks.jsx:79-94 | The toggle sends the negated `completed` and the matching status, `completed` or `todo`. |
| TasksPage.ToggleTwice | frontend/src/pages/Tasks.jsx:79-94 | Toggling twice restores `completed` and gives the matching status. |
| TasksPage.PriorityColor | frontend/src/pages/Tasks.jsx:129-137 | urgent↔red, high↔orange, medium↔yellow, low↔green, anything else gray. |
| TasksPage.Before | frontend/src/pages/Tasks.jsx:116 | `split("T")[0]`: the longest prefix without `T`. |
| TasksPage.EditForm | frontend/src/pages/Tasks.jsx:109-120 | The edit form copies the title, priority and status. A truthy due date gives its day part, otherwise the field is empty. A truthy description or tag list is copied; a missing one becomes empty. |
| TasksPage.DayOfInstant | frontend/src/pages/Tasks.jsx:116 | An ISO instant is cut to its date. |
| BookmarksPage.Filtered | frontend/src/pages/Bookmarks.jsx:131-135 | Exactly the bookmarks the filter shows (all, favorites or a category), in list order. |
| BookmarksPage.Categories | frontend/src/pages/Bookmarks.jsx:137 | `[...new Set(categories)]`: distinct, covering every bookmark's category, in first-occurrence order. |
| BookmarksPage.CategoryFilterFinds | frontend/src/pages/Bookmarks.jsx:131-137 | Choosing a listed category shows at least one bookmark. |
| BookmarksPage.FavoritePayload | frontend/src/pages/Bookmarks.jsx:87-103 | The toggle sends only the negated `isFavorite`. |
| BookmarksPage.FavoriteTouchesNothingElse | frontend/src/pages/Bookmarks.jsx:87-103 | Applying the toggle keeps every other property. |
| BookmarksPage.EditForm | frontend/src/pages/Bookmarks.jsx:118-129 | The edit form copies the title, url, favourite flag and category. A truthy description or tag list is copied; a missing one becomes empty. |
| ProfilePage.AvatarChange | frontend/src/pages/Profile.jsx:51-73 | A file is selected iff it is at most 5 MB and its type starts with `image/`. An oversized file is reported first. A rejected file keeps the previous selection. |
| ProfilePage.LimitInclusive | frontend/src/pages/Profile.jsx:55 | Exactly 5 MB is accepted; one byte more is not. |
| ProfilePage.ChosenWithinServerLimit | frontend/src/pages/Profile.jsx:55 | A file the page accepts is within the server's upload limit. |
| ProfilePage.SvgOnlyPassesPage | frontend/src/pages/Profile.jsx:61 | An `.svg` image passes the page's check but is refused by the server's filter. |
| ProfilePage.AvatarUpload | frontend/src/pages/Profile.jsx:75-84 | Nothing is sent without a selection; otherwise the selected file is sent. |
| ProfilePage.UploadDone | frontend/src/pages/Profile.jsx:86-91 | On success the user's avatar becomes the returned path and the selection is cleared. Otherwise nothing changes. |
| ProfilePage.PasswordSubmit | frontend/src/pages/Profile.jsx:116-136 | A mismatch is reported iff the new and confirm fields differ. Too short iff they agree and are under 6 characters. Otherwise the current and new passwords are sent. |
| ProfilePage.PasswordDone | frontend/src/pages/Profile.jsx:137-142 | A successful change clears the form. A failure keeps it. |
| ProfilePage.RequestPassesServer | frontend/src/pages/Profile.jsx:133-136 | A request the page sends, with a current password, passes the server's validation. |
| Shortcuts.Dispatch | frontend/src/hooks/useKeyboardShortcuts.jsx:16-95 | Only k, d, t, n, b, c, s and / act. c and s navigate iff shift is held. Navigation targets are the six pages. |
| Shortcuts.HandleKey | frontend/src/hooks/useKeyboardShortcuts.jsx:9-96 | Nothing happens without the platform's modifier (meta on Mac, ctrl elsewhere) or for another key. |
| Shortcuts.IgnoresCase | frontend/src/hooks/useKeyboardShortcuts.jsx:16 | The key's case does not matter. |
| Shortcuts.PageKeys | frontend/src/hooks/useKeyboardShortcuts.jsx:16-95 | With the modifier, k focuses the search and / shows the shortcut list. d/t/n/b open dashboard, tasks, notes and bookmarks. Shift-c and shift-s open the calendar and the profile. |
| Shortcuts.WrongModifier | frontend/src/hooks/useKeyboardShortcuts.jsx:11-14 | Ctrl on a Mac, or meta elsewhere, does nothing. |
| ThemeStore.Initial | frontend/src/store/themeStore.js:35-38 | The saved theme, or `light` when none is saved. The dark class is set iff the theme is `dark`. |
| ThemeStore.Toggle | frontend/src/store/themeStore.js:7-18 | `light` becomes `dark` and anything else becomes `light`. The saved value and dark class follow. |
| ThemeStore.SetTheme | frontend/src/store/themeStore.js:20-30 | The theme and saved value become the argument, with the dark class iff `dark`. |
| ThemeStore.ToggleTwice | frontend/src/store/themeStore.js:7-18 | For `light` or `dark`, toggling twice restores the theme, and the whole state when consistent. |
| ThemeStore.ToggleNormalises | frontend/src/store/themeStore.js:8 | Any other theme toggles to `light`, then `dark`. |
| AuthStore.Initial | frontend/src/store/authStore.js:4-22 | Authenticated iff there is a window, a token and a stored user that parses to a truthy value. No window or an unparsable user gives the signed-out state. |
| AuthStore.SetAuth | frontend/src/store/authStore.js:30 | Sets the user and token and marks the session authenticated. |
| AuthStore.UpdateUser | frontend/src/store/authStore.js:32 | Replaces only the user. |
| AuthStore.Logout | frontend/src/store/authStore.js:34 | Clears the user and token and marks the session unauthenticated. |
| AuthStore.Partialize | frontend/src/store/authStore.js:41-45 | Persists the user, token and flag. |
| AuthStore.Rehydrate | frontend/src/store/authStore.js:46-48 | Restores the persisted fields and marks the store hydrated. |
| AuthStore.SaveRestore | frontend/src/store/authStore.js:41-48 | Persisting then rehydrating restores the session, now hydrated. |
| AuthStore.LogoutForgets | frontend/src/store/authStore.js:34 | Logging out after signing in gives the signed-out initial state. |

## Left out

**Plumbing and environment**

- JWT issuing and the `protect` middleware: the model takes the caller's id, or the account's email key for the auth routes, as a parameter.
- bcrypt: hashing and comparison are a parameter. `Consistent` states that comparing a password with its own hash succeeds.
- multer storage and the file system: directory creation, the stored file itself and the deletion of the old avatar file are not modelled. The random file-name suffix is a parameter.
- Server.HandleError: the `console.error(err.stack)` log is not modelled; the development-mode flag is a parameter.
- Socket transport and the `connection` handler's logging: emits are an append-only log, and rooms are a map from socket to joined rooms.
- The clock, `Date`, `URL`, `isURL`, `isISO8601`, `isEmail` and `JSON.parse`: all are parameters.
- `Promise.all` in the batch update is modelled as sequential application. The updates touch disjoint documents unless an id repeats; for a repeated id the later item wins.
- Date rendering (`toLocaleDateString`, ISO strings): instants are integers, and an event description falling back to its start date is a `StartOf` value.
- Toasts, loading and error flags, the avatar preview `FileReader`, navigation side effects and focusing the search box.

**Behaviour not modelled**

- Listing.ParseQuery: only single string values of query parameters are modelled. Express's query parser also yields arrays (`?status=a&status=b`) and objects (`?search[$ne]=x`), which the routes pass to the database unchanged as `$in`-style matches or operators, and a non-string `$regex` makes the database fail (500). So `Listing.List`'s "500 iff the query fails to parse" holds for string-valued queries only. The frontend's listing calls send no parameters.
- Listing.Mentions: the search text is treated as a literal. Regular expression metacharacters in a search are not interpreted.
- Mongoose strict mode: unknown body paths are kept rather than dropped.
- Schemas.Cast: Mongoose's type coercion of the other paths is not modelled. A string `"true"` for a Boolean path, a number for a String path or `null` for an optional path is kept as given, and schema validation then refuses it (500), where Mongoose would coerce it or accept the `null`.
- Auth.UpdateProfile: a truthy `name` that is not a string is refused (500). Mongoose would cast a number or a boolean to its string and save it.
- Strings.Lower: case mapping is ASCII-only. `toLowerCase()` in the search and the shortcuts, and the database's case-insensitive regular expression in listings, also fold non-ASCII letters, so a search for `é` finds `É` in the source but not in the model.
- Strings.IsSpace: only the ASCII white-space characters are trimmed. JavaScript's `trim` also strips Unicode spaces such as U+00A0, U+2028 and U+FEFF, so a title made only of those is blank in the source but not in the model.
- Lengths are counted in Unicode scalar values. JavaScript counts UTF-16 code units, so `maxlength` and `substring(0, 100)` differ from the model for text outside the Basic Multilingual Plane.
- express-validator's coercion of non-string values: a non-string field reads as the empty string.
- The 404/403/500 message strings of the CRUD routes: only the status and the outcome are modelled.
- The Task and Bookmark schemas and the User schema's hooks: those model files are not part of this model. No defaults, casts or validation are invented for tasks and bookmarks. New users take their id, theme, avatar and preferences from a parameter, and their password hash from the bcrypt parameter. The User schema's validators, which `updateProfile` runs (`runValidators: true`), are assumed to accept every update the model makes.
- ObjectId casting of ids and owners: ids are strings. A non-string `user` or a different `_id` in an update body is a cast failure (500).
- Listing.Arrange: the relative order of documents with equal sort keys is not fixed (the database's order is unspecified).
- WidgetBatch.Items: an item without an `id` (an object lacking it, or a non-object element) matches no widget in the model. In the source the filter `{_id: undefined, user}` does not constrain `_id`, so the update goes to some widget of the caller that the database picks; which one is not determined by the code. An `id` that is present but not a string, or not castable to an ObjectId, is a cast error that fails the whole request in the source; the model treats it as matching no widget.
- TasksPage.PriorityColor: priority names that are `Object.prototype` properties (such as `constructor`) are treated like any other unknown priority.
- ActivityFeed.Activities: activities without a timestamp sort last. The browser's comparator gives `NaN` for them, so their position in the source is implementation-defined.
- Header.Matches: a record without a title is treated as having an empty title, where the source would throw.
- Header.Upcoming and ActivityFeed.EventActivity read the event's `start` property as an instant. The store's event records use `startDate`, so in the source this reads `undefined` and no event is ever upcoming; the model keeps the property name the code uses.

=== FILE: activity_feed.dfy ===
/** The dashboard's recent-activity feed: a few records from the front of
    each client list, newest first. */
module ActivityFeed {
  import opened Options
  import opened Json
  import Seqs
  import opened Sorting
  import opened DataStore
  import Header
  import Listing

  datatype Activity = Activity(kind: Collection, id: Value, title: string, description: string, timestamp: Option<int>)

  /** A task entry: "Completed task" exactly for completed tasks; stamped
      with `updatedAt` when it is set, else with `createdAt`. */
  function TaskActivity(t: Fields): (a: Activity)
    ensures a.kind == Tasks && a.description == Text(t, "title")
    ensures a.title == "Completed task" <==> Flag(t, "completed")
    ensures a.title == "Created task" <==> !Flag(t, "completed")
    ensures Flag(t, "updatedAt") ==> a.timestamp == Time(t, "updatedAt")
    ensures !Flag(t, "updatedAt") ==> a.timestamp == Time(t, "createdAt")
  {
    Activity(Tasks, Header.IdOf(t), if Flag(t, "completed") then "Completed task" else "Created task",
             Text(t, "title"), if Flag(t, "updatedAt") then Time(t, "updatedAt") else Time(t, "createdAt"))
  }

  function NoteActivity(n: Fields): Activity {
    Activity(Notes, Header.IdOf(n), "Created note", Text(n, "title"), Time(n, "createdAt"))
  }

  function BookmarkActivity(b: Fields): Activity {
    Activity(Bookmarks, Header.IdOf(b), "Saved bookmark", Text(b, "title"), Time(b, "createdAt"))
  }

  function EventActivity(e: Fields): Activity {
    Activity(Events, Header.IdOf(e), "Upcoming event", Text(e, "title"), Time(e, "start"))
  }

  function Entries(records: Records, entry: Fields -> Activity): (r: seq<Activity>)
    ensures |r| == |records|
    ensures forall i :: 0 <= i < |r| ==> r[i] == entry(records[i])
  {
    seq(|records|, i requires 0 <= i < |records| => entry(records[i]))
  }

  /** The tasks considered: the first three. */
  function TaskEntries(st: Stores): (r: seq<Activity>)
    ensures |r| == if |st.tasks| < 3 then |st.tasks| else 3
    ensures forall i :: 0 <= i < |r| ==> r[i] == TaskActivity(st.tasks[i])
  {
    Entries(Seqs.Take(st.tasks, 3), TaskActivity)
  }

  /** The notes considered: the first three. */
  function NoteEntries(st: Stores): (r: seq<Activity>)
    ensures |r| == if |st.notes| < 3 then |st.notes| else 3
    ensures forall i :: 0 <= i < |r| ==> r[i] == NoteActivity(st.notes[i])
  {
    Entries(Seqs.Take(st.notes, 3), NoteActivity)
  }

  /** The bookmarks considered: the first two. */
  function BookmarkEntries(st: Stores): (r: seq<Activity>)
    ensures |r| == if |st.bookmarks| < 2 then |st.bookmarks| else 2
    ensures forall i :: 0 <= i < |r| ==> r[i] == BookmarkActivity(st.bookmarks[i])
  {
    Entries(Seqs.Take(st.bookmarks, 2), BookmarkActivity)
  }

  /** The events considered: the first two upcoming ones. */
  function EventEntries(st: Stores, now: int): (r: seq<Activity>)
    ensures var u := Header.UpcomingEvents(st.events, now);
            && |r| == (if |u| < 2 then |u| else 2)
            && forall i :: 0 <= i < |r| ==> r[i] == EventActivity(u[i])
  {
    Entries(Seqs.Take(Header.UpcomingEvents(st.events, now), 2), EventActivity)
  }

  /** Three notes and two bookmarks from the front of their lists, and the
      first two upcoming events, in that order. */
  function OtherEntries(st: Stores, now: int): (r: seq<Activity>)
    ensures |r| <= 7
    ensures var nn, nb := |NoteEntries(st)|, |BookmarkEntries(st)|;
            && |r| == nn + nb + |EventEntries(st, now)|
            && r[..nn] == NoteEntries(st)
            && r[nn..nn + nb] == BookmarkEntries(st)
            && r[nn + nb..] == EventEntries(st, now)
  {
    var ns, bs, es := NoteEntries(st), BookmarkEntries(st), EventEntries(st, now);
    var r := ns + bs + es;
    assert r[..|ns|] == ns;
    assert r[|ns|..|ns| + |bs|] == bs;
    assert r[|ns| + |bs|..] == es;
    r
  }

  /** No entry past the tasks' is a task entry. */
  lemma OtherEntriesNoTasks(st: Stores, now: int, i: nat)
    requires i < |OtherEntries(st, now)|
    ensures OtherEntries(st, now)[i].kind != Tasks
  {
    var r := OtherEntries(st, now);
    var nn, nb := |NoteEntries(st)|, |BookmarkEntries(st)|;
    if i < nn {
      assert r[..nn][i] == NoteEntries(st)[i];
    } else if i < nn + nb {
      assert r[nn..nn + nb][i - nn] == BookmarkEntries(st)[i - nn];
    } else {
      assert r[nn + nb..][i - nn - nb] == EventEntries(st, now)[i - nn - nb];
    }
  }

  /** The entries considered, tasks first. */
  function Candidates(st: Stores, now: int): (r: seq<Activity>)
    ensures |r| <= 10
  {
    TaskEntries(st) + OtherEntries(st, now)
  }

  /** Whether `a` may be listed before `b`: newer first; an entry without a
      timestamp goes last. */
  predicate Newer(a: Activity, b: Activity) {
    Listing.AtMost(b.timestamp, a.timestamp)
  }

  lemma NewerIsTotalPreorder()
    ensures TotalPreorder((a: Activity, b: Activity) => Newer(a, b))
  {
    forall a: Activity, b: Activity, c: Activity
      ensures Newer(a, b) || Newer(b, a)
      ensures Newer(a, b) && Newer(b, c) ==> Newer(a, c)
    {
      Listing.AtMostTotal(c.timestamp, b.timestamp, a.timestamp);
      Listing.AtMostTotal(a.timestamp, b.timestamp, c.timestamp);
    }
  }

  /** `getActivities`: the candidates sorted newest first and cut to ten.
      At most ten candidates exist, so the cut never drops one. */
  function Activities(st: Stores, now: int): (r: seq<Activity>)
    ensures |r| <= 10
    ensures SortedBy(r, (a: Activity, b: Activity) => Newer(a, b))
    ensures multiset(r) == multiset(Candidates(st, now))
  {
    NewerIsTotalPreorder();
    Seqs.Take(Sort(Candidates(st, now), (a: Activity, b: Activity) => Newer(a, b)), 10)
  }

  /** Only the first three tasks can appear, however many there are. */
  lemma OnlyFrontTasks(st: Stores, now: int, a: Activity)
    requires a in Activities(st, now) && a.kind == Tasks
    ensures exists i :: 0 <= i < 3 && i < |st.tasks| && a == TaskActivity(st.tasks[i])
  {
    Shown(st, now, a);
    FrontTask(st, now, a);
  }

  lemma Shown(st: Stores, now: int, a: Activity)
    requires a in Activities(st, now)
    ensures a in Candidates(st, now)
  {
    assert a in multiset(Activities(st, now));
  }

  lemma FrontTask(st: Stores, now: int, a: Activity)
    requires a in Candidates(st, now) && a.kind == Tasks
    ensures exists i :: 0 <= i < 3 && i < |st.tasks| && a == TaskActivity(st.tasks[i])
  {
    var ts, os := TaskEntries(st), OtherEntries(st, now);
    var k :| 0 <= k < |ts + os| && (ts + os)[k] == a;
    if k >= |ts| {
      OtherEntriesNoTasks(st, now, k - |ts|);
      assert false;
    }
    assert ts[k] == a;
  }

  /** Each of the first three tasks is always shown. */
  lemma FrontTaskShown(st: Stores, now: int, i: nat)
    requires i < 3 && i < |st.tasks|
    ensures TaskActivity(st.tasks[i]) in Activities(st, now)
  {
    var ts := TaskEntries(st);
    var c := Candidates(st, now);
    assert c[i] == ts[i] == TaskActivity(st.tasks[i]);
    assert TaskActivity(st.tasks[i]) in multiset(c);
  }

  /** An upcoming event among the first two is always shown. */
  lemma UpcomingEventShown(st: Stores, now: int, e: Fields)
    requires e in Seqs.Take(Header.UpcomingEvents(st.events, now), 2)
    ensures EventActivity(e) in Activities(st, now)
  {
    EventCandidate(st, now, e);
    var c := Candidates(st, now);
    assert EventActivity(e) in multiset(c);
  }

  lemma EventCandidate(st: Stores, now: int, e: Fields)
    requires e in Seqs.Take(Header.UpcomingEvents(st.events, now), 2)
    ensures EventActivity(e) in Candidates(st, now)
  {
    var r := OtherEntries(st, now);
    var nn, nb := |NoteEntries(st)|, |BookmarkEntries(st)|;
    var fs := Seqs.Take(Header.UpcomingEvents(st.events, now), 2);
    var i :| 0 <= i < |fs| && fs[i] == e;
    assert EventEntries(st, now)[i] == EventActivity(e);
    assert r[nn + nb..][i] == EventActivity(e);
    assert r[nn + nb + i] in r;
  }
}

=== FILE: auth.dfy ===
/** The account routes: register, login, the current user, profile update,
    password change and avatar upload. Accounts are kept by email. Password
    hashing and comparison, the JWT and the `protect` middleware belong to code
    outside this model; hashing and comparison enter as a `Crypto` value and
    the authenticated account as its email key. */
module Auth {
  import opened Options
  import opened Strings
  import opened Json
  import Server

  datatype User = User(
    id: string,
    name: string,
    email: string,
    password: string,
    theme: Value,
    avatar: Value,
    preferences: Value)

  /** All accounts, by email. */
  type Users = map<string, User>

  /** The values a new account takes for the paths register does not set;
      the User schema, which decides them, is not part of this model. */
  datatype Fresh = Fresh(id: string, theme: Value, avatar: Value, preferences: Value)

  /** The password hashing of the User schema's save hook and its `comparePassword`. */
  datatype Crypto = Crypto(hash: string -> string, matches: (string, string) -> bool)

  /** The account as register and login return it: never the password. */
  datatype Summary = Summary(id: string, name: string, email: string, theme: Value, avatar: Value)

  /** The account as `me` and profile update return it. */
  datatype ProfileView = ProfileView(id: string, name: string, email: string, theme: Value, avatar: Value, preferences: Value)

  datatype FieldError = FieldError(field: string, message: string)

  datatype AuthReply =
    | Registered(user: Summary)
    | LoggedIn(summary: Summary)
    | Current(view: ProfileView)
    | PasswordChanged
    | AvatarSet(path: string)
    | Rejected(errors: seq<FieldError>)
    | Taken
    | BadCredentials
    | WrongPassword
    | NoFile
    | Failure(code: int, message: string)

  function Status(r: AuthReply): (code: int)
    ensures r.Registered? ==> code == 201
    ensures r.Rejected? || r.Taken? || r.NoFile? ==> code == 400
    ensures r.BadCredentials? || r.WrongPassword? ==> code == 401
  {
    match r
    case Registered(_) => 201
    case Rejected(_) => 400
    case Taken => 400
    case NoFile => 400
    case BadCredentials => 401
    case WrongPassword => 401
    case Failure(code, _) => code
    case _ => 200
  }

  /** The body message of each refusal. */
  function Message(r: AuthReply): string {
    match r
    case Taken => "User already exists with this email"
    case BadCredentials => "Invalid credentials"
    case WrongPassword => "Current password is incorrect"
    case NoFile => "Please upload an image file"
    case Failure(_, m) => m
    case _ => ""
  }

  datatype AuthOutcome = AuthOutcome(reply: AuthReply, users: Users)

  function SummaryOf(u: User): (s: Summary)
    ensures s.id == u.id && s.name == u.name && s.email == u.email
  {
    Summary(u.id, u.name, u.email, u.theme, u.avatar)
  }

  function ViewOf(u: User): ProfileView {
    ProfileView(u.id, u.name, u.email, u.theme, u.avatar, u.preferences)
  }

  /** The register chain, in order: the name after trimming has at least two
      characters, the email passes `isEmail`, the password has at least six. */
  function RegisterErrors(body: Fields, isEmail: string -> bool): (errs: seq<FieldError>)
    ensures |errs| == 0 <==>
      |Trim(Text(body, "name"))| >= 2 && isEmail(Text(body, "email")) && |Text(body, "password")| >= 6
    ensures |errs| <= 3
  {
    (if |Trim(Text(body, "name"))| < 2 then [FieldError("name", "Name must be at least 2 characters")] else [])
    + (if !isEmail(Text(body, "email")) then [FieldError("email", "Please provide a valid email")] else [])
    + (if |Text(body, "password")| < 6 then [FieldError("password", "Password must be at least 6 characters")] else [])
  }

  /** POST /register. */
  function Register(users: Users, body: Fields, isEmail: string -> bool, init: Fresh, crypto: Crypto): (o: AuthOutcome)
    ensures o.reply.Rejected? <==> |RegisterErrors(body, isEmail)| > 0
    ensures o.reply.Rejected? ==> o.reply.errors == RegisterErrors(body, isEmail)
    ensures o.reply.Taken? <==> |RegisterErrors(body, isEmail)| == 0 && Text(body, "email") in users
    ensures o.reply.Rejected? || o.reply.Taken? || o.reply.Registered?
    ensures !o.reply.Registered? ==> o.users == users
    ensures o.reply.Registered? ==>
      var email := Text(body, "email");
      && email !in users
      && o.users == users[email := User(init.id, Trim(Text(body, "name")), email,
                                        crypto.hash(Text(body, "password")),
                                        init.theme, init.avatar, init.preferences)]
      && o.reply.user == SummaryOf(o.users[email])
  {
    var errs := RegisterErrors(body, isEmail);
    var email := Text(body, "email");
    if |errs| > 0 then AuthOutcome(Rejected(errs), users)
    else if email in users then AuthOutcome(Taken, users)
    else
      var u := User(init.id, Trim(Text(body, "name")), email, crypto.hash(Text(body, "password")),
                    init.theme, init.avatar, init.preferences);
      AuthOutcome(Registered(SummaryOf(u)), users[email := u])
  }

  function LoginErrors(body: Fields, isEmail: string -> bool): (errs: seq<FieldError>)
    ensures |errs| == 0 <==> isEmail(Text(body, "email")) && |Text(body, "password")| > 0
  {
    (if !isEmail(Text(body, "email")) then [FieldError("email", "Please provide a valid email")] else [])
    + (if |Text(body, "password")| == 0 then [FieldError("password", "Password is required")] else [])
  }

  /** POST /login: an unknown email and a wrong password get the same 401. */
  function Login(users: Users, body: Fields, isEmail: string -> bool, crypto: Crypto): (o: AuthOutcome)
    ensures o.users == users
    ensures o.reply.Rejected? <==> |LoginErrors(body, isEmail)| > 0
    ensures o.reply.LoggedIn? <==>
      |LoginErrors(body, isEmail)| == 0 && Text(body, "email") in users
      && crypto.matches(Text(body, "password"), users[Text(body, "email")].password)
    ensures o.reply.LoggedIn? ==> o.reply.summary == SummaryOf(users[Text(body, "email")])
    ensures o.reply.Rejected? || o.reply.LoggedIn? || o.reply == BadCredentials
  {
    var errs := LoginErrors(body, isEmail);
    var email := Text(body, "email");
    if |errs| > 0 then AuthOutcome(Rejected(errs), users)
    else if email !in users then AuthOutcome(BadCredentials, users)
    else if !crypto.matches(Text(body, "password"), users[email].password) then AuthOutcome(BadCredentials, users)
    else AuthOutcome(LoggedIn(SummaryOf(users[email])), users)
  }

  /** A reply for a missing account: reading a field of `null` throws. */
  function NoAccount(message: string, users: Users): AuthOutcome {
    AuthOutcome(Failure(500, message), users)
  }

  /** GET /me. */
  function Me(users: Users, account: string): (o: AuthOutcome)
    ensures o.users == users
    ensures account in users <==> o.reply.Current?
    ensures account in users ==> o.reply.view == ViewOf(users[account])
  {
    if account !in users then NoAccount("Error fetching user data", users)
    else AuthOutcome(Current(ViewOf(users[account])), users)
  }

  /** PUT /profile: name, theme and preferences, each only when truthy.
      A truthy name that is not a string is a cast error. */
  function UpdateProfile(users: Users, account: string, body: Fields): (o: AuthOutcome)
    ensures o.reply.Current? || o.reply.Failure?
    ensures o.reply.Current? <==> account in users && (Flag(body, "name") ==> body["name"].Str?)
    ensures o.reply.Failure? ==> o.users == users
    ensures o.reply.Current? ==>
      && account in users
      && o.users.Keys == users.Keys
      && (forall e :: e in users && e != account ==> o.users[e] == users[e])
      && var before, after := users[account], o.users[account];
         && after.id == before.id && after.email == before.email
         && after.password == before.password && after.avatar == before.avatar
         && (if Flag(body, "name") then body["name"] == Str(after.name) else after.name == before.name)
         && after.theme == (if Flag(body, "theme") then body["theme"] else before.theme)
         && after.preferences == (if Flag(body, "preferences") then body["preferences"] else before.preferences)
         && o.reply.view == ViewOf(after)
  {
    if Flag(body, "name") && !body["name"].Str? then AuthOutcome(Failure(500, "Error updating profile"), users)
    else if account !in users then NoAccount("Error updating profile", users)
    else
      var u := users[account];
      var u1 := if Flag(body, "name") then u.(name := body["name"].s) else u;
      var u2 := if Flag(body, "theme") then u1.(theme := body["theme"]) else u1;
      var u3 := if Flag(body, "preferences") then u2.(preferences := body["preferences"]) else u2;
      AuthOutcome(Current(ViewOf(u3)), users[account := u3])
  }

  function PasswordErrors(body: Fields): (errs: seq<FieldError>)
    ensures |errs| == 0 <==> |Text(body, "currentPassword")| > 0 && |Text(body, "newPassword")| >= 6
  {
    (if |Text(body, "currentPassword")| == 0 then [FieldError("currentPassword", "Current password is required")] else [])
    + (if |Text(body, "newPassword")| < 6 then [FieldError("newPassword", "New password must be at least 6 characters")] else [])
  }

  /** PUT /change-password: the stored password changes only when the
      current one matches, and then to the hash of the new one. */
  function ChangePassword(users: Users, account: string, body: Fields, crypto: Crypto): (o: AuthOutcome)
    ensures o.reply.Rejected? <==> |PasswordErrors(body)| > 0
    ensures o.reply.WrongPassword? <==>
      |PasswordErrors(body)| == 0 && account in users
      && !crypto.matches(Text(body, "currentPassword"), users[account].password)
    ensures o.reply.PasswordChanged? <==>
      |PasswordErrors(body)| == 0 && account in users
      && crypto.matches(Text(body, "currentPassword"), users[account].password)
    ensures !o.reply.PasswordChanged? ==> o.users == users
    ensures o.reply.PasswordChanged? ==>
      && account in users
      && crypto.matches(Text(body, "currentPassword"), users[account].password)
      && o.users == users[account := users[account].(password := crypto.hash(Text(body, "newPassword")))]
  {
    var errs := PasswordErrors(body);
    if |errs| > 0 then AuthOutcome(Rejected(errs), users)
    else if account !in users then NoAccount("Error changing password", users)
    else if !crypto.matches(Text(body, "currentPassword"), users[account].password) then AuthOutcome(WrongPassword, users)
    else AuthOutcome(PasswordChanged, users[account := users[account].(password := crypto.hash(Text(body, "newPassword")))])
  }

  /** Node's `path.extname`: from the last `.` of the last path segment to
      its end; empty when the segment has no `.`, starts with its only
      leading `.` (a dot file), or is `..`. Trailing `/` are ignored. */
  function ExtName(path: string): (r: string)
    ensures r == "" || (r[0] == '.' && '.' !in r[1..] && '/' !in r)
  {
    var base := Basename(StripSlashes(path));
    var d := LastDot(base);
    if d.None? || d.value == 0 || base == ".." then ""
    else base[d.value..]
  }

  function StripSlashes(s: string): (r: string)
    ensures |r| <= |s| && r == s[..|r|]
    ensures |r| == 0 || r[|r| - 1] != '/'
  {
    if |s| > 0 && s[|s| - 1] == '/' then StripSlashes(s[..|s| - 1]) else s
  }

  /** The text after the last `/`. */
  function Basename(s: string): (r: string)
    ensures '/' !in r
    ensures |r| <= |s| && r == s[|s| - |r|..]
  {
    if |s| == 0 then ""
    else if s[|s| - 1] == '/' then ""
    else Basename(s[..|s| - 1]) + [s[|s| - 1]]
  }

  function LastDot(s: string): (r: Option<nat>)
    ensures r.Some? ==> r.value < |s| && s[r.value] == '.' && '.' !in s[r.value + 1..]
    ensures r.None? ==> '.' !in s
  {
    if |s| == 0 then None
    else if s[|s| - 1] == '.' then Some(|s| - 1)
    else
      var d := LastDot(s[..|s| - 1]);
      assert d.Some? ==> s[d.value + 1..] == s[..|s| - 1][d.value + 1..] + [s[|s| - 1]];
      assert d.None? ==> s == s[..|s| - 1] + [s[|s| - 1]];
      d
  }

  /** `/jpeg|jpg|png|gif|webp/.test(x)`. */
  predicate ImageWord(x: string) {
    Contains(x, "jpeg") || Contains(x, "jpg") || Contains(x, "png") || Contains(x, "gif") || Contains(x, "webp")
  }

  /** multer's `fileFilter`: the lower-cased extension and the MIME type
      (as sent, case-sensitively) both mention an image format. */
  predicate FileAccepted(originalName: string, mimetype: string) {
    ImageWord(Lower(ExtName(originalName))) && ImageWord(mimetype)
  }

  const AvatarLimit := 5 * 1024 * 1024

  /** An uploaded file as multer reports it. */
  datatype Upload = Upload(originalName: string, mimetype: string, size: nat)

  /** The stored file name: `avatar-` + the time-and-random suffix + the
      original extension, as sent. */
  function AvatarFile(suffix: string, originalName: string): string {
    "avatar-" + suffix + ExtName(originalName)
  }

  /** PUT /avatar. A refused file becomes an error handled by the server's
      error handler (no status, so 500); a file over the limit likewise. */
  function Avatar(users: Users, account: string, file: Option<Upload>, suffix: string): (o: AuthOutcome)
    ensures file.None? <==> o.reply.NoFile?
    ensures o.reply.AvatarSet? <==>
      file.Some? && FileAccepted(file.value.originalName, file.value.mimetype)
      && file.value.size <= AvatarLimit && account in users
    ensures !o.reply.AvatarSet? ==> o.users == users
    ensures o.reply.AvatarSet? ==>
      && file.Some? && FileAccepted(file.value.originalName, file.value.mimetype)
      && file.value.size <= AvatarLimit
      && account in users
      && o.reply.path == "/uploads/avatars/" + AvatarFile(suffix, file.value.originalName)
      && o.users == users[account := users[account].(avatar := Str(o.reply.path))]
    ensures file.Some? && !FileAccepted(file.value.originalName, file.value.mimetype) ==>
      o.reply == Failure(500, "Only image files are allowed (jpeg, jpg, png, gif, webp)")
  {
    match file
    case None => AuthOutcome(NoFile, users)
    case Some(f) =>
      if !FileAccepted(f.originalName, f.mimetype) then
        AuthOutcome(Failure(Server.ErrorStatus(None), Server.ErrorMessage(Some("Only image files are allowed (jpeg, jpg, png, gif, webp)"))), users)
      else if f.size > AvatarLimit then
        AuthOutcome(Failure(Server.ErrorStatus(None), Server.ErrorMessage(Some("File too large"))), users)
      else if account !in users then NoAccount("Error uploading avatar", users)
      else
        var path := "/uploads/avatars/" + AvatarFile(suffix, f.originalName);
        AuthOutcome(AvatarSet(path), users[account := users[account].(avatar := Str(path))])
  }

  /** Sending the same profile update twice is sending it once. */
  lemma UpdateProfileTwice(users: Users, account: string, body: Fields)
    ensures var o := UpdateProfile(users, account, body);
            UpdateProfile(o.users, account, body) == o
  {
    var o := UpdateProfile(users, account, body);
    if o.reply.Current? {
      assert o.users[account] == users[account := o.users[account]][account];
    }
  }

  /** After a profile update, `me` returns what the update returned. */
  lemma UpdateProfileThenMe(users: Users, account: string, body: Fields)
    requires UpdateProfile(users, account, body).reply.Current?
    ensures var o := UpdateProfile(users, account, body);
            Me(o.users, account) == AuthOutcome(o.reply, o.users)
  {
  }

  /** After an avatar upload, `me` shows the new avatar path. */
  lemma AvatarThenMe(users: Users, account: string, file: Option<Upload>, suffix: string)
    requires Avatar(users, account, file, suffix).reply.AvatarSet?
    ensures var o := Avatar(users, account, file, suffix);
            Me(o.users, account).reply.view.avatar == Str(o.reply.path)
  {
  }

  /** Hashing and comparison agree: a password matches its own hash. */
  ghost predicate Consistent(crypto: Crypto) {
    forall p :: crypto.matches(p, crypto.hash(p))
  }

  /** An unknown email and a wrong password are told apart by nothing in the reply. */
  lemma LoginFailuresAlike(users: Users, unknown: Fields, wrong: Fields, isEmail: string -> bool, crypto: Crypto)
    requires |LoginErrors(unknown, isEmail)| == 0 && Text(unknown, "email") !in users
    requires |LoginErrors(wrong, isEmail)| == 0 && Text(wrong, "email") in users
    requires !crypto.matches(Text(wrong, "password"), users[Text(wrong, "email")].password)
    ensures Login(users, unknown, isEmail, crypto) == Login(users, wrong, isEmail, crypto)
    ensures Status(Login(users, unknown, isEmail, crypto).reply) == 401
  {
  }

  /** An account just registered logs in with the same email and password. */
  lemma RegisterThenLogin(users: Users, body: Fields, isEmail: string -> bool, init: Fresh, crypto: Crypto)
    requires Consistent(crypto)
    requires Register(users, body, isEmail, init, crypto).reply.Registered?
    ensures var o := Register(users, body, isEmail, init, crypto);
            Login(o.users, body, isEmail, crypto).reply == LoggedIn(o.reply.user)
  {
    var o := Register(users, body, isEmail, init, crypto);
    var email := Text(body, "email");
    assert o.users[email].password == crypto.hash(Text(body, "password"));
    assert crypto.matches(Text(body, "password"), o.users[email].password);
  }

  /** After a password change the new password logs in, and the old one
      no longer does unless it matches the new hash too. */
  lemma ChangePasswordThenLogin(users: Users, account: string, body: Fields, login: Fields, isEmail: string -> bool, crypto: Crypto)
    requires Consistent(crypto)
    requires ChangePassword(users, account, body, crypto).reply.PasswordChanged?
    requires Text(login, "email") == account && isEmail(account)
    requires Text(login, "password") == Text(body, "newPassword")
    ensures var o := ChangePassword(users, account, body, crypto);
            Login(o.users, login, isEmail, crypto).reply == LoggedIn(SummaryOf(users[account]))
  {
    var o := ChangePassword(users, account, body, crypto);
    assert o.users[account] == users[account].(password := crypto.hash(Text(body, "newPassword")));
    assert crypto.matches(Text(login, "password"), o.users[account].password);
  }

  /** A wrong current password leaves every account as it was. */
  lemma WrongPasswordKeepsAccounts(users: Users, account: string, body: Fields, crypto: Crypto)
    requires |PasswordErrors(body)| == 0 && account in users
    requires !crypto.matches(Text(body, "currentPassword"), users[account].password)
    ensures ChangePassword(users, account, body, crypto) == AuthOutcome(WrongPassword, users)
    ensures Status(WrongPassword) == 401
  {
  }

  lemma {:induction false} StripSlashesFixed(s: string)
    requires |s| == 0 || s[|s| - 1] != '/'
    ensures StripSlashes(s) == s
  {
  }

  lemma {:induction false} BasenameWhole(s: string)
    requires '/' !in s
    ensures Basename(s) == s
  {
    if |s| > 0 {
      assert s == s[..|s| - 1] + [s[|s| - 1]];
      BasenameWhole(s[..|s| - 1]);
    }
  }

  lemma {:induction false} LastDotAfter(stem: string, ext: string)
    requires '.' !in ext
    ensures LastDot(stem + "." + ext) == Some(|stem|)
    decreases |ext|
  {
    var s := stem + "." + ext;
    if |ext| > 0 {
      var e := ext[..|ext| - 1];
      assert s[..|s| - 1] == stem + "." + e;
      assert ext[|ext| - 1] in ext;
      LastDotAfter(stem, e);
    }
  }

  /** The extension kept in the avatar file name: for a plain file name
      `stem.ext` with no further `.` in `ext`, it is `.ext`. */
  lemma ExtNameOfName(stem: string, ext: string)
    requires '/' !in stem && '/' !in ext && '.' !in ext
    requires |stem| > 0 && stem != "."
    ensures ExtName(stem + "." + ext) == "." + ext
  {
    var s := stem + "." + ext;
    NoSlashJoined(stem, ext);
    assert s[|s| - 1] in s;
    StripSlashesFixed(s);
    BasenameWhole(s);
    LastDotAfter(stem, ext);
    assert s != ".." by {
      if |s| == 2 {
        assert stem == s[..1];
      }
    }
    assert s[|stem|..] == "." + ext;
  }

  lemma NoSlashJoined(stem: string, ext: string)
    requires '/' !in stem && '/' !in ext
    ensures '/' !in stem + "." + ext
  {
    var s := stem + "." + ext;
    forall i | 0 <= i < |s| ensures s[i] != '/' {
      if i < |stem| { assert s[i] == stem[i]; }
      else if i > |stem| { assert s[i] == ext[i - |stem| - 1]; }
    }
  }
}

=== FILE: auth_store.dfy ===
/** The client's session: the signed-in user, the token, the signed-in flag
    and whether the saved session has been restored. */
module AuthStore {
  import opened Options
  import opened Json

  datatype Session = Session(user: Value, token: Option<string>, isAuthenticated: bool, hydrated: bool)

  /** The part written to local storage. */
  datatype Saved = Saved(user: Value, token: Option<string>, isAuthenticated: bool)

  /** What the browser holds: whether there is a window, the raw `token` and
      `user` items, and `JSON.parse` (`None` when it throws). */
  datatype Browser = Browser(hasWindow: bool, token: Option<string>, userRaw: Option<string>, parse: string -> Option<Value>)

  predicate Present(s: Option<string>) {
    s.Some? && |s.value| > 0
  }

  /** `getInitialAuthState`: signed in exactly when a token and a stored
      user are both present; no window, or an unreadable stored user, gives
      the signed-out state. */
  function Initial(b: Browser): (s: Session)
    ensures !s.hydrated
    ensures s.isAuthenticated <==>
      b.hasWindow && Present(b.token) && Present(b.userRaw)
      && b.parse(b.userRaw.value).Some? && Truthy(b.parse(b.userRaw.value).value)
    ensures !b.hasWindow ==> s == Session(Null, None, false, false)
    ensures b.hasWindow && Present(b.userRaw) && b.parse(b.userRaw.value).None? ==> s == Session(Null, None, false, false)
    ensures s.isAuthenticated ==> s.token == b.token
  {
    if !b.hasWindow then Session(Null, None, false, false)
    else if Present(b.userRaw) && b.parse(b.userRaw.value).None? then Session(Null, None, false, false)
    else
      var user := if Present(b.userRaw) then b.parse(b.userRaw.value).value else Null;
      Session(user, b.token, Present(b.token) && Truthy(user), false)
  }

  /** `setAuth(user, token)`. */
  function SetAuth(s: Session, user: Value, token: string): (r: Session)
    ensures r.user == user && r.token == Some(token) && r.isAuthenticated
    ensures r.hydrated == s.hydrated
  {
    s.(user := user, token := Some(token), isAuthenticated := true)
  }

  /** `updateUser(user)`: only the user changes. */
  function UpdateUser(s: Session, user: Value): (r: Session)
    ensures r.user == user
    ensures r.token == s.token && r.isAuthenticated == s.isAuthenticated && r.hydrated == s.hydrated
  {
    s.(user := user)
  }

  /** `logout`. */
  function Logout(s: Session): (r: Session)
    ensures r.user == Null && r.token.None? && !r.isAuthenticated
    ensures r.hydrated == s.hydrated
  {
    s.(user := Null, token := None, isAuthenticated := false)
  }

  /** `partialize`: user, token and flag, never the hydration mark. */
  function Partialize(s: Session): (p: Saved)
    ensures p.user == s.user && p.token == s.token && p.isAuthenticated == s.isAuthenticated
  {
    Saved(s.user, s.token, s.isAuthenticated)
  }

  /** Restoring a saved session over the current one, then marking it restored. */
  function Rehydrate(s: Session, p: Saved): (r: Session)
    ensures r.user == p.user && r.token == p.token && r.isAuthenticated == p.isAuthenticated
    ensures r.hydrated
  {
    Session(p.user, p.token, p.isAuthenticated, true)
  }

  /** Saving and restoring loses nothing but the hydration mark. */
  lemma SaveRestore(s: Session, t: Session)
    ensures Rehydrate(t, Partialize(s)) == s.(hydrated := true)
  {
  }

  /** After logging out, whatever came before, the session is the one a
      browser without a window starts with. */
  lemma LogoutForgets(s: Session, user: Value, token: string, b: Browser)
    requires !b.hasWindow
    ensures Logout(SetAuth(s, user, token)) == Initial(b).(hydrated := s.hydrated)
  {
  }
}

=== FILE: bookmarks_page.dfy ===
/** The bookmarks page: the list filter, the category list, the favourite
    toggle and the bookmark form. */
module BookmarksPage {
  import opened Json
  import Seqs
  import opened DataStore

  /** Whether a bookmark is shown under a filter: "all", "favorites", or
      otherwise a category. */
  predicate Shows(filter: string, b: Fields) {
    if filter == "all" then true
    else if filter == "favorites" then Flag(b, "isFavorite")
    else HasText(b, "category", filter)
  }

  /** `filteredBookmarks`: the shown bookmarks, in list order. */
  function Filtered(bookmarks: Records, filter: string): (r: Records)
    ensures forall b :: b in r <==> b in bookmarks && Shows(filter, b)
    ensures Seqs.Subsequence(r, bookmarks)
  {
    Seqs.FilterIsSubsequence(bookmarks, b => Shows(filter, b));
    Seqs.Filter(bookmarks, b => Shows(filter, b))
  }

  /** `b.category`, `undefined` (here `null`) when absent. */
  function CategoryOf(b: Fields): Value {
    if "category" in b then b["category"] else Null
  }

  function CategoryValues(bookmarks: Records): (r: seq<Value>)
    ensures |r| == |bookmarks|
    ensures forall i :: 0 <= i < |r| ==> r[i] == CategoryOf(bookmarks[i])
  {
    seq(|bookmarks|, i requires 0 <= i < |bookmarks| => CategoryOf(bookmarks[i]))
  }

  /** `[...new Set(bookmarks.map(b => b.category))]`: each category once,
      every bookmark's category present, in order of first appearance. */
  function Categories(bookmarks: Records): (r: seq<Value>)
    ensures Seqs.Distinct(r)
    ensures forall i :: 0 <= i < |bookmarks| ==> CategoryOf(bookmarks[i]) in r
    ensures forall c :: c in r ==> exists i :: 0 <= i < |bookmarks| && CategoryOf(bookmarks[i]) == c
    ensures forall c :: c in r ==> c in CategoryValues(bookmarks)
    ensures forall i, j :: 0 <= i < j < |r| ==>
      Seqs.FirstIndex(CategoryValues(bookmarks), r[i]) < Seqs.FirstIndex(CategoryValues(bookmarks), r[j])
  {
    var vs := CategoryValues(bookmarks);
    var r := Seqs.Unique(vs);
    assert forall i :: 0 <= i < |bookmarks| ==> vs[i] in vs;
    r
  }

  /** Picking a listed category as the filter shows a bookmark. */
  lemma CategoryFilterFinds(bookmarks: Records, c: string)
    requires Str(c) in Categories(bookmarks) && c != "all" && c != "favorites"
    ensures |Filtered(bookmarks, c)| > 0
  {
    var i :| 0 <= i < |bookmarks| && CategoryOf(bookmarks[i]) == Str(c);
    assert bookmarks[i] in bookmarks;
    assert bookmarks[i] in Filtered(bookmarks, c);
  }

  /** The update sent by the favourite toggle: only the flipped flag. */
  function FavoritePayload(b: Fields): (p: Fields)
    ensures p.Keys == {"isFavorite"}
    ensures p["isFavorite"] == Bool(!Flag(b, "isFavorite"))
  {
    map["isFavorite" := Bool(!Flag(b, "isFavorite"))]
  }

  /** Applying the toggle touches no other property. */
  lemma FavoriteTouchesNothingElse(b: Fields, k: string)
    requires k in b && k != "isFavorite"
    ensures Spread(b, FavoritePayload(b))[k] == b[k]
  {
  }

  datatype BookmarkForm = BookmarkForm(title: Value, url: Value, description: Value, tags: Value, category: Value, isFavorite: Value)

  /** The form as `resetForm` leaves it and as the page opens. */
  const EmptyForm := BookmarkForm(Str(""), Str(""), Str(""), Arr([]), Str("Uncategorized"), Bool(false))

  /** The form filled from a bookmark being edited. */
  function EditForm(b: Fields): (f: BookmarkForm)
    ensures Flag(b, "description") ==> f.description == b["description"]
    ensures !Flag(b, "description") ==> f.description == Str("")
    ensures Flag(b, "tags") ==> f.tags == b["tags"]
    ensures !Flag(b, "tags") ==> f.tags == Arr([])
    ensures f.category == CategoryOf(b)
    ensures f.title == (if "title" in b then b["title"] else Null)
    ensures f.url == (if "url" in b then b["url"] else Null)
    ensures f.isFavorite == (if "isFavorite" in b then b["isFavorite"] else Null)
  {
    BookmarkForm(
      if "title" in b then b["title"] else Null,
      if "url" in b then b["url"] else Null,
      if Flag(b, "description") then b["description"] else Str(""),
      if Flag(b, "tags") then b["tags"] else Arr([]),
      CategoryOf(b),
      if "isFavorite" in b then b["isFavorite"] else Null)
  }
}

=== FILE: casting.dfy ===
/** The value conversions Mongoose applies to a path before validation: the
    `trim` setter, conversion to a Date, and the defaults of the sub-paths of a
    nested object. Each is idempotent, which is what keeps stored documents
    unchanged when they are cast again on update. */
module Casting {
  import opened Options
  import opened Strings
  import opened Json

  /** The `trim: true` setter of a string path; other values are left to validation. */
  function TrimText(v: Value): Value {
    if v.Str? then Str(Trim(v.s)) else v
  }

  /** The `trim: true` setter of an array-of-strings path, applied item by item. */
  function TrimTexts(v: Value): Value {
    if v.Arr? then Arr(seq(|v.items|, i requires 0 <= i < |v.items| => TrimText(v.items[i]))) else v
  }

  /** Casting to a Date path: instants stay, strings are parsed by `instant`
      (the JavaScript `Date` constructor), anything else is a cast error. */
  function CastDate(v: Value, instant: string -> Option<int>): (r: Option<Value>)
    ensures r.Some? ==> r.value.Num?
    ensures v.Num? ==> r == Some(v)
  {
    match v
    case Num(_) => Some(v)
    case Str(s) => (if instant(s).Some? then Some(Num(instant(s).value)) else None)
    case _ => None
  }

  /** One sub-path of a nested object: its default when absent, the value when
      it has the right type, a cast error otherwise. */
  function SubValue(p: Fields, key: string, fallback: Value, ok: Value -> bool): Option<Value> {
    if key !in p then Some(fallback) else if ok(p[key]) then Some(p[key]) else None
  }

  /** A nested object with two sub-paths `a` and `b`, each defaulted. */
  function CastPair(v: Value, a: string, da: Value, oka: Value -> bool,
                    b: string, db: Value, okb: Value -> bool): (r: Option<Value>)
    ensures r.Some? ==> r.value.Obj? && r.value.props.Keys == {a, b}
  {
    if !v.Obj? then None
    else
      var x :- SubValue(v.props, a, da, oka);
      var y :- SubValue(v.props, b, db, okb);
      Some(Obj(map[a := x, b := y]))
  }

  lemma TrimTextIdempotent(v: Value)
    ensures TrimText(TrimText(v)) == TrimText(v)
  {
    if v.Str? {
      TrimIdempotent(v.s);
    }
  }

  lemma TrimTextsIdempotent(v: Value)
    ensures TrimTexts(TrimTexts(v)) == TrimTexts(v)
  {
    if v.Arr? {
      forall i | 0 <= i < |v.items| ensures TrimText(TrimText(v.items[i])) == TrimText(v.items[i]) {
        TrimTextIdempotent(v.items[i]);
      }
    }
  }

  /** An array of trimmed strings is left alone by the setter. */
  lemma TrimTextsFixed(ts: seq<string>)
    requires forall i :: 0 <= i < |ts| ==> Trimmed(ts[i])
    ensures TrimTexts(Strs(ts)) == Strs(ts)
  {
    forall i | 0 <= i < |ts| ensures Trim(ts[i]) == ts[i] {
      TrimmedIsFixed(ts[i]);
    }
    assert TrimTexts(Strs(ts)).items == Strs(ts).items;
  }

  lemma CastPairIdempotent(v: Value, a: string, da: Value, oka: Value -> bool,
                           b: string, db: Value, okb: Value -> bool)
    requires a != b && oka(da) && okb(db)
    requires CastPair(v, a, da, oka, b, db, okb).Some?
    ensures var w := CastPair(v, a, da, oka, b, db, okb).value;
            CastPair(w, a, da, oka, b, db, okb) == Some(w)
  {
  }
}

=== FILE: dashboard.dfy ===
/** The dashboard page: the widget panels and their drag-and-drop order,
    the preview list of each panel, and the counters loaded from the server. */
module Dashboard {
  import opened Options
  import opened Json
  import Seqs
  import opened DataStore

  datatype Panel = Panel(id: string, title: string)

  /** The panels in their initial order. */
  const InitialPanels: seq<Panel> := [
    Panel("tasks", "Recent Tasks"),
    Panel("notes", "Recent Notes"),
    Panel("bookmarks", "Bookmarks"),
    Panel("events", "Upcoming Events")
  ]

  function Ids(panels: seq<Panel>): (r: seq<string>)
    ensures |r| == |panels|
    ensures forall i :: 0 <= i < |r| ==> r[i] == panels[i].id
  {
    seq(|panels|, i requires 0 <= i < |panels| => panels[i].id)
  }

  lemma InitialOrder()
    ensures Ids(InitialPanels) == ["tasks", "notes", "bookmarks", "events"]
    ensures Seqs.Distinct(Ids(InitialPanels))
  {
  }

  /** `arrayMove(s, from, to)`: the element at `from` taken out and put
      back at `to`; the others keep their relative order. */
  function Move<T>(s: seq<T>, from: nat, to: nat): (r: seq<T>)
    requires from < |s| && to < |s|
    ensures |r| == |s| && r[to] == s[from]
    ensures multiset(r) == multiset(s)
    ensures r[..to] + r[to + 1..] == s[..from] + s[from + 1..]
  {
    var rest := s[..from] + s[from + 1..];
    var r := rest[..to] + [s[from]] + rest[to..];
    assert s == s[..from] + [s[from]] + s[from + 1..];
    assert r[..to] == rest[..to] && r[to + 1..] == rest[to..];
    assert rest == rest[..to] + rest[to..];
    assert multiset(s) == multiset(s[..from]) + multiset{s[from]} + multiset(s[from + 1..]);
    assert multiset(r) == multiset(rest[..to]) + multiset{s[from]} + multiset(rest[to..]);
    assert multiset(rest) == multiset(rest[..to]) + multiset(rest[to..]);
    assert multiset(rest) == multiset(s[..from]) + multiset(s[from + 1..]);
    assert multiset(r) == multiset(rest) + multiset{s[from]};
    r
  }

  /** Moving an element back to where it came from restores the order. */
  lemma MoveBack<T>(s: seq<T>, from: nat, to: nat)
    requires from < |s| && to < |s|
    ensures Move(Move(s, from, to), to, from) == s
  {
    var back := Move(Move(s, from, to), to, from);
    SameWithoutSame(back, s, from);
  }

  /** Two sequences of one length that agree at `i` and agree once the
      element at `i` is taken out are equal. */
  lemma SameWithoutSame<T>(a: seq<T>, b: seq<T>, i: nat)
    requires |a| == |b| && i < |a| && a[i] == b[i]
    requires a[..i] + a[i + 1..] == b[..i] + b[i + 1..]
    ensures a == b
  {
    forall j | 0 <= j < |a|
      ensures a[j] == b[j]
    {
      if j < i {
        assert a[j] == (a[..i] + a[i + 1..])[j];
      } else if j > i {
        assert a[j] == (a[..i] + a[i + 1..])[j - 1];
      }
    }
  }

  /** The first position of a panel id (`findIndex`). */
  function IndexOf(panels: seq<Panel>, id: string): (i: nat)
    requires id in Ids(panels)
    ensures i < |panels| && panels[i].id == id
    ensures forall j :: 0 <= j < i ==> panels[j].id != id
  {
    Seqs.FirstIndex(Ids(panels), id)
  }

  /** `handleDragEnd`: dropping a panel on itself changes nothing; otherwise
      the dragged panel takes the place of the one it was dropped on. The
      drag library reports only ids of the panels on the page. */
  function DragEnd(panels: seq<Panel>, active: string, over: string): (r: seq<Panel>)
    requires active in Ids(panels) && over in Ids(panels)
    ensures |r| == |panels|
    ensures active == over ==> r == panels
    ensures multiset(r) == multiset(panels)
    ensures r[IndexOf(panels, over)] == panels[IndexOf(panels, active)]
  {
    if active == over then panels
    else Move(panels, IndexOf(panels, active), IndexOf(panels, over))
  }

  const PreviewSize := 5

  /** `getWidgetData(type)`: the first five records of the panel's list, or
      nothing for a type without a list. */
  function WidgetData(st: Stores, kind: string): (r: Records)
    ensures |r| <= PreviewSize
    ensures kind !in {"tasks", "notes", "bookmarks", "events"} ==> r == []
    ensures kind == "tasks" ==> |r| <= |st.tasks| && r == st.tasks[..|r|] && (|r| == PreviewSize || r == st.tasks)
    ensures kind == "notes" ==> |r| <= |st.notes| && r == st.notes[..|r|] && (|r| == PreviewSize || r == st.notes)
    ensures kind == "bookmarks" ==> |r| <= |st.bookmarks| && r == st.bookmarks[..|r|] && (|r| == PreviewSize || r == st.bookmarks)
    ensures kind == "events" ==> |r| <= |st.events| && r == st.events[..|r|] && (|r| == PreviewSize || r == st.events)
  {
    if kind == "tasks" then Seqs.Take(st.tasks, PreviewSize)
    else if kind == "notes" then Seqs.Take(st.notes, PreviewSize)
    else if kind == "bookmarks" then Seqs.Take(st.bookmarks, PreviewSize)
    else if kind == "events" then Seqs.Take(st.events, PreviewSize)
    else []
  }

  /** Every panel of the initial layout previews a list. */
  lemma PanelsHaveData(st: Stores, p: Panel)
    requires p in InitialPanels
    ensures WidgetData(st, p.id) == Seqs.Take(Of(st, if p.id == "tasks" then Tasks else if p.id == "notes" then Notes else if p.id == "bookmarks" then Bookmarks else Events), PreviewSize)
  {
  }

  datatype Stats = Stats(totalTasks: nat, completedTasks: nat, totalNotes: nat, totalBookmarks: nat)

  /** `t.completed` is truthy. */
  predicate Completed(t: Fields) {
    Flag(t, "completed")
  }

  /** A list response that resolved: the records when it reports success. */
  type Response = Option<Records>

  /** The four responses `Promise.all` resolves with. */
  datatype Responses = Responses(tasks: Response, notes: Response, bookmarks: Response, events: Response)

  /** `loadDashboardData`: when any request rejects, `Promise.all` rejects
      and nothing is set (`None`). Otherwise each response reporting success
      replaces its store and its counters, and the others leave both as they
      were. */
  function Load(st: Stores, stats: Stats, all: Option<Responses>): (r: (Stores, Stats))
    ensures all.None? ==> r == (st, stats)
    ensures all.Some? && all.value.tasks.Some? ==>
      var ts := all.value.tasks.value;
      r.0.tasks == ts && r.1.totalTasks == |ts| && r.1.completedTasks == Seqs.Count(ts, Completed)
    ensures all.Some? && all.value.tasks.None? ==>
      r.0.tasks == st.tasks && r.1.totalTasks == stats.totalTasks && r.1.completedTasks == stats.completedTasks
    ensures all.Some? && all.value.notes.Some? ==> r.0.notes == all.value.notes.value && r.1.totalNotes == |all.value.notes.value|
    ensures all.Some? && all.value.notes.None? ==> r.0.notes == st.notes && r.1.totalNotes == stats.totalNotes
    ensures all.Some? && all.value.bookmarks.Some? ==>
      r.0.bookmarks == all.value.bookmarks.value && r.1.totalBookmarks == |all.value.bookmarks.value|
    ensures all.Some? && all.value.bookmarks.None? ==> r.0.bookmarks == st.bookmarks && r.1.totalBookmarks == stats.totalBookmarks
    ensures all.Some? ==> r.0.events == (if all.value.events.Some? then all.value.events.value else st.events)
    ensures stats.completedTasks <= stats.totalTasks ==> r.1.completedTasks <= r.1.totalTasks
  {
    match all
    case None => (st, stats)
    case Some(Responses(tasks, notes, bookmarks, events)) =>
      var (st1, s1) := if tasks.Some? then
        (st.(tasks := tasks.value), stats.(totalTasks := |tasks.value|, completedTasks := Seqs.Count(tasks.value, Completed)))
        else (st, stats);
      var (st2, s2) := if notes.Some? then (st1.(notes := notes.value), s1.(totalNotes := |notes.value|)) else (st1, s1);
      var (st3, s3) := if bookmarks.Some? then (st2.(bookmarks := bookmarks.value), s2.(totalBookmarks := |bookmarks.value|)) else (st2, s2);
      var st4 := if events.Some? then st3.(events := events.value) else st3;
      (st4, s3)
  }

  /** The counters start at zero, so after any load at most all tasks are
      counted as completed. */
  lemma CompletedWithinTotal(st: Stores, all: Option<Responses>)
    ensures var r := Load(st, Stats(0, 0, 0, 0), all);
            r.1.completedTasks <= r.1.totalTasks
  {
  }

  /** Loading the same responses again changes nothing more. */
  lemma LoadTwice(st: Stores, stats: Stats, all: Option<Responses>)
    ensures var r := Load(st, stats, all);
            Load(r.0, r.1, all) == r
  {
  }
}

=== FILE: data_store.dfy ===
/** The client's four list stores (tasks, notes, bookmarks, events). Each
    keeps its records in server order and offers the same four updates:
    replace the list, prepend a record, merge a patch into the records with a
    given id, and drop the records with a given id. The `loading` and `error`
    flags carry no logic and are not modelled. */
module DataStore {
  import opened Json
  import Seqs

  /** The client copy of one collection. */
  type Records = seq<Fields>

  /** `record._id === id`: strict equality with a string id. */
  predicate HasId(record: Fields, id: string) {
    "_id" in record && record["_id"] == Str(id)
  }

  /** `addX(record)`: the new record goes first, the rest follows unchanged. */
  function Add(s: Records, record: Fields): (r: Records)
    ensures |r| == |s| + 1 && r[0] == record && r[1..] == s
  {
    [record] + s
  }

  /** `updateX(id, patch)`: length and order kept; a record with the id gets
      the patch's properties over its own; every other record is untouched. */
  function Update(s: Records, id: string, patch: Fields): (r: Records)
    ensures |r| == |s|
    ensures forall i :: 0 <= i < |s| && !HasId(s[i], id) ==> r[i] == s[i]
    ensures forall i :: 0 <= i < |s| && HasId(s[i], id) ==>
      r[i].Keys == s[i].Keys + patch.Keys
      && (forall k :: k in patch ==> r[i][k] == patch[k])
      && (forall k :: k in s[i] && k !in patch ==> r[i][k] == s[i][k])
  {
    seq(|s|, i requires 0 <= i < |s| => if HasId(s[i], id) then Spread(s[i], patch) else s[i])
  }

  /** `deleteX(id)`: the records without the id, in their order. */
  function Delete(s: Records, id: string): (r: Records)
    ensures forall x :: x in r <==> x in s && !HasId(x, id)
    ensures |r| <= |s|
  {
    Seqs.Filter(s, x => !HasId(x, id))
  }

  /** Deletion keeps the other records in their original order. */
  lemma DeleteKeepsOrder(s: Records, id: string)
    ensures Seqs.Subsequence(Delete(s, id), s)
  {
    Seqs.FilterIsSubsequence(s, x => !HasId(x, id));
  }

  /** Deletion drops every copy of a record with the id and keeps every copy
      of the others: the result is the list minus those records, as a multiset. */
  lemma DeleteCounts(s: Records, id: string, x: Fields)
    ensures multiset(Delete(s, id))[x] == if HasId(x, id) then 0 else multiset(s)[x]
  {
    Seqs.FilterCounts(s, y => !HasId(y, id), x);
  }

  /** A second delete of the same id changes nothing. */
  lemma {:induction false} DeleteIdempotent(s: Records, id: string)
    ensures Delete(Delete(s, id), id) == Delete(s, id)
  {
    if |s| > 0 {
      DeleteIdempotent(s[1..], id);
      var rest := Delete(s[1..], id);
      if !HasId(s[0], id) {
        assert Delete(s, id) == [s[0]] + rest;
        assert ([s[0]] + rest)[1..] == rest;
      } else {
        assert Delete(s, id) == rest;
      }
    }
  }

  /** Adding a record and deleting it by its id restores the list, when no
      other record has that id. */
  lemma DeleteUndoesAdd(s: Records, record: Fields, id: string)
    requires HasId(record, id)
    requires forall x :: x in s ==> !HasId(x, id)
    ensures Delete(Add(s, record), id) == s
  {
    assert Add(s, record)[1..] == s;
    DeleteNothing(s, id);
  }

  lemma {:induction false} DeleteNothing(s: Records, id: string)
    requires forall x :: x in s ==> !HasId(x, id)
    ensures Delete(s, id) == s
  {
    if |s| > 0 {
      assert s[0] in s;
      assert forall x :: x in s[1..] ==> x in s;
      DeleteNothing(s[1..], id);
      assert s == [s[0]] + s[1..];
    }
  }

  /** A patch that leaves `_id` alone keeps every record's identity, so the
      same records are deleted before and after the update. */
  lemma UpdateThenDelete(s: Records, id: string, patch: Fields)
    requires "_id" !in patch
    ensures Delete(Update(s, id, patch), id) == Delete(s, id)
  {
    UpdateThenDeleteFrom(s, id, patch);
  }

  lemma {:induction false} UpdateThenDeleteFrom(s: Records, id: string, patch: Fields)
    requires "_id" !in patch
    ensures Delete(Update(s, id, patch), id) == Delete(s, id)
  {
    if |s| > 0 {
      var u := Update(s, id, patch);
      assert u[1..] == Update(s[1..], id, patch);
      assert HasId(u[0], id) == HasId(s[0], id);
      UpdateThenDeleteFrom(s[1..], id, patch);
      if HasId(s[0], id) {
        assert Delete(u, id) == Delete(u[1..], id);
      } else {
        assert u[0] == s[0];
        assert Delete(u, id) == [s[0]] + Delete(u[1..], id);
      }
    }
  }

  /** A just-added record is the first one, and an update of its id reaches it. */
  lemma UpdateReachesAdded(s: Records, record: Fields, id: string, patch: Fields)
    requires HasId(record, id)
    ensures Update(Add(s, record), id, patch)[0] == Spread(record, patch)
  {
  }

  datatype Collection = Tasks | Notes | Bookmarks | Events

  /** The four stores together. */
  datatype Stores = Stores(tasks: Records, notes: Records, bookmarks: Records, events: Records)

  datatype Action =
    | SetAll(records: Records)
    | Added(record: Fields)
    | Updated(id: string, patch: Fields)
    | Deleted(id: string)

  function Of(st: Stores, c: Collection): Records {
    match c
    case Tasks => st.tasks
    case Notes => st.notes
    case Bookmarks => st.bookmarks
    case Events => st.events
  }

  /** The action's law on one list. */
  function Act(s: Records, a: Action): (r: Records)
    ensures a.SetAll? ==> r == a.records
    ensures a.Added? ==> r == [a.record] + s
    ensures a.Deleted? ==> r == Delete(s, a.id)
    ensures a.Updated? ==> r == Update(s, a.id, a.patch)
  {
    match a
    case SetAll(records) => records
    case Added(record) => Add(s, record)
    case Updated(id, patch) => Update(s, id, patch)
    case Deleted(id) => Delete(s, id)
  }

  /** The stores with collection `c` replaced by `n`. */
  function With(st: Stores, c: Collection, n: Records): (r: Stores)
    ensures Of(r, c) == n
    ensures forall d :: d != c ==> Of(r, d) == Of(st, d)
  {
    match c
    case Tasks => st.(tasks := n)
    case Notes => st.(notes := n)
    case Bookmarks => st.(bookmarks := n)
    case Events => st.(events := n)
  }

  /** One store action: only the named collection changes, and all four
      obey the same laws. */
  function Dispatch(st: Stores, c: Collection, a: Action): (r: Stores)
    ensures forall d :: d != c ==> Of(r, d) == Of(st, d)
    ensures a.SetAll? ==> Of(r, c) == a.records
    ensures a.Added? ==> Of(r, c) == [a.record] + Of(st, c)
    ensures a.Deleted? ==> Of(r, c) == Delete(Of(st, c), a.id)
    ensures a.Updated? ==> Of(r, c) == Update(Of(st, c), a.id, a.patch)
  {
    With(st, c, Act(Of(st, c), a))
  }
}

=== FILE: event_model.dfy ===
/** The Event schema: required trimmed title of at most 200 characters, an
    optional trimmed description of at most 1000, required start and end
    dates with no order imposed between them, and defaults for `allDay`,
    `color`, the reminder and the category. */
module EventModel {
  import opened Options
  import opened Strings
  import opened Json
  import opened Casting

  const TitleMax := 200
  const DescriptionMax := 1000
  const DefaultColor := "#3B82F6"
  const DefaultCategory := "General"
  const DefaultReminderMinutes := 30

  datatype Reminder = Reminder(enabled: bool, time: int)

  datatype Event = Event(
    title: string,
    description: Option<string>,
    startDate: int,
    endDate: int,
    allDay: bool,
    location: Option<string>,
    color: string,
    reminder: Reminder,
    category: string,
    createdAt: int,
    updatedAt: int)
  {
    predicate Valid() {
      && 0 < |title| <= TitleMax
      && Trimmed(title)
      && (description.Some? ==> |description.value| <= DescriptionMax && Trimmed(description.value))
      && (location.Some? ==> Trimmed(location.value))
      && Trimmed(category)
    }
  }

  const DefaultReminder := Obj(map["enabled" := Bool(false), "time" := Num(DefaultReminderMinutes)])

  function Defaults(now: int): Fields {
    map[
      "allDay" := Bool(false),
      "color" := Str(DefaultColor),
      "reminder" := DefaultReminder,
      "category" := Str(DefaultCategory),
      "createdAt" := Num(now),
      "updatedAt" := Num(now)]
  }

  /** The reminder sub-document, each sub-path defaulted on its own. */
  function CastReminder(v: Value): Option<Value> {
    CastPair(v, "enabled", Bool(false), (x: Value) => x.Bool?,
                "time", Num(DefaultReminderMinutes), (x: Value) => x.Num?)
  }

  predicate TrimmedPath(key: string) {
    key == "title" || key == "description" || key == "location" || key == "category"
  }

  predicate DatePath(key: string) {
    key == "startDate" || key == "endDate" || key == "createdAt" || key == "updatedAt"
  }

  function CastPath(key: string, v: Value, instant: string -> Option<int>): Option<Value> {
    if TrimmedPath(key) then Some(TrimText(v))
    else if DatePath(key) then CastDate(v, instant)
    else if key == "reminder" then CastReminder(v)
    else Some(v)
  }

  /** An optional string path: absent is `None`, a non-string is a cast error. */
  function OptionalText(f: Fields, key: string): Option<Option<string>> {
    if key !in f then Some(None)
    else if f[key].Str? then Some(Some(f[key].s))
    else None
  }

  function ReadReminder(v: Value): Option<Reminder> {
    if v.Obj? && "enabled" in v.props && v.props["enabled"].Bool?
       && "time" in v.props && v.props["time"].Num?
    then Some(Reminder(v.props["enabled"].b, v.props["time"].n))
    else None
  }

  function Read(f: Fields): Option<Event> {
    var title :- TextOpt(f, "title");
    var description :- OptionalText(f, "description");
    var start :- Time(f, "startDate");
    var end :- Time(f, "endDate");
    var allDay :- Boolean(f, "allDay");
    var location :- OptionalText(f, "location");
    var color :- TextOpt(f, "color");
    var reminder :- if "reminder" in f then ReadReminder(f["reminder"]) else None;
    var category :- TextOpt(f, "category");
    var created :- Time(f, "createdAt");
    var updated :- Time(f, "updatedAt");
    Some(Event(title, description, start, end, allDay, location, color, reminder, category, created, updated))
  }

  predicate Accepts(f: Fields) {
    Read(f).Some? && Read(f).value.Valid()
  }

  function ReminderFields(r: Reminder): Value {
    Obj(map["enabled" := Bool(r.enabled), "time" := Num(r.time)])
  }

  function ToFields(e: Event): Fields {
    var base := map[
      "title" := Str(e.title),
      "startDate" := Num(e.startDate),
      "endDate" := Num(e.endDate),
      "allDay" := Bool(e.allDay),
      "color" := Str(e.color),
      "reminder" := ReminderFields(e.reminder),
      "category" := Str(e.category),
      "createdAt" := Num(e.createdAt),
      "updatedAt" := Num(e.updatedAt)];
    var withDescription := if e.description.Some? then base["description" := Str(e.description.value)] else base;
    if e.location.Some? then withDescription["location" := Str(e.location.value)] else withDescription
  }

  /** Reading a stored event gives the event back. */
  lemma ReadToFields(e: Event)
    ensures Read(ToFields(e)) == Some(e)
  {
    var f := ToFields(e);
    ToFieldsTexts(e);
    ToFieldsTimes(e);
    ToFieldsFlags(e);
    ReadOfParts(f, e);
  }

  lemma ToFieldsTexts(e: Event)
    ensures var f := ToFields(e);
            && TextOpt(f, "title") == Some(e.title)
            && OptionalText(f, "description") == Some(e.description)
            && OptionalText(f, "location") == Some(e.location)
            && TextOpt(f, "color") == Some(e.color)
            && TextOpt(f, "category") == Some(e.category)
  {
  }

  lemma ToFieldsTimes(e: Event)
    ensures var f := ToFields(e);
            && Time(f, "startDate") == Some(e.startDate)
            && Time(f, "endDate") == Some(e.endDate)
            && Time(f, "createdAt") == Some(e.createdAt)
            && Time(f, "updatedAt") == Some(e.updatedAt)
  {
  }

  lemma ToFieldsFlags(e: Event)
    ensures var f := ToFields(e);
            && Boolean(f, "allDay") == Some(e.allDay)
            && "reminder" in f && ReadReminder(f["reminder"]) == Some(e.reminder)
  {
  }

  /** `Read` succeeds with `e` when each path reads as the matching part of `e`. */
  lemma ReadOfParts(f: Fields, e: Event)
    requires TextOpt(f, "title") == Some(e.title)
    requires OptionalText(f, "description") == Some(e.description)
    requires Time(f, "startDate") == Some(e.startDate)
    requires Time(f, "endDate") == Some(e.endDate)
    requires Boolean(f, "allDay") == Some(e.allDay)
    requires OptionalText(f, "location") == Some(e.location)
    requires TextOpt(f, "color") == Some(e.color)
    requires "reminder" in f && ReadReminder(f["reminder"]) == Some(e.reminder)
    requires TextOpt(f, "category") == Some(e.category)
    requires Time(f, "createdAt") == Some(e.createdAt)
    requires Time(f, "updatedAt") == Some(e.updatedAt)
    ensures Read(f) == Some(e)
  {
  }

  /** An event given only a title and its dates reads with every default:
      not all-day, the default colour and category, and a disabled
      reminder thirty minutes ahead. */
  lemma DefaultsFill(title: string, start: int, end: int, now: int)
    ensures var f := Defaults(now) + map["title" := Str(title), "startDate" := Num(start), "endDate" := Num(end)];
            Read(f) == Some(Event(title, None, start, end, false, None, DefaultColor,
                                  Reminder(false, DefaultReminderMinutes), DefaultCategory, now, now))
  {
    var f := Defaults(now) + map["title" := Str(title), "startDate" := Num(start), "endDate" := Num(end)];
    var e := Event(title, None, start, end, false, None, DefaultColor,
                   Reminder(false, DefaultReminderMinutes), DefaultCategory, now, now);
    DefaultsTexts(title, start, end, now);
    DefaultsTimes(title, start, end, now);
    DefaultsFlags(title, start, end, now);
    ReadOfParts(f, e);
  }

  lemma DefaultsTexts(title: string, start: int, end: int, now: int)
    ensures var f := Defaults(now) + map["title" := Str(title), "startDate" := Num(start), "endDate" := Num(end)];
            && TextOpt(f, "title") == Some(title)
            && OptionalText(f, "description") == Some(None)
            && OptionalText(f, "location") == Some(None)
            && TextOpt(f, "color") == Some(DefaultColor)
            && TextOpt(f, "category") == Some(DefaultCategory)
  {
  }

  lemma DefaultsTimes(title: string, start: int, end: int, now: int)
    ensures var f := Defaults(now) + map["title" := Str(title), "startDate" := Num(start), "endDate" := Num(end)];
            && Time(f, "startDate") == Some(start)
            && Time(f, "endDate") == Some(end)
            && Time(f, "createdAt") == Some(now)
            && Time(f, "updatedAt") == Some(now)
  {
  }

  lemma DefaultsFlags(title: string, start: int, end: int, now: int)
    ensures var f := Defaults(now) + map["title" := Str(title), "startDate" := Num(start), "endDate" := Num(end)];
            && Boolean(f, "allDay") == Some(false)
            && "reminder" in f && ReadReminder(f["reminder"]) == Some(Reminder(false, DefaultReminderMinutes))
  {
  }

  /** A reminder given only its switch gets the default thirty minutes. */
  lemma ReminderTimeDefault(enabled: bool)
    ensures CastReminder(Obj(map["enabled" := Bool(enabled)])) == Some(ReminderFields(Reminder(enabled, DefaultReminderMinutes)))
  {
  }

  lemma CastPathIdempotent(key: string, v: Value, instant: string -> Option<int>)
    requires CastPath(key, v, instant).Some?
    ensures CastPath(key, CastPath(key, v, instant).value, instant) == CastPath(key, v, instant)
  {
    if TrimmedPath(key) {
      TrimTextIdempotent(v);
    } else if DatePath(key) {
    } else if key == "reminder" {
      CastPairIdempotent(v, "enabled", Bool(false), (x: Value) => x.Bool?,
                            "time", Num(DefaultReminderMinutes), (x: Value) => x.Num?);
    }
  }

  lemma StampKeepsAccepted(f: Fields, now: int)
    requires Accepts(f)
    ensures Accepts(f["updatedAt" := Num(now)])
    ensures Read(f["updatedAt" := Num(now)]) == Some(Read(f).value.(updatedAt := now))
  {
    var g := f["updatedAt" := Num(now)];
    var e := Read(f).value;
    PartsOfRead(f);
    StampTexts(f, now);
    StampTimes(f, now);
    ReadOfParts(g, e.(updatedAt := now));
  }

  /** A successful read takes each part from its path. */
  lemma PartsOfRead(f: Fields)
    requires Read(f).Some?
    ensures var e := Read(f).value;
            && TextOpt(f, "title") == Some(e.title)
            && OptionalText(f, "description") == Some(e.description)
            && Time(f, "startDate") == Some(e.startDate)
            && Time(f, "endDate") == Some(e.endDate)
            && Boolean(f, "allDay") == Some(e.allDay)
            && OptionalText(f, "location") == Some(e.location)
            && TextOpt(f, "color") == Some(e.color)
            && "reminder" in f && ReadReminder(f["reminder"]) == Some(e.reminder)
            && TextOpt(f, "category") == Some(e.category)
            && Time(f, "createdAt") == Some(e.createdAt)
            && Time(f, "updatedAt") == Some(e.updatedAt)
  {
  }

  lemma StampTexts(f: Fields, now: int)
    ensures var g := f["updatedAt" := Num(now)];
            && TextOpt(g, "title") == TextOpt(f, "title")
            && OptionalText(g, "description") == OptionalText(f, "description")
            && OptionalText(g, "location") == OptionalText(f, "location")
            && TextOpt(g, "color") == TextOpt(f, "color")
            && TextOpt(g, "category") == TextOpt(f, "category")
  {
  }

  lemma StampTimes(f: Fields, now: int)
    ensures var g := f["updatedAt" := Num(now)];
            && Time(g, "startDate") == Time(f, "startDate")
            && Time(g, "endDate") == Time(f, "endDate")
            && Time(g, "createdAt") == Time(f, "createdAt")
            && Time(g, "updatedAt") == Some(now)
            && Boolean(g, "allDay") == Boolean(f, "allDay")
            && ("reminder" in g <==> "reminder" in f)
            && ("reminder" in f ==> g["reminder"] == f["reminder"])
  {
  }
}

=== FILE: header.dfy ===
/** The header's global search over the four client stores and its
    notification list. */
module Header {
  import opened Options
  import opened Strings
  import opened Json
  import Seqs
  import opened DataStore

  /** What a search result shows under its title: a text, or the event's
      start date (its rendering is not modelled). */
  datatype Description = Said(text: string) | StartOf(start: Value)

  datatype SearchHit = SearchHit(kind: Collection, id: Value, title: string, description: Description)

  /** The page a result or notification links to. */
  function Link(c: Collection): string {
    match c
    case Tasks => "/tasks"
    case Notes => "/notes"
    case Bookmarks => "/bookmarks"
    case Events => "/calendar"
  }

  function IdOf(f: Fields): Value {
    if "_id" in f then f["_id"] else Null
  }

  /** An optional text property, lower-cased, contains the lower-cased query;
      an absent one never matches. */
  predicate OptionalMentions(f: Fields, key: string, q: string) {
    TextOpt(f, key).Some? && ContainsIgnoringCase(TextOpt(f, key).value, q)
  }

  /** The properties each collection is searched by: the title, and the
      description (tasks, events), the content (notes) or the url (bookmarks). */
  predicate Matches(c: Collection, f: Fields, q: string) {
    ContainsIgnoringCase(Text(f, "title"), q) ||
    match c
    case Tasks => OptionalMentions(f, "description", q)
    case Notes => OptionalMentions(f, "content", q)
    case Bookmarks => ContainsIgnoringCase(Text(f, "url"), q)
    case Events => OptionalMentions(f, "description", q)
  }

  /** The result shown for a matching record. A note shows at most the first
      hundred characters of its content. */
  function HitOf(c: Collection, f: Fields): (h: SearchHit)
    ensures h.kind == c && h.id == IdOf(f) && h.title == Text(f, "title")
    ensures c == Notes ==> (h.description.Said? &&
      (h.description.text == "No content" || (|h.description.text| <= 100 && StartsWith(Text(f, "content"), h.description.text))))
    ensures c == Notes && |Text(f, "content")| > 0 ==>
      h.description.text == Text(f, "content")[..if |Text(f, "content")| < 100 then |Text(f, "content")| else 100]
    ensures c == Tasks ==> h.description == Said(if |Text(f, "description")| > 0 then Text(f, "description") else "No description")
    ensures c == Bookmarks ==> h.description == Said(Text(f, "url"))
    ensures c == Events && |Text(f, "description")| > 0 ==> h.description == Said(Text(f, "description"))
    ensures c == Events && |Text(f, "description")| == 0 ==> h.description == StartOf(if "start" in f then f["start"] else Null)
  {
    var d :=
      match c
      case Tasks => Said(if |Text(f, "description")| > 0 then Text(f, "description") else "No description")
      case Notes => Said(if |Text(f, "content")| > 0 then Seqs.Take(Text(f, "content"), 100) else "No content")
      case Bookmarks => Said(Text(f, "url"))
      case Events =>
        if |Text(f, "description")| > 0 then Said(Text(f, "description"))
        else StartOf(if "start" in f then f["start"] else Null);
    SearchHit(c, IdOf(f), Text(f, "title"), d)
  }

  /** The results of one collection, in store order. */
  function Hits(c: Collection, records: Records, q: string): (r: seq<SearchHit>)
    ensures |r| <= |records|
    ensures forall h :: h in r ==> h.kind == c
  {
    if |records| == 0 then []
    else (if Matches(c, records[0], q) then [HitOf(c, records[0])] else []) + Hits(c, records[1..], q)
  }

  /** Every match, tasks first, then notes, bookmarks and events. */
  function AllHits(st: Stores, q: string): seq<SearchHit> {
    Hits(Tasks, st.tasks, q) + Hits(Notes, st.notes, q) + Hits(Bookmarks, st.bookmarks, q) + Hits(Events, st.events, q)
  }

  const MaxResults := 8

  datatype SearchView = SearchView(results: seq<SearchHit>, shown: bool)

  /** The search effect: a blank query clears and hides the results; any
      other query shows the first eight matches of the untrimmed query. */
  function Search(st: Stores, query: string): (r: SearchView)
    ensures Blank(query) <==> !r.shown
    ensures Blank(query) ==> r.results == []
    ensures !Blank(query) ==>
      |r.results| == (if |AllHits(st, query)| < MaxResults then |AllHits(st, query)| else MaxResults)
      && r.results == AllHits(st, query)[..|r.results|]
  {
    if |Trim(query)| == 0 then SearchView([], false)
    else SearchView(Seqs.Take(AllHits(st, query), MaxResults), true)
  }

  /** Every result stands for a matching record of its collection. */
  lemma {:induction false} HitsSound(c: Collection, records: Records, q: string, h: SearchHit)
    requires h in Hits(c, records, q)
    ensures exists f :: f in records && Matches(c, f, q) && h == HitOf(c, f)
  {
    var head := if Matches(c, records[0], q) then [HitOf(c, records[0])] else [];
    if h in head {
      assert records[0] in records;
    } else {
      HitsSound(c, records[1..], q, h);
      var f :| f in records[1..] && Matches(c, f, q) && h == HitOf(c, f);
      assert f in records;
    }
  }

  /** Every matching record has its result among the collection's results. */
  lemma {:induction false} HitsComplete(c: Collection, records: Records, q: string, f: Fields)
    requires f in records && Matches(c, f, q)
    ensures HitOf(c, f) in Hits(c, records, q)
  {
    if records[0] != f {
      HitsComplete(c, records[1..], q, f);
    }
  }

  /** A shown result always comes from a record that matches the query. */
  lemma SearchSound(st: Stores, query: string, h: SearchHit)
    requires h in Search(st, query).results
    ensures exists f :: f in Of(st, h.kind) && Matches(h.kind, f, query) && h == HitOf(h.kind, f)
  {
    ShownAreHits(st, query, h);
    if h in Hits(Tasks, st.tasks, query) {
      HitsSound(Tasks, st.tasks, query, h);
    } else if h in Hits(Notes, st.notes, query) {
      HitsSound(Notes, st.notes, query, h);
    } else if h in Hits(Bookmarks, st.bookmarks, query) {
      HitsSound(Bookmarks, st.bookmarks, query, h);
    } else {
      HitsSound(Events, st.events, query, h);
    }
  }

  lemma ShownAreHits(st: Stores, query: string, h: SearchHit)
    requires h in Search(st, query).results
    ensures h in Hits(Tasks, st.tasks, query) || h in Hits(Notes, st.notes, query)
         || h in Hits(Bookmarks, st.bookmarks, query) || h in Hits(Events, st.events, query)
  {
    var all := AllHits(st, query);
    var r := Search(st, query).results;
    assert r == all[..|r|];
    assert h in all;
  }

  /** Tasks are listed first: when at most eight tasks match, every matching
      task is shown. */
  lemma MatchingTaskShown(st: Stores, query: string, t: Fields)
    requires !Blank(query)
    requires t in st.tasks && Matches(Tasks, t, query)
    requires |Hits(Tasks, st.tasks, query)| <= MaxResults
    ensures HitOf(Tasks, t) in Search(st, query).results
  {
    HitsComplete(Tasks, st.tasks, query, t);
    var ts := Hits(Tasks, st.tasks, query);
    var all := AllHits(st, query);
    var i :| 0 <= i < |ts| && ts[i] == HitOf(Tasks, t);
    assert all[i] == ts[i];
  }

  lemma {:induction false} HitsIgnoreCase(c: Collection, records: Records, q: string)
    ensures Hits(c, records, Upper(q)) == Hits(c, records, q)
  {
    LowerOfUpper(q);
    if |records| > 0 {
      HitsIgnoreCase(c, records[1..], q);
      assert Matches(c, records[0], Upper(q)) == Matches(c, records[0], q);
    }
  }

  /** Upper-casing the query changes nothing: search ignores case. */
  lemma SearchIgnoresCase(st: Stores, query: string)
    ensures Search(st, Upper(query)) == Search(st, query)
  {
    HitsIgnoreCase(Tasks, st.tasks, query);
    HitsIgnoreCase(Notes, st.notes, query);
    HitsIgnoreCase(Bookmarks, st.bookmarks, query);
    HitsIgnoreCase(Events, st.events, query);
    BlankUpper(query);
  }

  lemma BlankUpper(s: string)
    ensures Blank(Upper(s)) == Blank(s)
  {
    forall i | 0 <= i < |s| ensures IsSpace(Upper(s)[i]) == IsSpace(s[i]) {
    }
  }

  /** A notification: a pending task or an upcoming event. */
  datatype Notice = Notice(kind: Collection, id: Value, message: string)

  /** `!t.completed`: an absent flag counts as not completed. */
  predicate Pending(t: Fields) {
    !Flag(t, "completed")
  }

  /** `new Date(e.start) > new Date()`: an event without a start instant is
      never upcoming. */
  predicate Upcoming(e: Fields, now: int) {
    Time(e, "start").Some? && Time(e, "start").value > now
  }

  function NoticeOf(c: Collection, f: Fields): Notice {
    Notice(c, IdOf(f), Text(f, "title"))
  }

  function Notices(c: Collection, records: Records): (r: seq<Notice>)
    ensures |r| == |records|
    ensures forall i :: 0 <= i < |r| ==> r[i] == NoticeOf(c, records[i])
  {
    seq(|records|, i requires 0 <= i < |records| => NoticeOf(c, records[i]))
  }

  /** The pending tasks, in store order. */
  function PendingTasks(tasks: Records): (p: Records)
    ensures forall t :: t in p <==> t in tasks && Pending(t)
  {
    Seqs.Filter(tasks, Pending)
  }

  /** The upcoming events, in store order. */
  function UpcomingEvents(events: Records, now: int): (u: Records)
    ensures forall e :: e in u <==> e in events && Upcoming(e, now)
  {
    Seqs.Filter(events, e => Upcoming(e, now))
  }

  /** The first three pending tasks, then the first two upcoming events, in
      store order. */
  function Notifications(tasks: Records, events: Records, now: int): (r: seq<Notice>)
    ensures |r| <= 5
    ensures var p := PendingTasks(tasks);
            var u := UpcomingEvents(events, now);
            var np := if |p| < 3 then |p| else 3;
            && |r| == np + (if |u| < 2 then |u| else 2)
            && (forall i :: 0 <= i < np ==> r[i] == NoticeOf(Tasks, p[i]))
            && (forall i :: np <= i < |r| ==> r[i] == NoticeOf(Events, u[i - np]))
  {
    var ts := Seqs.Take(PendingTasks(tasks), 3);
    var es := Seqs.Take(UpcomingEvents(events, now), 2);
    Notices(Tasks, ts) + Notices(Events, es)
  }

  /** Task notices come first, one per pending task up to three, each from a
      pending task; the rest come from upcoming events. */
  lemma NotificationsFromPending(tasks: Records, events: Records, now: int, i: nat)
    requires i < |Notifications(tasks, events, now)|
    ensures var r := Notifications(tasks, events, now);
            var np := if Seqs.Count(tasks, Pending) < 3 then Seqs.Count(tasks, Pending) else 3;
            && (r[i].kind == Tasks <==> i < np)
            && (r[i].kind == Tasks ==> exists t :: t in tasks && Pending(t) && r[i] == NoticeOf(Tasks, t))
            && (r[i].kind != Tasks ==> exists e :: e in events && Upcoming(e, now) && r[i] == NoticeOf(Events, e))
  {
    var p := PendingTasks(tasks);
    var u := UpcomingEvents(events, now);
    var np := if |p| < 3 then |p| else 3;
    var r := Notifications(tasks, events, now);
    if i < np {
      assert p[i] in p;
    } else {
      assert u[i - np] in u;
    }
  }

  /** With at most three pending tasks, every pending task is notified. */
  lemma PendingTaskNotified(tasks: Records, events: Records, now: int, t: Fields)
    requires t in tasks && Pending(t)
    requires Seqs.Count(tasks, Pending) <= 3
    ensures NoticeOf(Tasks, t) in Notifications(tasks, events, now)
  {
    var p := PendingTasks(tasks);
    var r := Notifications(tasks, events, now);
    assert t in p;
    var i :| 0 <= i < |p| && p[i] == t;
    assert r[i] == NoticeOf(Tasks, t);
  }
}

=== FILE: json.dfy ===
/** JSON values as request bodies, stored documents and client records carry
    them. Numbers are integers; instants are integer timestamps. */
module Json {
  import opened Options

  datatype Value =
    | Null
    | Bool(b: bool)
    | Num(n: int)
    | Str(s: string)
    | Arr(items: seq<Value>)
    | Obj(props: map<string, Value>)

  /** The properties of a JSON object. */
  type Fields = map<string, Value>

  /** JavaScript truthiness: `null`, `false`, `0` and `""` are falsy. */
  predicate Truthy(v: Value) {
    match v
    case Null => false
    case Bool(b) => b
    case Num(n) => n != 0
    case Str(s) => |s| > 0
    case Arr(_) => true
    case Obj(_) => true
  }

  /** Truthiness of a property; an absent property is `undefined`, so falsy. */
  predicate Flag(f: Fields, key: string) {
    key in f && Truthy(f[key])
  }

  /** `{...base, ...over}`: the properties of `over` win. */
  function Spread(base: Fields, over: Fields): (r: Fields)
    ensures r.Keys == base.Keys + over.Keys
    ensures forall k :: k in over ==> r[k] == over[k]
    ensures forall k :: k in base && k !in over ==> r[k] == base[k]
  {
    base + over
  }

  /** A string property, or `""` when absent or not a string. */
  function Text(f: Fields, key: string): string {
    if key in f && f[key].Str? then f[key].s else ""
  }

  /** A string property that is present. */
  function TextOpt(f: Fields, key: string): Option<string> {
    if key in f && f[key].Str? then Some(f[key].s) else None
  }

  /** An instant property; absent or non-numeric values have no instant. */
  function Time(f: Fields, key: string): Option<int> {
    if key in f && f[key].Num? then Some(f[key].n) else None
  }

  /** Strict equality of a property with a string (`f.key === s`). */
  predicate HasText(f: Fields, key: string, s: string) {
    key in f && f[key] == Str(s)
  }

  /** A boolean property that is present. */
  function Boolean(f: Fields, key: string): Option<bool> {
    if key in f && f[key].Bool? then Some(f[key].b) else None
  }

  /** A JSON array of strings as a sequence; `None` when any item is not a string. */
  function Texts(v: Value): Option<seq<string>> {
    if v.Arr? then TextItems(v.items) else None
  }

  function TextItems(items: seq<Value>): Option<seq<string>> {
    if |items| == 0 then Some([])
    else if !items[0].Str? then None
    else
      var rest :- TextItems(items[1..]);
      Some([items[0].s] + rest)
  }

  /** A sequence of strings as a JSON array. */
  function Strs(ts: seq<string>): (v: Value)
    ensures v.Arr? && |v.items| == |ts|
    ensures forall i :: 0 <= i < |ts| ==> v.items[i] == Str(ts[i])
  {
    Arr(seq(|ts|, i requires 0 <= i < |ts| => Str(ts[i])))
  }

  /** Reading back an array of strings gives the strings. */
  lemma {:induction false} TextsOfStrs(ts: seq<string>)
    ensures Texts(Strs(ts)) == Some(ts)
  {
    if |ts| > 0 {
      TextsOfStrs(ts[1..]);
      assert Strs(ts).items[1..] == Strs(ts[1..]).items;
      assert ts == [ts[0]] + ts[1..];
    }
  }
}

=== FILE: listing.dfy ===
/** GET / on each collection: the caller's documents, narrowed by the query
    string's filters for that kind and ordered by the kind's sort keys. */
module Listing {
  import opened Options
  import opened Strings
  import opened Json
  import opened Sorting
  import opened Schemas
  import opened Resources

  /** The query string, with every parameter a single string value; arrays
      and nested objects from the query parser are not modelled. */
  type Query = map<string, string>

  /** The filters a query asks for, per kind. */
  datatype Criteria =
    | TaskQuery(status: Option<string>, priority: Option<string>, search: Option<string>)
    | NoteQuery(isPinned: Option<bool>, isArchived: Option<bool>, noteSearch: Option<string>)
    | BookmarkQuery(tag: Option<string>, category: Option<string>, isFavorite: Option<bool>, bookmarkSearch: Option<string>)
    | EventQuery(eventCategory: Option<string>, range: Option<(int, int)>)
    | WidgetQuery

  /** A parameter used only when truthy (`if (status) ...`). */
  function IfGiven(q: Query, key: string): (r: Option<string>)
    ensures r.Some? <==> key in q && q[key] != ""
    ensures r.Some? ==> r.value == q[key]
  {
    if key in q && q[key] != "" then Some(q[key]) else None
  }

  /** A boolean filter used whenever the parameter is present, true exactly
      when it is the string `true` (`isPinned === 'true'`). */
  function IfPresent(q: Query, key: string): (r: Option<bool>)
    ensures r.Some? <==> key in q
    ensures r.Some? ==> (r.value <==> q[key] == "true")
  {
    if key in q then Some(q[key] == "true") else None
  }

  /** The filters of kind `k`. `None` when an event range bound is not a
      date, which fails the query. */
  function ParseQuery(k: Kind, q: Query, instant: string -> Option<int>): (r: Option<Criteria>)
    ensures r.None? <==> k == Events && IfGiven(q, "startDate").Some? && IfGiven(q, "endDate").Some?
                         && (instant(q["startDate"]).None? || instant(q["endDate"]).None?)
    ensures r.Some? && k == Events ==>
      r.value.EventQuery? && (r.value.range.Some? <==> IfGiven(q, "startDate").Some? && IfGiven(q, "endDate").Some?)
  {
    match k
    case Tasks => Some(TaskQuery(IfGiven(q, "status"), IfGiven(q, "priority"), IfGiven(q, "search")))
    case Notes => Some(NoteQuery(IfPresent(q, "isPinned"), IfPresent(q, "isArchived"), IfGiven(q, "search")))
    case Bookmarks =>
      Some(BookmarkQuery(IfGiven(q, "tag"), IfGiven(q, "category"), IfPresent(q, "isFavorite"), IfGiven(q, "search")))
    case Events =>
      if IfGiven(q, "startDate").Some? && IfGiven(q, "endDate").Some? then
        var lo := instant(q["startDate"]);
        var hi := instant(q["endDate"]);
        if lo.None? || hi.None? then None
        else Some(EventQuery(IfGiven(q, "category"), Some((lo.value, hi.value))))
      else Some(EventQuery(IfGiven(q, "category"), None))
    case Widgets => Some(WidgetQuery)
  }

  /** `{key: {$regex: text, $options: 'i'}}` for a text without regular
      expression metacharacters: a case-insensitive substring test. */
  predicate Mentions(f: Fields, key: string, text: string) {
    key in f && f[key].Str? && ContainsIgnoringCase(f[key].s, text)
  }

  /** `{key: value}`: equal to the value, or an array holding it. */
  predicate Equals(f: Fields, key: string, v: Value) {
    key in f && (f[key] == v || (f[key].Arr? && v in f[key].items))
  }

  /** An optional filter: no constraint when absent. */
  predicate Opt<T>(o: Option<T>, p: T -> bool) {
    o.None? || p(o.value)
  }

  /** The filters of `c` hold of a document. */
  predicate Matches(c: Criteria, f: Fields) {
    match c
    case TaskQuery(status, priority, search) =>
      && Opt(status, (v: string) => Equals(f, "status", Str(v)))
      && Opt(priority, (v: string) => Equals(f, "priority", Str(v)))
      && Opt(search, (t: string) => Mentions(f, "title", t) || Mentions(f, "description", t))
    case NoteQuery(isPinned, isArchived, search) =>
      && Opt(isPinned, (b: bool) => Equals(f, "isPinned", Bool(b)))
      && Opt(isArchived, (b: bool) => Equals(f, "isArchived", Bool(b)))
      && Opt(search, (t: string) => Mentions(f, "title", t) || Mentions(f, "content", t))
    case BookmarkQuery(tag, category, isFavorite, search) =>
      && Opt(tag, (v: string) => Equals(f, "tags", Str(v)))
      && Opt(category, (v: string) => Equals(f, "category", Str(v)))
      && Opt(isFavorite, (b: bool) => Equals(f, "isFavorite", Bool(b)))
      && Opt(search, (t: string) => Mentions(f, "title", t) || Mentions(f, "description", t) || Mentions(f, "url", t))
    case EventQuery(category, range) =>
      && Opt(category, (v: string) => Equals(f, "category", Str(v)))
      && Opt(range, (r: (int, int)) => Time(f, "startDate").Some? && r.0 <= Time(f, "startDate").value <= r.1)
    case WidgetQuery => true
  }

  /** The query conjoined with `user == caller`. */
  predicate Selected(c: Criteria, caller: UserId, d: Doc) {
    d.user == caller && Matches(c, d.fields)
  }

  /** A sort key: absent or of another type sorts lowest, as a missing field does. */
  function NumKey(f: Fields, key: string): Option<int> {
    if key in f && f[key].Num? then Some(f[key].n) else None
  }

  function BoolKey(f: Fields, key: string): Option<int> {
    if key in f && f[key].Bool? then Some(if f[key].b then 1 else 0) else None
  }

  predicate AtMost(a: Option<int>, b: Option<int>) {
    a.None? || (b.Some? && a.value <= b.value)
  }

  /** Descending on `first`, ties broken descending on `second`. */
  predicate Descending2(a: Fields, b: Fields, first: Option<int>, firstB: Option<int>, second: string) {
    if first != firstB then AtMost(firstB, first)
    else AtMost(NumKey(b, second), NumKey(a, second))
  }

  /** Whether `a` may be listed before `b`:
      tasks `{createdAt: -1}`, notes `{isPinned: -1, updatedAt: -1}`,
      bookmarks `{isFavorite: -1, createdAt: -1}`, events `{startDate: 1}`,
      widgets `{createdAt: 1}`. */
  predicate Precedes(k: Kind, a: Doc, b: Doc) {
    match k
    case Tasks => AtMost(NumKey(b.fields, "createdAt"), NumKey(a.fields, "createdAt"))
    case Notes => Descending2(a.fields, b.fields, BoolKey(a.fields, "isPinned"), BoolKey(b.fields, "isPinned"), "updatedAt")
    case Bookmarks => Descending2(a.fields, b.fields, BoolKey(a.fields, "isFavorite"), BoolKey(b.fields, "isFavorite"), "createdAt")
    case Events => AtMost(NumKey(a.fields, "startDate"), NumKey(b.fields, "startDate"))
    case Widgets => AtMost(NumKey(a.fields, "createdAt"), NumKey(b.fields, "createdAt"))
  }

  function Order(k: Kind): (Doc, Doc) -> bool {
    (a: Doc, b: Doc) => Precedes(k, a, b)
  }

  lemma AtMostTotal(a: Option<int>, b: Option<int>, c: Option<int>)
    ensures AtMost(a, b) || AtMost(b, a)
    ensures AtMost(a, b) && AtMost(b, c) ==> AtMost(a, c)
  {
  }

  /** Every kind's order is a total preorder, so the sort is well defined. */
  lemma OrderIsTotalPreorder(k: Kind)
    ensures TotalPreorder(Order(k))
  {
    var le := Order(k);
    forall a: Doc, b: Doc ensures le(a, b) || le(b, a) {
    }
    forall a: Doc, b: Doc, c: Doc | le(a, b) && le(b, c) ensures le(a, c) {
    }
  }

  /** The ids of the stored documents `keep` holds of. */
  ghost function Chosen(s: Store, keep: Doc -> bool): set<Id> {
    ChosenIn(s, keep, s.Keys)
  }

  /** The ids among `ids` of stored documents `keep` holds of. */
  ghost function ChosenIn(s: Store, keep: Doc -> bool, ids: set<Id>): set<Id> {
    set id | id in ids && id in s && keep(s[id])
  }

  /** What the scan has gathered once the ids in `done` are visited:
      kept documents only, every kept document of `done`, one per id. */
  ghost predicate Gathered(s: Store, keep: Doc -> bool, done: set<Id>, acc: seq<Doc>) {
    && (forall i :: 0 <= i < |acc| ==> acc[i] in s.Values && keep(acc[i]))
    && (forall id :: id in done && id in s && keep(s[id]) ==> s[id] in acc)
    && |acc| == |ChosenIn(s, keep, done)|
  }

  /** Visiting one more stored id keeps the scan's account. */
  lemma GatherStep(s: Store, keep: Doc -> bool, done: set<Id>, acc: seq<Doc>, id: Id)
    requires Gathered(s, keep, done, acc)
    requires id in s && id !in done
    ensures Gathered(s, keep, done + {id}, if keep(s[id]) then acc + [s[id]] else acc)
  {
    var acc' := if keep(s[id]) then acc + [s[id]] else acc;
    if keep(s[id]) {
      assert ChosenIn(s, keep, done + {id}) == ChosenIn(s, keep, done) + {id};
      assert forall i :: 0 <= i < |acc| ==> acc'[i] == acc[i];
    } else {
      assert ChosenIn(s, keep, done + {id}) == ChosenIn(s, keep, done);
    }
  }

  /** The documents `keep` holds of, one entry per stored id, in no
      particular order (the database's scan). */
  method Collect(s: Store, keep: Doc -> bool) returns (acc: seq<Doc>)
    ensures forall d :: d in acc ==> d in s.Values && keep(d)
    ensures forall id :: id in s && keep(s[id]) ==> s[id] in acc
    ensures |acc| == |Chosen(s, keep)|
  {
    var rest := s.Keys;
    ghost var done: set<Id> := {};
    acc := [];
    assert ChosenIn(s, keep, done) == {};
    while rest != {}
      invariant done <= s.Keys && rest == s.Keys - done
      invariant Gathered(s, keep, done, acc)
      decreases |rest|
    {
      var id :| id in rest;
      GatherStep(s, keep, done, acc, id);
      if keep(s[id]) {
        acc := acc + [s[id]];
      }
      rest := rest - {id};
      done := done + {id};
    }
    GatheredAll(s, keep, done, acc);
  }

  lemma GatheredAll(s: Store, keep: Doc -> bool, done: set<Id>, acc: seq<Doc>)
    requires done <= s.Keys && s.Keys - done == {}
    requires Gathered(s, keep, done, acc)
    ensures forall d :: d in acc ==> d in s.Values && keep(d)
    ensures forall id :: id in s && keep(s[id]) ==> s[id] in acc
    ensures |acc| == |Chosen(s, keep)|
  {
    forall x | x in s.Keys ensures x in done {
      assert x !in s.Keys - done;
    }
    assert done == s.Keys;
  }

  /** The database's `sort()`: the same documents in the kind's order. */
  function Arrange(k: Kind, docs: seq<Doc>): (r: seq<Doc>)
    ensures SortedBy(r, Order(k))
    ensures multiset(r) == multiset(docs)
    ensures |r| == |docs|
    ensures forall d :: d in r <==> d in docs
  {
    OrderIsTotalPreorder(k);
    var r := Sort(docs, Order(k));
    assert forall d :: d in r <==> d in multiset(docs);
    r
  }

  /** GET /: only documents of the caller that pass every filter, each
      stored document at most once, in the kind's order. */
  method List(k: Kind, s: Store, log: seq<Emit>, caller: UserId, q: Query, env: Env) returns (o: Outcome)
    ensures o.store == s && o.log == log
    ensures o.reply.Failed? <==> ParseQuery(k, q, env.instant).None?
    ensures o.reply.Listed? || o.reply.Failed?
    ensures o.reply.Listed? ==>
      var c := ParseQuery(k, q, env.instant).value;
      && (forall d :: d in o.reply.docs ==> d in s.Values && Selected(c, caller, d))
      && (forall id :: id in s && Selected(c, caller, s[id]) ==> s[id] in o.reply.docs)
      && |o.reply.docs| == |Chosen(s, (d: Doc) => Selected(c, caller, d))|
      && SortedBy(o.reply.docs, Order(k))
  {
    var parsed := ParseQuery(k, q, env.instant);
    if parsed.None? {
      return Outcome(Failed, s, log);
    }
    var c := parsed.value;
    var keep := (d: Doc) => Selected(c, caller, d);
    var acc := Collect(s, keep);
    var sorted := Arrange(k, acc);
    return Outcome(Listed(sorted), s, log);
  }

  /** Filters apply only when their parameter is given: with an empty query
      every document passes. */
  lemma EmptyQueryKeepsAll(k: Kind, f: Fields, instant: string -> Option<int>)
    ensures ParseQuery(k, map[], instant).Some?
    ensures Matches(ParseQuery(k, map[], instant).value, f)
  {
  }

  /** The search text is matched without regard to ASCII case. */
  lemma MentionsIgnoresCase(f: Fields, key: string, text: string)
    ensures Mentions(f, key, Lower(text)) <==> Mentions(f, key, text)
  {
    LowerIdempotent(text);
  }

  /** The event range needs both bounds: with one of them missing or empty,
      no event is excluded by date. */
  lemma EventRangeNeedsBoth(q: Query, instant: string -> Option<int>, f: Fields)
    requires IfGiven(q, "startDate").None? || IfGiven(q, "endDate").None?
    requires IfGiven(q, "category").None?
    ensures ParseQuery(Events, q, instant) == Some(EventQuery(None, None))
    ensures Matches(EventQuery(None, None), f)
  {
  }
}

=== FILE: note_model.dfy ===
/** The Note schema: required trimmed title of at most 200 characters,
    required content, colour defaulting to white, trimmed tags, pinned and
    archived flags defaulting to false, and the two timestamps. */
module NoteModel {
  import opened Options
  import opened Strings
  import opened Json
  import opened Casting

  const TitleMax := 200
  const DefaultColor := "#ffffff"

  datatype Note = Note(
    title: string,
    content: string,
    color: string,
    tags: seq<string>,
    isPinned: bool,
    isArchived: bool,
    createdAt: int,
    updatedAt: int)
  {
    /** The `required`, `maxlength` and `trim` constraints of the schema. */
    predicate Valid() {
      && 0 < |title| <= TitleMax
      && Trimmed(title)
      && |content| > 0
      && forall i :: 0 <= i < |tags| ==> Trimmed(tags[i])
    }
  }

  /** The value a new note takes for each path the body leaves out. */
  function Defaults(now: int): Fields {
    map[
      "color" := Str(DefaultColor),
      "tags" := Arr([]),
      "isPinned" := Bool(false),
      "isArchived" := Bool(false),
      "createdAt" := Num(now),
      "updatedAt" := Num(now)]
  }

  /** The setter or cast of one path. */
  function CastPath(key: string, v: Value, instant: string -> Option<int>): Option<Value> {
    if key == "title" then Some(TrimText(v))
    else if key == "tags" then Some(TrimTexts(v))
    else if key == "createdAt" || key == "updatedAt" then CastDate(v, instant)
    else Some(v)
  }

  /** The typed reading of a cast document; `None` when a path is missing or
      has the wrong JSON type. */
  function Read(f: Fields): Option<Note> {
    var title :- TextOpt(f, "title");
    var content :- TextOpt(f, "content");
    var color :- TextOpt(f, "color");
    var tags :- if "tags" in f then Texts(f["tags"]) else None;
    var pinned :- Boolean(f, "isPinned");
    var archived :- Boolean(f, "isArchived");
    var created :- Time(f, "createdAt");
    var updated :- Time(f, "updatedAt");
    Some(Note(title, content, color, tags, pinned, archived, created, updated))
  }

  /** Schema validation of a cast document. */
  predicate Accepts(f: Fields) {
    Read(f).Some? && Read(f).value.Valid()
  }

  /** The document a note is stored as. */
  function ToFields(n: Note): Fields {
    map[
      "title" := Str(n.title),
      "content" := Str(n.content),
      "color" := Str(n.color),
      "tags" := Strs(n.tags),
      "isPinned" := Bool(n.isPinned),
      "isArchived" := Bool(n.isArchived),
      "createdAt" := Num(n.createdAt),
      "updatedAt" := Num(n.updatedAt)]
  }

  /** Reading a stored note gives the note back. */
  lemma ReadToFields(n: Note)
    ensures Read(ToFields(n)) == Some(n)
  {
    TextsOfStrs(n.tags);
  }

  /** The stored form of a note whose title and tags are trimmed casts to itself, path by path. */
  lemma ToFieldsCastFixed(n: Note, instant: string -> Option<int>)
    requires Trimmed(n.title)
    requires forall i :: 0 <= i < |n.tags| ==> Trimmed(n.tags[i])
    ensures forall key :: key in ToFields(n) ==> CastPath(key, ToFields(n)[key], instant) == Some(ToFields(n)[key])
  {
    TrimmedIsFixed(n.title);
    TrimTextsFixed(n.tags);
    CastKeysFixed(n, instant);
  }

  lemma CastKeysFixed(n: Note, instant: string -> Option<int>)
    requires Trim(n.title) == n.title
    requires TrimTexts(Strs(n.tags)) == Strs(n.tags)
    ensures forall key :: key in ToFields(n) ==> CastPath(key, ToFields(n)[key], instant) == Some(ToFields(n)[key])
  {
    var f := ToFields(n);
    forall key | key in f
      ensures CastPath(key, f[key], instant) == Some(f[key])
    {
      if key == "title" {
        assert f[key] == Str(n.title);
      } else if key == "tags" {
        assert f[key] == Strs(n.tags);
      } else if key == "createdAt" {
        assert f[key] == Num(n.createdAt);
      } else if key == "updatedAt" {
        assert f[key] == Num(n.updatedAt);
      }
    }
  }

  /** Casting a path twice is casting it once. */
  lemma CastPathIdempotent(key: string, v: Value, instant: string -> Option<int>)
    requires CastPath(key, v, instant).Some?
    ensures CastPath(key, CastPath(key, v, instant).value, instant) == CastPath(key, v, instant)
  {
    if key == "title" {
      TrimTextIdempotent(v);
    } else if key == "tags" {
      TrimTextsIdempotent(v);
    }
  }

  /** Saving stamps `updatedAt`; the document stays acceptable. */
  lemma StampKeepsAccepted(f: Fields, now: int)
    requires Accepts(f)
    ensures Accepts(f["updatedAt" := Num(now)])
    ensures Read(f["updatedAt" := Num(now)]) == Some(Read(f).value.(updatedAt := now))
  {
  }
}

=== FILE: options.dfy ===
/** An optional value, usable with `:-` so that a chain of lookups stops at the
    first missing one. JavaScript's `undefined`/`null` results become `None`. */
module Options {

  datatype Option<+T> = None | Some(value: T) {

    predicate IsFailure() {
      None?
    }

    function PropagateFailure<U>(): Option<U>
      requires None?
    {
      None
    }

    function Extract(): T
      requires Some?
    {
      value
    }

    /** The `x || fallback` idiom for a value that may be absent. */
    function GetOr(fallback: T): T {
      if Some? then value else fallback
    }
  }
}

=== FILE: profile_page.dfy ===
/** The profile page's client-side checks: choosing and uploading an
    avatar, and submitting a password change. */
module ProfilePage {
  import opened Options
  import opened Strings
  import opened Json
  import Auth

  /** A file picked in the browser. */
  datatype Picked = Picked(name: string, mime: string, size: nat)

  const SizeLimit := 5 * 1024 * 1024

  datatype Choice = Choice(selected: Option<Picked>, error: Option<string>)

  /** `handleAvatarChange`: with no file nothing happens; a file over the
      limit is refused first, then one whose type is not `image/...`; any
      other file becomes the selection. */
  function AvatarChange(selected: Option<Picked>, file: Option<Picked>): (c: Choice)
    ensures file.None? ==> c == Choice(selected, None)
    ensures file.Some? ==> (c.error.None? <==> file.value.size <= SizeLimit && StartsWith(file.value.mime, "image/"))
    ensures file.Some? && c.error.None? ==> c.selected == file
    ensures c.error.Some? ==> c.selected == selected
    ensures file.Some? && file.value.size > SizeLimit ==> c.error == Some("Image size should be less than 5MB")
  {
    match file
    case None => Choice(selected, None)
    case Some(f) =>
      if f.size > SizeLimit then Choice(selected, Some("Image size should be less than 5MB"))
      else if !StartsWith(f.mime, "image/") then Choice(selected, Some("Please upload an image file"))
      else Choice(file, None)
  }

  /** A file of exactly the limit is accepted; one byte more is not. */
  lemma LimitInclusive(name: string)
    ensures AvatarChange(None, Some(Picked(name, "image/png", SizeLimit))).error.None?
    ensures AvatarChange(None, Some(Picked(name, "image/png", SizeLimit + 1))).error.Some?
  {
  }

  /** A file the page accepts never exceeds the server's upload limit. */
  lemma ChosenWithinServerLimit(selected: Option<Picked>, file: Option<Picked>)
    requires file.Some? && AvatarChange(selected, file).error.None?
    ensures file.value.size <= Auth.AvatarLimit
  {
  }

  /** The page checks only the `image/` prefix; the server also wants an
      image format named in both the extension and the type, so an SVG
      (`logo.svg` as `image/svg+xml`, say) passes the page and is refused
      by the server. */
  lemma SvgOnlyPassesPage(stem: string, mime: string, size: nat)
    requires '/' !in stem && |stem| > 0 && stem != "."
    requires StartsWith(mime, "image/") && 'j' !in mime && 'p' !in mime && 'f' !in mime && 'w' !in mime
    requires size <= SizeLimit
    ensures AvatarChange(None, Some(Picked(stem + ".svg", mime, size))).error.None?
    ensures !Auth.FileAccepted(stem + ".svg", mime)
  {
    SvgName(stem);
    SvgRefused(stem + ".svg", mime);
  }

  /** A name with the extension `.svg` is refused whatever its type, as
      long as the type names no image format. */
  lemma SvgRefused(name: string, mime: string)
    requires Auth.ExtName(name) == ".svg"
    ensures !Auth.ImageWord(Lower(Auth.ExtName(name)))
  {
    LowerSvg();
    SvgNoImageWord();
  }

  lemma LowerSvg()
    ensures Lower(".svg") == ".svg"
  {
  }

  lemma SvgNoImageWord()
    ensures !Auth.ImageWord(".svg")
  {
    NoImageWord(".svg");
  }

  lemma SvgName(stem: string)
    requires '/' !in stem && |stem| > 0 && stem != "."
    ensures Auth.ExtName(stem + ".svg") == ".svg"
  {
    JoinSvg(stem);
    Auth.ExtNameOfName(stem, "svg");
  }

  lemma JoinSvg(stem: string)
    ensures stem + "." + "svg" == stem + ".svg" && "." + "svg" == ".svg"
  {
  }

  /** A text without the letters j, p, f and w names no image format. */
  lemma NoImageWord(x: string)
    requires 'j' !in x && 'p' !in x && 'f' !in x && 'w' !in x
    ensures !Auth.ImageWord(x)
  {
    MissingChar(x, "jpeg", 'j');
    MissingChar(x, "jpg", 'j');
    MissingChar(x, "png", 'p');
    MissingChar(x, "gif", 'f');
    MissingChar(x, "webp", 'w');
  }

  datatype Upload = NoSelection | Send(file: Picked)

  /** `handleAvatarUpload`: nothing is sent without a selection. */
  function AvatarUpload(selected: Option<Picked>): (u: Upload)
    ensures u.NoSelection? <==> selected.None?
    ensures u.Send? ==> selected == Some(u.file)
  {
    match selected
    case None => NoSelection
    case Some(f) => Send(f)
  }

  /** After a successful upload the stored user carries the new avatar and
      the selection is cleared; otherwise both stay. */
  function UploadDone(user: Fields, selected: Option<Picked>, avatar: Option<string>): (r: (Fields, Option<Picked>))
    ensures avatar.Some? ==> r.0 == user["avatar" := Str(avatar.value)] && r.1.None?
    ensures avatar.None? ==> r == (user, selected)
  {
    match avatar
    case None => (user, selected)
    case Some(a) => (Spread(user, map["avatar" := Str(a)]), None)
  }

  datatype PasswordForm = PasswordForm(current: string, next: string, confirm: string)

  const ClearedForm := PasswordForm("", "", "")

  datatype PasswordStep = Mismatch | TooShort | Request(current: string, next: string)

  /** `handlePasswordSubmit`: a mismatch is reported before the length; only
      a matching new password of six or more characters is sent. */
  function PasswordSubmit(form: PasswordForm): (s: PasswordStep)
    ensures s == Mismatch <==> form.next != form.confirm
    ensures s == TooShort <==> form.next == form.confirm && |form.next| < 6
    ensures s.Request? ==> s == Request(form.current, form.next) && form.next == form.confirm && |form.next| >= 6
  {
    if form.next != form.confirm then Mismatch
    else if |form.next| < 6 then TooShort
    else Request(form.current, form.next)
  }

  /** A successful change clears all three fields; a failed one keeps them. */
  function PasswordDone(form: PasswordForm, ok: bool): (f: PasswordForm)
    ensures ok ==> f.current == "" && f.next == "" && f.confirm == ""
    ensures !ok ==> f == form
  {
    if ok then ClearedForm else form
  }

  /** The body the page sends never fails the server's new-password rule,
      and passes every rule when the current password was typed. */
  lemma RequestPassesServer(form: PasswordForm)
    requires PasswordSubmit(form).Request? && |form.current| > 0
    ensures |Auth.PasswordErrors(map["currentPassword" := Str(form.current), "newPassword" := Str(form.next)])| == 0
  {
    var body := map["currentPassword" := Str(form.current), "newPassword" := Str(form.next)];
    assert Text(body, "currentPassword") == form.current;
    assert Text(body, "newPassword") == form.next;
  }
}

=== FILE: resources.dfy ===
/** The owner-scoped resource service that the task, note, bookmark and event
    routes each repeat: get, create, update and delete against one collection
    (the widget routes share only create, update and delete), the
    404-before-403 checks, owner stamping on create, and the socket
    notifications sent to the caller's room. Listing is in `Listing`,
    the widget batch update in `WidgetBatch`. */
module Resources {
  import opened Options
  import opened Strings
  import opened Json
  import opened Schemas

  type Id = string
  type UserId = string

  /** A stored document: its id and owner kept apart from its other paths. */
  datatype Doc = Doc(id: Id, user: UserId, fields: Fields)

  /** One collection, by document id. */
  type Store = map<Id, Doc>

  /** Every document is stored under its own id. */
  predicate Keyed(s: Store) {
    forall id :: id in s ==> s[id].id == id
  }

  /** The parts of a WHATWG `URL` the favicon is built from. */
  datatype Url = Url(protocol: string, hostname: string)

  /** The library predicates the routes rely on: `isURL`, `isISO8601`, the
      `Date` constructor and the `URL` constructor (`None` when it throws). */
  datatype Env = Env(
    isUrl: string -> bool,
    isIso8601: string -> bool,
    instant: string -> Option<int>,
    parseUrl: string -> Option<Url>)

  datatype Payload = Document(doc: Doc) | DocId(id: Id)

  /** `io.to(room).emit(event, payload)`. */
  datatype Emit = Emit(room: UserId, event: string, payload: Payload)

  /** One entry of `errors.array()`. */
  datatype FieldError = FieldError(field: string, message: string)

  datatype Reply =
    | Listed(docs: seq<Doc>)
    | Found(doc: Doc)
    | Made(doc: Doc)
    | Changed(doc: Doc)
    | Removed
    | Batch(items: seq<Option<Doc>>)
    | Invalid(errors: seq<FieldError>)
    | NotFound
    | Forbidden
    | Failed

  /** The HTTP status each reply is sent with. */
  function Status(r: Reply): (code: int)
    ensures code == 200 <==> r.Listed? || r.Found? || r.Changed? || r.Removed? || r.Batch?
    ensures code == 201 <==> r.Made?
    ensures code == 400 <==> r.Invalid?
    ensures code == 403 <==> r.Forbidden?
    ensures code == 404 <==> r.NotFound?
    ensures code == 500 <==> r.Failed?
  {
    match r
    case Made(_) => 201
    case Invalid(_) => 400
    case NotFound => 404
    case Forbidden => 403
    case Failed => 500
    case _ => 200
  }

  /** The reply, the collection afterwards and the notification log afterwards. */
  datatype Outcome = Outcome(reply: Reply, store: Store, log: seq<Emit>)

  /** The singular noun in the event names (`task:created`, ...). */
  function Singular(k: Kind): (r: string)
    ensures |r| > 0
  {
    match k
    case Tasks => "task"
    case Notes => "note"
    case Bookmarks => "bookmark"
    case Events => "event"
    case Widgets => "widget"
  }

  /** Widget routes never emit. */
  predicate Notifies(k: Kind) {
    k != Widgets
  }

  /** The log after an operation `op` on kind `k`: one more entry addressed to
      the caller's room when the kind notifies, unchanged otherwise. */
  function Notice(k: Kind, log: seq<Emit>, room: UserId, op: string, payload: Payload): (r: seq<Emit>)
    ensures |r| == |log| + (if Notifies(k) then 1 else 0)
    ensures r[..|log|] == log
    ensures Notifies(k) ==> r[|log|] == Emit(room, Singular(k) + ":" + op, payload)
  {
    if Notifies(k) then log + [Emit(room, Singular(k) + ":" + op, payload)] else log
  }

  datatype Access = Missing | Foreign | Owned(doc: Doc)

  /** `findById` followed by the ownership check, in that order. */
  function Lookup(s: Store, caller: UserId, id: Id): (a: Access)
    ensures a.Missing? <==> id !in s
    ensures a.Foreign? <==> id in s && s[id].user != caller
    ensures a.Owned? <==> id in s && s[id].user == caller
    ensures a.Owned? ==> a.doc == s[id]
  {
    if id !in s then Missing
    else if s[id].user != caller then Foreign
    else Owned(s[id])
  }

  /** The refusal for a lookup that did not find an owned document. */
  function Refusal(a: Access, s: Store, log: seq<Emit>): (o: Outcome)
    requires !a.Owned?
    ensures o.reply == (if a.Missing? then NotFound else Forbidden)
    ensures o.store == s && o.log == log
  {
    Outcome(if a.Missing? then NotFound else Forbidden, s, log)
  }

  /** GET /:id. */
  function Get(s: Store, log: seq<Emit>, caller: UserId, id: Id): (o: Outcome)
    ensures o.store == s && o.log == log
    ensures o.reply == NotFound <==> id !in s
    ensures o.reply == Forbidden <==> id in s && s[id].user != caller
    ensures o.reply.Found? <==> id in s && s[id].user == caller
    ensures o.reply.Found? ==> o.reply.doc == s[id]
  {
    var a := Lookup(s, caller, id);
    if !a.Owned? then Refusal(a, s, log) else Outcome(Found(a.doc), s, log)
  }

  /** The message of a failing `body(...)` chain for `k`, in chain order. The
      title and content checks trim first; the URL check runs on the trimmed
      URL; the date checks run on the values as sent. */
  function CreateErrors(k: Kind, body: Fields, env: Env): (errs: seq<FieldError>)
    ensures k == Widgets ==> errs == []
    ensures k != Widgets && Blank(Text(body, "title")) ==> |errs| > 0 && errs[0] == FieldError("title", "Title is required")
    ensures |errs| == 0 <==>
      (k != Widgets ==> !Blank(Text(body, "title")))
      && (k == Notes ==> !Blank(Text(body, "content")))
      && (k == Bookmarks ==> env.isUrl(Trim(Text(body, "url"))))
      && (k == Events ==> env.isIso8601(Text(body, "startDate")) && env.isIso8601(Text(body, "endDate")))
  {
    var title := if k != Widgets && Blank(Text(body, "title")) then [FieldError("title", "Title is required")] else [];
    var rest :=
      match k
      case Notes =>
        if Blank(Text(body, "content")) then [FieldError("content", "Content is required")] else []
      case Bookmarks =>
        if !env.isUrl(Trim(Text(body, "url"))) then [FieldError("url", "Valid URL is required")] else []
      case Events =>
        (if !env.isIso8601(Text(body, "startDate")) then [FieldError("startDate", "Valid start date is required")] else [])
        + (if !env.isIso8601(Text(body, "endDate")) then [FieldError("endDate", "Valid end date is required")] else [])
      case _ => [];
    title + rest
  }

  /** The `trim()` sanitizers of the validation chain write the trimmed
      string back into the body. */
  function TrimPath(body: Fields, key: string): (r: Fields)
    ensures r.Keys == body.Keys
    ensures forall p :: p in body && p != key ==> r[p] == body[p]
    ensures key in body && body[key].Str? ==> r[key] == Str(Trim(body[key].s))
  {
    if key in body && body[key].Str? then body[key := Str(Trim(body[key].s))] else body
  }

  function Sanitize(k: Kind, body: Fields): Fields {
    match k
    case Widgets => body
    case Notes => TrimPath(TrimPath(body, "title"), "content")
    case Bookmarks => TrimPath(TrimPath(body, "title"), "url")
    case _ => TrimPath(body, "title")
  }

  /** `${url.protocol}//${url.hostname}/favicon.ico`. */
  function Favicon(u: Url): string {
    u.protocol + "//" + u.hostname + "/favicon.ico"
  }

  /** The body as the route hands it to `create`: sanitized, and for a
      bookmark with the favicon of its URL added. `None` when the `URL`
      constructor throws. */
  function Prepared(k: Kind, body: Fields, env: Env): (r: Option<Fields>)
    ensures k != Bookmarks ==> r == Some(Sanitize(k, body))
    ensures k == Bookmarks ==> (r.Some? <==> env.parseUrl(Text(Sanitize(k, body), "url")).Some?)
    ensures k == Bookmarks && r.Some? ==>
      r.value == Sanitize(k, body)["favicon" := Str(Favicon(env.parseUrl(Text(Sanitize(k, body), "url")).value))]
  {
    var clean := Sanitize(k, body);
    if k != Bookmarks then Some(clean)
    else
      match env.parseUrl(Text(clean, "url"))
      case None => None
      case Some(u) => Some(clean["favicon" := Str(Favicon(u))])
  }

  /** The paths kept out of a document's fields. */
  const Reserved: set<string> := {"_id", "user"}

  /** POST /: validate, sanitize, derive the favicon of a bookmark, then save
      the document with the caller as owner. */
  function Create(k: Kind, s: Store, log: seq<Emit>, caller: UserId, body: Fields,
                  newId: Id, now: int, env: Env): (o: Outcome)
    ensures o.reply.Invalid? <==> |CreateErrors(k, body, env)| > 0
    ensures o.reply.Invalid? ==> o.reply.errors == CreateErrors(k, body, env)
    ensures o.reply.Made? || o.reply.Invalid? || o.reply.Failed?
    ensures o.reply.Made? <==>
      && |CreateErrors(k, body, env)| == 0
      && Prepared(k, body, env).Some?
      && Saves(k, s, ClaimedId(Prepared(k, body, env).value), Prepared(k, body, env).value - Reserved, newId, now, env)
    ensures !o.reply.Made? ==> o.store == s && o.log == log
    ensures o.reply.Made? ==>
      && o.reply.doc.user == caller
      && o.reply.doc.id !in s
      && o.store == s[o.reply.doc.id := o.reply.doc]
      && Build(k, Prepared(k, body, env).value - Reserved, now, env.instant) == Some(o.reply.doc.fields)
      && Accepts(k, o.reply.doc.fields)
      && o.log == Notice(k, log, caller, "created", Document(o.reply.doc))
  {
    var errs := CreateErrors(k, body, env);
    if |errs| > 0 then Outcome(Invalid(errs), s, log)
    else
      var prepared := Prepared(k, body, env);
      if prepared.None? then Outcome(Failed, s, log)
      else
        var b := prepared.value;
        Save(k, s, log, caller, ClaimedId(b), b - Reserved, newId, now, env)
  }

  /** The `_id` a body asks for, if any. */
  function ClaimedId(b: Fields): (r: Option<Value>)
    ensures r.Some? <==> "_id" in b
    ensures r.Some? ==> r.value == b["_id"]
  {
    if "_id" in b then Some(b["_id"]) else None
  }

  /** The id a save stores under: the claimed string, else the new id. */
  function ChosenId(claimedId: Option<Value>, newId: Id): (id: Id)
    requires claimedId.None? || claimedId.value.Str?
    ensures claimedId.Some? ==> claimedId.value == Str(id)
    ensures claimedId.None? ==> id == newId
  {
    if claimedId.Some? then claimedId.value.s else newId
  }

  /** When `create` stores a document: the `_id` is absent or a string, the
      body builds, and the chosen id is not taken. */
  predicate Saves(k: Kind, s: Store, claimedId: Option<Value>, rest: Fields, newId: Id, now: int, env: Env) {
    && (claimedId.None? || claimedId.value.Str?)
    && Build(k, rest, now, env.instant).Some?
    && ChosenId(claimedId, newId) !in s
  }

  /** `Model.create({...body, user: caller})`: the body's `_id`, when a
      string, chooses the id, otherwise the new id is `newId`; an id already
      taken is a duplicate-key error, and so is a cast or validation error. */
  function Save(k: Kind, s: Store, log: seq<Emit>, caller: UserId, claimedId: Option<Value>, rest: Fields,
                newId: Id, now: int, env: Env): (o: Outcome)
    ensures o.reply.Made? || o.reply.Failed?
    ensures o.reply.Made? <==> Saves(k, s, claimedId, rest, newId, now, env)
    ensures o.reply.Failed? ==> o.store == s && o.log == log
    ensures o.reply.Made? ==>
      && o.reply.doc.user == caller
      && o.reply.doc.id !in s
      && (claimedId.Some? ==> claimedId.value == Str(o.reply.doc.id))
      && (claimedId.None? ==> o.reply.doc.id == newId)
      && Build(k, rest, now, env.instant) == Some(o.reply.doc.fields)
      && o.store == s[o.reply.doc.id := o.reply.doc]
      && Accepts(k, o.reply.doc.fields)
      && o.log == Notice(k, log, caller, "created", Document(o.reply.doc))
  {
    if claimedId.Some? && !claimedId.value.Str? then Outcome(Failed, s, log)
    else
      var id := ChosenId(claimedId, newId);
      var fields := Build(k, rest, now, env.instant);
      if fields.None? || id in s then Outcome(Failed, s, log)
      else
        var doc := Doc(id, caller, fields.value);
        Outcome(Made(doc), s[id := doc], Notice(k, log, caller, "created", Document(doc)))
  }

  /** PUT /:id: after the lookup the body is applied as sent, without the
      create-time validation chain. A string `user` in the body hands the
      document to that user; a non-string one is a cast error, and so is an
      `_id` other than the document's own. */
  function Update(k: Kind, s: Store, log: seq<Emit>, caller: UserId, id: Id, body: Fields, env: Env): (o: Outcome)
    ensures o.reply == NotFound <==> id !in s
    ensures o.reply == Forbidden <==> id in s && s[id].user != caller
    ensures o.reply.Changed? || o.reply.Failed? || o.reply == NotFound || o.reply == Forbidden
    ensures o.reply.Changed? <==>
      && id in s && s[id].user == caller
      && ("_id" in body ==> body["_id"] == Str(id))
      && ("user" in body ==> body["user"].Str?)
      && Merge(k, s[id].fields, body - Reserved, env.instant).Some?
    ensures !o.reply.Changed? ==> o.store == s && o.log == log
    ensures o.reply.Changed? ==>
      && id in s && s[id].user == caller
      && o.reply.doc.id == id
      && o.reply.doc.fields == Merge(k, s[id].fields, body - Reserved, env.instant).value
      && ("user" !in body ==> o.reply.doc.user == caller)
      && ("user" in body && body["user"].Str? ==> o.reply.doc.user == body["user"].s)
      && o.store == s[id := o.reply.doc]
      && Accepts(k, o.reply.doc.fields)
      && o.log == Notice(k, log, caller, "updated", Document(o.reply.doc))
  {
    var a := Lookup(s, caller, id);
    if !a.Owned? then Refusal(a, s, log)
    else if "_id" in body && body["_id"] != Str(id) then Outcome(Failed, s, log)
    else if "user" in body && !body["user"].Str? then Outcome(Failed, s, log)
    else
      var owner := if "user" in body then body["user"].s else a.doc.user;
      var fields := Merge(k, a.doc.fields, body - Reserved, env.instant);
      if fields.None? then Outcome(Failed, s, log)
      else
        var doc := Doc(id, owner, fields.value);
        Outcome(Changed(doc), s[id := doc], Notice(k, log, caller, "updated", Document(doc)))
  }

  /** DELETE /:id: the notification carries only the id. */
  function Delete(k: Kind, s: Store, log: seq<Emit>, caller: UserId, id: Id): (o: Outcome)
    ensures o.reply == NotFound <==> id !in s
    ensures o.reply == Forbidden <==> id in s && s[id].user != caller
    ensures o.reply == Removed <==> id in s && s[id].user == caller
    ensures o.reply != Removed ==> o.store == s && o.log == log
    ensures o.reply == Removed ==> o.store == s - {id} && o.log == Notice(k, log, caller, "deleted", DocId(id))
  {
    var a := Lookup(s, caller, id);
    if !a.Owned? then Refusal(a, s, log)
    else Outcome(Removed, s - {id}, Notice(k, log, caller, "deleted", DocId(id)))
  }

  /** Whatever `user` the body claims, create stores the caller as owner:
      the outcome is the one for the body without the claim. */
  lemma CreateIgnoresClaimedOwner(k: Kind, s: Store, log: seq<Emit>, caller: UserId, body: Fields,
                                  claimed: Value, newId: Id, now: int, env: Env)
    requires "user" !in body
    ensures Create(k, s, log, caller, body["user" := claimed], newId, now, env)
         == Create(k, s, log, caller, body, newId, now, env)
  {
    var body' := body["user" := claimed];
    ErrorsIgnoreUser(k, body, claimed, env);
    PreparedIgnoresUser(k, body, claimed, env);
    if |CreateErrors(k, body, env)| == 0 && Prepared(k, body, env).Some? {
      var b := Prepared(k, body, env).value;
      var b' := Prepared(k, body', env).value;
      StripUser(b, claimed);
      assert ClaimedId(b') == ClaimedId(b);
      CreateSaves(k, s, log, caller, body, newId, now, env);
      CreateSaves(k, s, log, caller, body', newId, now, env);
    }
  }

  /** A create that passes validation and preparation is the save of the
      prepared body. */
  lemma CreateSaves(k: Kind, s: Store, log: seq<Emit>, caller: UserId, body: Fields,
                    newId: Id, now: int, env: Env)
    requires |CreateErrors(k, body, env)| == 0 && Prepared(k, body, env).Some?
    ensures Create(k, s, log, caller, body, newId, now, env)
         == Save(k, s, log, caller, ClaimedId(Prepared(k, body, env).value), Prepared(k, body, env).value - Reserved, newId, now, env)
  {
  }

  lemma ErrorsIgnoreUser(k: Kind, body: Fields, claimed: Value, env: Env)
    ensures CreateErrors(k, body["user" := claimed], env) == CreateErrors(k, body, env)
  {
    var body' := body["user" := claimed];
    assert Text(body', "title") == Text(body, "title");
    assert Text(body', "content") == Text(body, "content");
    assert Text(body', "url") == Text(body, "url");
    assert Text(body', "startDate") == Text(body, "startDate");
    assert Text(body', "endDate") == Text(body, "endDate");
  }

  lemma SanitizeIgnoresUser(k: Kind, body: Fields, claimed: Value)
    ensures Sanitize(k, body["user" := claimed]) == Sanitize(k, body)["user" := claimed]
  {
    match k
    case Widgets =>
    case Notes =>
      TrimPathIgnoresUser(body, "title", claimed);
      TrimPathIgnoresUser(TrimPath(body, "title"), "content", claimed);
    case Bookmarks =>
      TrimPathIgnoresUser(body, "title", claimed);
      TrimPathIgnoresUser(TrimPath(body, "title"), "url", claimed);
    case _ =>
      TrimPathIgnoresUser(body, "title", claimed);
  }

  lemma TrimPathIgnoresUser(body: Fields, key: string, claimed: Value)
    requires key != "user"
    ensures TrimPath(body["user" := claimed], key) == TrimPath(body, key)["user" := claimed]
  {
    var l, r := TrimPath(body["user" := claimed], key), TrimPath(body, key)["user" := claimed];
    assert l.Keys == r.Keys;
    forall p | p in l ensures l[p] == r[p] {
    }
  }

  lemma PreparedIgnoresUser(k: Kind, body: Fields, claimed: Value, env: Env)
    ensures Prepared(k, body["user" := claimed], env).Some? == Prepared(k, body, env).Some?
    ensures Prepared(k, body, env).Some? ==>
      Prepared(k, body["user" := claimed], env).value == Prepared(k, body, env).value["user" := claimed]
  {
    SanitizeIgnoresUser(k, body, claimed);
    if k == Bookmarks {
      var clean := Sanitize(k, body);
      TextOtherKey(clean, "user", claimed, "url");
      var u := env.parseUrl(Text(clean, "url"));
      if u.Some? {
        UpdatesCommute(clean, "user", claimed, "favicon", Str(Favicon(u.value)));
      }
    }
  }

  /** Setting one path does not change the text read at another. */
  lemma TextOtherKey(f: Fields, key: string, v: Value, other: string)
    requires key != other
    ensures Text(f[key := v], other) == Text(f, other)
  {
  }

  /** Setting two different paths in either order gives the same fields. */
  lemma UpdatesCommute(f: Fields, a: string, x: Value, b: string, y: Value)
    requires a != b
    ensures f[a := x][b := y] == f[b := y][a := x]
  {
  }

  lemma StripUser(b: Fields, claimed: Value)
    ensures b["user" := claimed] - Reserved == b - Reserved
  {
    assert (b["user" := claimed] - Reserved).Keys == (b - Reserved).Keys;
  }

  /** A created document is found by its owner and refused to everyone else. */
  lemma CreateThenGet(k: Kind, s: Store, log: seq<Emit>, caller: UserId, body: Fields,
                      newId: Id, now: int, env: Env, other: UserId)
    requires Create(k, s, log, caller, body, newId, now, env).reply.Made?
    requires other != caller
    ensures var o := Create(k, s, log, caller, body, newId, now, env);
            && Get(o.store, o.log, caller, o.reply.doc.id).reply == Found(o.reply.doc)
            && Get(o.store, o.log, other, o.reply.doc.id).reply == Forbidden
  {
  }

  /** Once a delete has succeeded the id is gone: deleting it again is a 404
      that changes nothing. */
  lemma DeleteTwice(k: Kind, s: Store, log: seq<Emit>, caller: UserId, id: Id)
    requires Delete(k, s, log, caller, id).reply == Removed
    ensures var o := Delete(k, s, log, caller, id);
            Delete(k, o.store, o.log, caller, id) == Outcome(NotFound, o.store, o.log)
  {
  }

  /** A caller's mutations never touch a document owned by someone else, and
      never remove one. */
  lemma OthersUntouched(k: Kind, s: Store, log: seq<Emit>, caller: UserId, id: Id, body: Fields,
                        newId: Id, now: int, env: Env, j: Id)
    requires j in s && s[j].user != caller
    ensures j in Create(k, s, log, caller, body, newId, now, env).store
         && Create(k, s, log, caller, body, newId, now, env).store[j] == s[j]
    ensures j in Update(k, s, log, caller, id, body, env).store
         && Update(k, s, log, caller, id, body, env).store[j] == s[j]
    ensures j in Delete(k, s, log, caller, id).store
         && Delete(k, s, log, caller, id).store[j] == s[j]
  {
    CreateLeavesOthers(k, s, log, caller, body, newId, now, env, j);
    UpdateLeavesOthers(k, s, log, caller, id, body, env, j);
    DeleteLeavesOthers(k, s, log, caller, id, j);
  }

  lemma DeleteLeavesOthers(k: Kind, s: Store, log: seq<Emit>, caller: UserId, id: Id, j: Id)
    requires j in s && s[j].user != caller
    ensures j in Delete(k, s, log, caller, id).store
         && Delete(k, s, log, caller, id).store[j] == s[j]
  {
  }

  lemma CreateLeavesOthers(k: Kind, s: Store, log: seq<Emit>, caller: UserId, body: Fields,
                           newId: Id, now: int, env: Env, j: Id)
    requires j in s && s[j].user != caller
    ensures j in Create(k, s, log, caller, body, newId, now, env).store
         && Create(k, s, log, caller, body, newId, now, env).store[j] == s[j]
  {
  }

  lemma UpdateLeavesOthers(k: Kind, s: Store, log: seq<Emit>, caller: UserId, id: Id, body: Fields,
                           env: Env, j: Id)
    requires j in s && s[j].user != caller
    ensures j in Update(k, s, log, caller, id, body, env).store
         && Update(k, s, log, caller, id, body, env).store[j] == s[j]
  {
  }

  /** The favicon of a created bookmark is derived from the submitted URL,
      trimmed, whatever favicon the body carried. */
  lemma BookmarkFavicon(s: Store, log: seq<Emit>, caller: UserId, body: Fields,
                        newId: Id, now: int, env: Env)
    requires Create(Bookmarks, s, log, caller, body, newId, now, env).reply.Made?
    ensures var doc := Create(Bookmarks, s, log, caller, body, newId, now, env).reply.doc;
            match env.parseUrl(Trim(Text(body, "url")))
            case Some(u) => "favicon" in doc.fields && doc.fields["favicon"] == Str(Favicon(u))
            case None => false
  {
    CreateMadeSaves(Bookmarks, s, log, caller, body, newId, now, env);
    SanitizedUrl(body);
    var b := Prepared(Bookmarks, body, env).value;
    PreparedFavicon(body, env);
    SaveKeepsPath(Bookmarks, s, log, caller, ClaimedId(b), b - Reserved, newId, now, env, "favicon");
  }

  /** A create that succeeds is the save of the prepared body. */
  lemma CreateMadeSaves(k: Kind, s: Store, log: seq<Emit>, caller: UserId, body: Fields,
                        newId: Id, now: int, env: Env)
    requires Create(k, s, log, caller, body, newId, now, env).reply.Made?
    ensures Prepared(k, body, env).Some?
    ensures Create(k, s, log, caller, body, newId, now, env)
         == Save(k, s, log, caller, ClaimedId(Prepared(k, body, env).value), Prepared(k, body, env).value - Reserved, newId, now, env)
  {
  }

  /** The prepared bookmark body carries the favicon of its URL, outside the reserved paths. */
  lemma PreparedFavicon(body: Fields, env: Env)
    requires Prepared(Bookmarks, body, env).Some?
    ensures env.parseUrl(Text(Sanitize(Bookmarks, body), "url")).Some?
    ensures var rest := Prepared(Bookmarks, body, env).value - Reserved;
            "favicon" in rest
            && rest["favicon"] == Str(Favicon(env.parseUrl(Text(Sanitize(Bookmarks, body), "url")).value))
  {
  }

  /** A saved document holds each path of the body as its cast value, except
      the `updatedAt` of a stamped kind. */
  lemma SaveKeepsPath(k: Kind, s: Store, log: seq<Emit>, caller: UserId, claimedId: Option<Value>, rest: Fields,
                      newId: Id, now: int, env: Env, key: string)
    requires Save(k, s, log, caller, claimedId, rest, newId, now, env).reply.Made?
    requires key in rest && !(Stamped(k) && key == "updatedAt")
    ensures var doc := Save(k, s, log, caller, claimedId, rest, newId, now, env).reply.doc;
            key in doc.fields && doc.fields[key] == CastPath(k, key, rest[key], env.instant).value
  {
    BuildKeepsBody(k, rest, now, env.instant, key);
  }

  /** The URL the bookmark route parses is the submitted one, trimmed. */
  lemma SanitizedUrl(body: Fields)
    ensures Text(Sanitize(Bookmarks, body), "url") == Trim(Text(body, "url"))
  {
    if !("url" in body && body["url"].Str?) {
      TrimmedIsFixed("");
    }
  }

  /** Update applies each body path as its cast value and keeps every other
      stored path, `updatedAt` and a bookmark's `favicon` included. */
  lemma UpdateAppliesBody(k: Kind, s: Store, log: seq<Emit>, caller: UserId, id: Id, body: Fields, env: Env, key: string)
    requires Update(k, s, log, caller, id, body, env).reply.Changed?
    ensures var doc := Update(k, s, log, caller, id, body, env).reply.doc;
            && (key in body && key !in Reserved ==> doc.fields[key] == CastPath(k, key, body[key], env.instant).value)
            && (key in s[id].fields && key !in body ==> doc.fields[key] == s[id].fields[key])
            && (key !in s[id].fields && key !in body ==> key !in doc.fields)
  {
  }
  /** An owner's update with an empty body succeeds and returns the stored
      document; the store is unchanged and one `updated` notice is sent. */
  lemma UpdateEmptyBody(k: Kind, s: Store, log: seq<Emit>, caller: UserId, id: Id, env: Env)
    requires Keyed(s) && id in s && s[id].user == caller && Accepts(k, s[id].fields)
    ensures var o := Update(k, s, log, caller, id, map[], env);
            o.reply == Changed(s[id]) && o.store == s
            && o.log == Notice(k, log, caller, "updated", Document(s[id]))
  {
    var empty: Fields := map[];
    assert empty - Reserved == empty;
    MergeEmptyBody(k, s[id].fields, env.instant);
    assert s[id := s[id]] == s;
  }

  /** A note body with a trimmed title of at most 200 characters and trimmed
      non-empty content is created under the new id, owned by the caller,
      with every schema default. */
  lemma CreateNote(s: Store, log: seq<Emit>, caller: UserId, title: string, content: string,
                   newId: Id, now: int, env: Env)
    requires 0 < |title| <= NoteModel.TitleMax && Trimmed(title)
    requires |content| > 0 && Trimmed(content)
    requires newId !in s
    ensures var n := NoteModel.Note(title, content, NoteModel.DefaultColor, [], false, false, now, now);
            Create(Notes, s, log, caller, map["title" := Str(title), "content" := Str(content)], newId, now, env).reply
              == Made(Doc(newId, caller, NoteModel.ToFields(n)))
  {
    var body := map["title" := Str(title), "content" := Str(content)];
    NotePrepared(title, content, env);
    NoteBody(title, content);
    NoteFromTitleAndContent(title, content, now, env.instant);
    CreateSaves(Notes, s, log, caller, body, newId, now, env);
  }

  /** A valid note body passes the chain and its sanitizers leave it as is. */
  lemma NotePrepared(title: string, content: string, env: Env)
    requires 0 < |title| <= NoteModel.TitleMax && Trimmed(title)
    requires |content| > 0 && Trimmed(content)
    ensures var body := map["title" := Str(title), "content" := Str(content)];
            |CreateErrors(Notes, body, env)| == 0 && Prepared(Notes, body, env) == Some(body)
  {
    var body := map["title" := Str(title), "content" := Str(content)];
    NoteBody(title, content);
    NoteBodyValid(title, content);
    TrimmedIsFixed(title);
    TrimmedIsFixed(content);
    assert TrimPath(body, "title") == body;
    assert TrimPath(body, "content") == body;
  }

  /** The paths of a title-and-content note body. */
  lemma NoteBody(title: string, content: string)
    ensures var body := map["title" := Str(title), "content" := Str(content)];
            && Text(body, "title") == title && Text(body, "content") == content
            && ClaimedId(body) == None && body - Reserved == body
            && body["title"] == Str(title) && body["content"] == Str(content)
  {
    var body := map["title" := Str(title), "content" := Str(content)];
    assert (body - Reserved).Keys == body.Keys;
  }

  lemma NoteBodyValid(title: string, content: string)
    requires 0 < |title| <= NoteModel.TitleMax && Trimmed(title)
    requires |content| > 0 && Trimmed(content)
    ensures !Blank(title) && !Blank(content)
    ensures NoteModel.Note(title, content, NoteModel.DefaultColor, [], false, false, 0, 0).Valid()
  {
    TrimmedIsFixed(title);
    TrimmedIsFixed(content);
  }
}

=== FILE: schemas.dfy ===
/** The five document kinds behind the owner-scoped routes, and what Mongoose
    does to a document of each kind on its way into the store: defaults for
    absent paths, the cast of each path, schema validation, and the pre-save
    hook. The Task and Bookmark schemas are not part of this model, so those
    kinds get no defaults, no casts and no validation. */
module Schemas {
  import opened Options
  import opened Json
  import Strings
  import Casting
  import NoteModel
  import EventModel
  import WidgetModel

  datatype Kind = Tasks | Notes | Bookmarks | Events | Widgets

  /** The defaults a new document of kind `k` takes, created at `now`. */
  function Defaults(k: Kind, now: int): Fields {
    match k
    case Notes => NoteModel.Defaults(now)
    case Events => EventModel.Defaults(now)
    case Widgets => WidgetModel.Defaults(now)
    case _ => map[]
  }

  function CastPath(k: Kind, key: string, v: Value, instant: string -> Option<int>): Option<Value> {
    match k
    case Notes => NoteModel.CastPath(key, v, instant)
    case Events => EventModel.CastPath(key, v, instant)
    case Widgets => WidgetModel.CastPath(key, v, instant)
    case _ => Some(v)
  }

  predicate Accepts(k: Kind, f: Fields) {
    match k
    case Notes => NoteModel.Accepts(f)
    case Events => EventModel.Accepts(f)
    case Widgets => WidgetModel.Accepts(f)
    case _ => true
  }

  /** Whether the kind's schema has a pre-save hook stamping `updatedAt`. */
  predicate Stamped(k: Kind) {
    k == Notes || k == Events
  }

  /** Casting every path of a document; any cast error fails the whole cast. */
  function Cast(k: Kind, f: Fields, instant: string -> Option<int>): (r: Option<Fields>)
    ensures r.Some? <==> forall key :: key in f ==> CastPath(k, key, f[key], instant).Some?
    ensures r.Some? ==> r.value.Keys == f.Keys
    ensures r.Some? ==> forall key :: key in f ==> r.value[key] == CastPath(k, key, f[key], instant).value
  {
    if forall key :: key in f ==> CastPath(k, key, f[key], instant).Some?
    then Some(map key | key in f :: CastPath(k, key, f[key], instant).value)
    else None
  }

  /** The pre-save hook: notes and events take `updatedAt = now`. */
  function Stamp(k: Kind, f: Fields, now: int): (r: Fields)
    ensures r.Keys == if Stamped(k) then f.Keys + {"updatedAt"} else f.Keys
    ensures forall key :: key in f && (key != "updatedAt" || !Stamped(k)) ==> r[key] == f[key]
    ensures Stamped(k) ==> r["updatedAt"] == Num(now)
  {
    if Stamped(k) then f["updatedAt" := Num(now)] else f
  }

  /** `Model.create(body)` at instant `now`: defaults under the body, cast,
      validate, then the pre-save hook. `None` is a cast or validation error. */
  function Build(k: Kind, body: Fields, now: int, instant: string -> Option<int>): (r: Option<Fields>)
    ensures r.Some? ==> Accepts(k, r.value)
    ensures r.Some? ==> r.value.Keys == Stamp(k, Defaults(k, now) + body, now).Keys
  {
    var c :- Cast(k, Spread(Defaults(k, now), body), instant);
    if !Accepts(k, c) then None
    else
      StampKeepsAccepted(k, c, now);
      Some(Stamp(k, c, now))
  }

  /** `findByIdAndUpdate(id, body, {runValidators: true})`: the cast body
      paths replace the stored ones, everything else is kept, and the result
      must validate. No hook runs, so `updatedAt` is not refreshed. */
  function Merge(k: Kind, stored: Fields, body: Fields, instant: string -> Option<int>): (r: Option<Fields>)
    ensures r.Some? <==> Cast(k, body, instant).Some? && Accepts(k, Spread(stored, Cast(k, body, instant).value))
    ensures r.Some? ==> Accepts(k, r.value)
    ensures r.Some? ==> r.value.Keys == stored.Keys + body.Keys
    ensures r.Some? ==> forall key :: key in stored && key !in body ==> r.value[key] == stored[key]
    ensures r.Some? ==> forall key :: key in body ==> CastPath(k, key, body[key], instant) == Some(r.value[key])
  {
    var c :- Cast(k, body, instant);
    var m := Spread(stored, c);
    if Accepts(k, m) then Some(m) else None
  }

  lemma StampKeepsAccepted(k: Kind, f: Fields, now: int)
    requires Accepts(k, f)
    ensures Accepts(k, Stamp(k, f, now))
  {
    match k
    case Notes => NoteModel.StampKeepsAccepted(f, now);
    case Events => EventModel.StampKeepsAccepted(f, now);
    case _ =>
  }

  lemma CastPathIdempotent(k: Kind, key: string, v: Value, instant: string -> Option<int>)
    requires CastPath(k, key, v, instant).Some?
    ensures CastPath(k, key, CastPath(k, key, v, instant).value, instant) == CastPath(k, key, v, instant)
  {
    match k
    case Notes => NoteModel.CastPathIdempotent(key, v, instant);
    case Events => EventModel.CastPathIdempotent(key, v, instant);
    case Widgets => WidgetModel.CastPathIdempotent(key, v, instant);
    case _ =>
  }

  /** Casting a cast document changes nothing. */
  lemma CastIdempotent(k: Kind, f: Fields, instant: string -> Option<int>)
    requires Cast(k, f, instant).Some?
    ensures Cast(k, Cast(k, f, instant).value, instant) == Cast(k, f, instant)
  {
    var c := Cast(k, f, instant).value;
    forall key | key in c
      ensures CastPath(k, key, c[key], instant) == Some(c[key])
    {
      CastPathIdempotent(k, key, f[key], instant);
    }
    var d := Cast(k, c, instant).value;
    assert d.Keys == c.Keys;
    assert d == c;
  }

  /** Every path the body supplies is stored as its cast value, except the
      `updatedAt` of a stamped kind, which the hook overwrites. */
  lemma BuildKeepsBody(k: Kind, body: Fields, now: int, instant: string -> Option<int>, key: string)
    requires Build(k, body, now, instant).Some?
    requires key in body && !(Stamped(k) && key == "updatedAt")
    ensures Build(k, body, now, instant).value[key] == CastPath(k, key, body[key], instant).value
  {
  }

  /** Every path the body leaves out takes the schema default. */
  lemma BuildTakesDefault(k: Kind, body: Fields, now: int, instant: string -> Option<int>, key: string)
    requires Build(k, body, now, instant).Some?
    requires key in Defaults(k, now) && key !in body
    ensures Build(k, body, now, instant).value[key] == CastPath(k, key, Defaults(k, now)[key], instant).value
  {
    if Stamped(k) && key == "updatedAt" {
      assert Defaults(k, now)[key] == Num(now);
    }
  }

  /** A note created from a valid title and content alone is stored with
      every default: white, untagged, unpinned, unarchived, stamped `now`. */
  lemma NoteFromTitleAndContent(title: string, content: string, now: int, instant: string -> Option<int>)
    requires NoteModel.Note(title, content, NoteModel.DefaultColor, [], false, false, now, now).Valid()
    ensures Build(Notes, map["title" := Str(title), "content" := Str(content)], now, instant)
         == Some(NoteModel.ToFields(NoteModel.Note(title, content, NoteModel.DefaultColor, [], false, false, now, now)))
  {
    var n := NoteModel.Note(title, content, NoteModel.DefaultColor, [], false, false, now, now);
    var g := NoteModel.ToFields(n);
    var body := map["title" := Str(title), "content" := Str(content)];
    NoteDefaultsCast(title, content, now, instant);
    NoteModel.ReadToFields(n);
    assert Accepts(Notes, g);
    BuildOfCast(Notes, body, now, instant, g);
    SetToSame(g, "updatedAt", Num(now));
  }

  /** A body whose defaulted cast is acceptable builds to its stamped cast. */
  lemma BuildOfCast(k: Kind, body: Fields, now: int, instant: string -> Option<int>, c: Fields)
    requires Cast(k, Spread(Defaults(k, now), body), instant) == Some(c) && Accepts(k, c)
    ensures Build(k, body, now, instant) == Some(Stamp(k, c, now))
  {
  }

  /** Setting a path to the value it already holds changes nothing. */
  lemma SetToSame(f: Fields, key: string, v: Value)
    requires key in f && f[key] == v
    ensures f[key := v] == f
  {
  }

  lemma NoteDefaultsCast(title: string, content: string, now: int, instant: string -> Option<int>)
    requires Strings.Trimmed(title)
    ensures Cast(Notes, Spread(Defaults(Notes, now), map["title" := Str(title), "content" := Str(content)]), instant)
         == Some(NoteModel.ToFields(NoteModel.Note(title, content, NoteModel.DefaultColor, [], false, false, now, now)))
  {
    var n := NoteModel.Note(title, content, NoteModel.DefaultColor, [], false, false, now, now);
    NoteDefaultsFields(title, content, now);
    NoteFieldsCastFixed(n, instant);
  }

  /** The defaults spread under a title and content are the stored form of
      the default note. */
  lemma NoteDefaultsFields(title: string, content: string, now: int)
    ensures Spread(Defaults(Notes, now), map["title" := Str(title), "content" := Str(content)])
         == NoteModel.ToFields(NoteModel.Note(title, content, NoteModel.DefaultColor, [], false, false, now, now))
  {
    var s := Spread(Defaults(Notes, now), map["title" := Str(title), "content" := Str(content)]);
    var g := NoteModel.ToFields(NoteModel.Note(title, content, NoteModel.DefaultColor, [], false, false, now, now));
    NoteDefaultsKeys(title, content, now);
    NoteDefaultsValues(title, content, now);
    assert forall k | k in s :: s[k] == g[k];
  }

  lemma NoteDefaultsKeys(title: string, content: string, now: int)
    ensures Spread(Defaults(Notes, now), map["title" := Str(title), "content" := Str(content)]).Keys
         == NoteModel.ToFields(NoteModel.Note(title, content, NoteModel.DefaultColor, [], false, false, now, now)).Keys
  {
  }

  lemma NoteDefaultsValues(title: string, content: string, now: int)
    ensures var s := Spread(Defaults(Notes, now), map["title" := Str(title), "content" := Str(content)]);
            var g := NoteModel.ToFields(NoteModel.Note(title, content, NoteModel.DefaultColor, [], false, false, now, now));
            forall k | k in s && k in g :: s[k] == g[k]
  {
    var over := map["title" := Str(title), "content" := Str(content)];
    var d := Defaults(Notes, now);
    var g := NoteModel.ToFields(NoteModel.Note(title, content, NoteModel.DefaultColor, [], false, false, now, now));
    NoteOverValues(title, content, now);
    NoteBaseValues(title, content, now);
    assert forall k | k in g :: k in over || k in d;
  }

  lemma NoteOverValues(title: string, content: string, now: int)
    ensures var over := map["title" := Str(title), "content" := Str(content)];
            var g := NoteModel.ToFields(NoteModel.Note(title, content, NoteModel.DefaultColor, [], false, false, now, now));
            forall k | k in over :: k in g && g[k] == over[k]
  {
  }

  lemma NoteBaseValues(title: string, content: string, now: int)
    ensures var d := Defaults(Notes, now);
            var g := NoteModel.ToFields(NoteModel.Note(title, content, NoteModel.DefaultColor, [], false, false, now, now));
            forall k | k in d && k != "title" && k != "content" :: k in g && g[k] == d[k]
  {
    assert Strs([]) == Arr([]);
  }

  /** A document every path of which casts to itself is its own cast. */
  lemma CastFixed(k: Kind, f: Fields, instant: string -> Option<int>)
    requires forall key :: key in f ==> CastPath(k, key, f[key], instant) == Some(f[key])
    ensures Cast(k, f, instant) == Some(f)
  {
    var c := Cast(k, f, instant).value;
    assert c == f;
  }

  /** The stored form of a note with trimmed title and tags is already cast. */
  lemma NoteFieldsCastFixed(n: NoteModel.Note, instant: string -> Option<int>)
    requires Strings.Trimmed(n.title)
    requires forall i :: 0 <= i < |n.tags| ==> Strings.Trimmed(n.tags[i])
    ensures Cast(Notes, NoteModel.ToFields(n), instant) == Some(NoteModel.ToFields(n))
  {
    NoteModel.ToFieldsCastFixed(n, instant);
    CastFixed(Notes, NoteModel.ToFields(n), instant);
  }

  /** A stored document that validates and is already in cast form is
      accepted unchanged by an update with an empty body. */
  lemma MergeEmptyBody(k: Kind, stored: Fields, instant: string -> Option<int>)
    requires Accepts(k, stored)
    ensures Merge(k, stored, map[], instant) == Some(stored)
  {
    assert Spread(stored, map[]) == stored;
  }
}

=== FILE: seqs.dfy ===
/** Sequence functions shared by the client lists: `slice(0, n)`, `filter`,
    counting and `[...new Set(xs)]`. */
module Seqs {

  /** `s.slice(0, n)`: the first `min(n, |s|)` elements. */
  function Take<T>(s: seq<T>, n: nat): (r: seq<T>)
    ensures |r| == if n < |s| then n else |s|
    ensures r == s[..|r|]
  {
    if n < |s| then s[..n] else s
  }

  /** `r` can be obtained from `s` by deleting elements: relative order kept. */
  predicate Subsequence<T(==)>(r: seq<T>, s: seq<T>)
    decreases |s|
  {
    |r| == 0 ||
    (|s| > 0 && ((r[0] == s[0] && Subsequence(r[1..], s[1..])) || Subsequence(r, s[1..])))
  }

  /** `s.filter(keep)`. */
  function Filter<T(!new)>(s: seq<T>, keep: T -> bool): (r: seq<T>)
    ensures |r| <= |s|
    ensures forall x :: x in r <==> x in s && keep(x)
    ensures forall i :: 0 <= i < |r| ==> keep(r[i])
  {
    if |s| == 0 then []
    else (if keep(s[0]) then [s[0]] else []) + Filter(s[1..], keep)
  }

  /** Filtering keeps every copy of a kept element and no copy of another. */
  lemma {:induction false} FilterCounts<T(!new)>(s: seq<T>, keep: T -> bool, x: T)
    ensures multiset(Filter(s, keep))[x] == if keep(x) then multiset(s)[x] else 0
  {
    if |s| > 0 {
      FilterCounts(s[1..], keep, x);
      assert s == [s[0]] + s[1..];
      assert multiset(s) == multiset([s[0]]) + multiset(s[1..]);
    }
  }

  /** Filtering keeps the surviving elements in their original order. */
  lemma {:induction false} FilterIsSubsequence<T(!new)>(s: seq<T>, keep: T -> bool)
    ensures Subsequence(Filter(s, keep), s)
  {
    if |s| > 0 {
      FilterIsSubsequence(s[1..], keep);
      var rest := Filter(s[1..], keep);
      if keep(s[0]) {
        assert Filter(s, keep) == [s[0]] + rest;
        assert ([s[0]] + rest)[1..] == rest;
      } else {
        assert Filter(s, keep) == rest;
      }
    }
  }

  /** `s.filter(keep).length`. */
  function Count<T(!new)>(s: seq<T>, keep: T -> bool): (n: nat)
    ensures n <= |s|
  {
    |Filter(s, keep)|
  }

  /** No element occurs twice. */
  predicate Distinct<T(==)>(s: seq<T>) {
    forall i, j :: 0 <= i < j < |s| ==> s[i] != s[j]
  }

  /** Position of the first occurrence of `x`. */
  function FirstIndex<T(==)>(s: seq<T>, x: T): (i: nat)
    requires x in s
    ensures i < |s| && s[i] == x
    ensures forall j :: 0 <= j < i ==> s[j] != x
  {
    if s[0] == x then 0 else 1 + FirstIndex(s[1..], x)
  }

  lemma FirstIndexExtend<T>(s: seq<T>, x: T, y: T)
    requires y in s
    ensures FirstIndex(s + [x], y) == FirstIndex(s, y)
  {
    var i := FirstIndex(s, y);
    assert (s + [x])[i] == y;
  }

  /** `[...new Set(s)]`: each element once, in order of first occurrence. */
  function Unique<T(==,!new)>(s: seq<T>): (r: seq<T>)
    ensures Distinct(r)
    ensures forall x :: x in r <==> x in s
    ensures forall i, j :: 0 <= i < j < |r| ==> FirstIndex(s, r[i]) < FirstIndex(s, r[j])
    decreases |s|
  {
    if |s| == 0 then []
    else
      var init := s[..|s| - 1];
      var last := s[|s| - 1];
      assert s == init + [last];
      var u := Unique(init);
      if last in init then
        forall i | 0 <= i < |u| ensures FirstIndex(s, u[i]) == FirstIndex(init, u[i]) {
          FirstIndexExtend(init, last, u[i]);
        }
        u
      else
        var r := u + [last];
        forall i | 0 <= i < |u| ensures FirstIndex(s, u[i]) == FirstIndex(init, u[i]) {
          FirstIndexExtend(init, last, u[i]);
        }
        assert FirstIndex(s, last) == |init|;
        r
  }
}

=== FILE: server.dfy ===
/** The server-wide rules: which browser origins may call the API and open a
    socket, how sockets join rooms, and what the error handler replies. */
module Server {
  import opened Options
  import opened Strings

  const LocalOrigins: seq<string> := ["http://localhost:3000", "http://localhost:5173"]

  /** The allowed list, `CLIENT_URL` dropped when unset or empty
      (`filter(Boolean)`). */
  function AllowedOrigins(clientUrl: Option<string>): (r: seq<string>)
    ensures forall i :: 0 <= i < |r| ==> r[i] != ""
    ensures forall o :: o in r <==> o in LocalOrigins || (clientUrl.Some? && clientUrl.value != "" && o == clientUrl.value)
  {
    LocalOrigins + (if clientUrl.Some? && clientUrl.value != "" then [clientUrl.value] else [])
  }

  /** The origin callback shared by the HTTP CORS middleware and the socket
      server. A request without an `Origin` header (or with an empty one) passes. */
  predicate OriginAllowed(origin: Option<string>, allowed: seq<string>) {
    match origin
    case None => true
    case Some(o) => o == "" || o in allowed || Contains(o, "vercel.app")
  }

  /** An origin is refused exactly when it is present, non-empty, not listed
      and does not mention `vercel.app`. */
  lemma OriginRefusal(origin: string, clientUrl: Option<string>)
    ensures !OriginAllowed(Some(origin), AllowedOrigins(clientUrl)) <==>
      origin != "" && origin !in LocalOrigins
      && !(clientUrl.Some? && clientUrl.value != "" && origin == clientUrl.value)
      && !Contains(origin, "vercel.app")
  {
  }

  /** The `vercel.app` test is a substring test: a host that merely contains
      it, such as `vercel.app.example.com`, is let in. */
  lemma VercelLookalikeAllowed(clientUrl: Option<string>)
    ensures OriginAllowed(Some("https://vercel.app.example.com"), AllowedOrigins(clientUrl))
  {
    assert "https://vercel.app.example.com" == "https://" + "vercel.app" + ".example.com";
    ContainsInfix("https://", "vercel.app", ".example.com");
  }

  /** Socket room membership: the rooms each connected socket is in. */
  type SocketId = string
  type Rooms = map<SocketId, set<string>>

  /** `socket.on("join", userId => socket.join(userId))`: any socket may join
      any room; the id it sends is not checked against its user. */
  function Join(rooms: Rooms, socket: SocketId, userId: string): (r: Rooms)
    ensures r.Keys == rooms.Keys + {socket}
    ensures userId in r[socket]
    ensures socket in rooms ==> r[socket] == rooms[socket] + {userId}
    ensures forall other :: other in rooms && other != socket ==> r[other] == rooms[other]
  {
    rooms[socket := (if socket in rooms then rooms[socket] else {}) + {userId}]
  }

  /** The sockets an `io.to(room).emit(...)` reaches. */
  function Receivers(rooms: Rooms, room: string): (r: set<SocketId>)
    ensures forall sock :: sock in r <==> sock in rooms && room in rooms[sock]
  {
    set sock | sock in rooms && room in rooms[sock]
  }

  /** After joining room `u`, a socket receives every notification addressed
      to `u`, whoever opened it; nobody else starts or stops receiving. */
  lemma JoinReceives(rooms: Rooms, socket: SocketId, u: string, room: string)
    ensures Receivers(Join(rooms, socket, u), u) == Receivers(rooms, u) + {socket}
    ensures room != u ==> Receivers(Join(rooms, socket, u), room) == Receivers(rooms, room) - {socket}
                          + (if socket in rooms && room in rooms[socket] then {socket} else {})
  {
  }

  /** The sockets a disconnect leaves behind. */
  function Disconnect(rooms: Rooms, socket: SocketId): (r: Rooms)
    ensures socket !in r
    ensures forall other :: other != socket ==> (other in r <==> other in rooms)
    ensures forall other :: other in r ==> r[other] == rooms[other]
  {
    rooms - {socket}
  }

  /** A disconnected socket stops receiving every room's notifications, and
      nobody else's reception changes. */
  lemma DisconnectReceives(rooms: Rooms, socket: SocketId, room: string)
    ensures Receivers(Disconnect(rooms, socket), room) == Receivers(rooms, room) - {socket}
  {
  }

  /** `err.status || 500`: an absent or zero status becomes 500. */
  function ErrorStatus(status: Option<int>): (code: int)
    ensures code != 0
    ensures status.Some? && status.value != 0 ==> code == status.value
    ensures status.None? || status.value == 0 ==> code == 500
  {
    if status.Some? && status.value != 0 then status.value else 500
  }

  /** `err.message || "Internal Server Error"`. */
  function ErrorMessage(message: Option<string>): (m: string)
    ensures m != ""
    ensures message.Some? && message.value != "" ==> m == message.value
    ensures message.None? || message.value == "" ==> m == "Internal Server Error"
  {
    if message.Some? && message.value != "" then message.value else "Internal Server Error"
  }

  /** The error handler's reply body: `success` is always false, and `stack`
      is present only in development mode. */
  datatype ErrorReply = ErrorReply(code: int, success: bool, message: string, stack: Option<string>)

  /** The error-handling middleware. `development` is `NODE_ENV ===
      "development"`; `stack` is the error's stack trace, which JSON omits when
      it is undefined. */
  function HandleError(development: bool, status: Option<int>, message: Option<string>, stack: Option<string>): (r: ErrorReply)
    ensures !r.success && r.code != 0 && r.message != ""
    ensures r.code == ErrorStatus(status) && r.message == ErrorMessage(message)
    ensures development ==> r.stack == stack
    ensures !development ==> r.stack.None?
  {
    ErrorReply(ErrorStatus(status), false, ErrorMessage(message), if development then stack else None)
  }

  /** An error carrying the status, message and stack of a handled error's
      reply is handled with the same reply: the defaults are applied once. */
  lemma HandleErrorStable(development: bool, status: Option<int>, message: Option<string>, stack: Option<string>)
    ensures var r := HandleError(development, status, message, stack);
            HandleError(development, Some(r.code), Some(r.message), r.stack) == r
  {
  }

  /** A bare error (no status, no message) becomes a 500 with the generic
      message; a given status and message pass through unchanged; outside
      development mode the stack never reaches the reply. */
  lemma HandleErrorDefaults(code: int, text: string, stack: Option<string>)
    requires code != 0 && text != ""
    ensures HandleError(false, None, None, stack) == ErrorReply(500, false, "Internal Server Error", None)
    ensures HandleError(false, Some(code), Some(text), stack) == ErrorReply(code, false, text, None)
    ensures HandleError(true, Some(code), Some(text), stack) == ErrorReply(code, false, text, stack)
  {
  }
}

=== FILE: shortcuts.dfy ===
/** The global keyboard shortcuts: with the platform's modifier held
    (command on a Mac, control elsewhere), a letter key opens a page, focuses
    the search box or shows the shortcut list. */
module Shortcuts {
  import opened Strings

  datatype KeyEvent = KeyEvent(key: string, metaKey: bool, ctrlKey: bool, shiftKey: bool)

  /** The effect of a key press; every effect except `Nothing` also
      suppresses the browser's default action. */
  datatype Action = Nothing | FocusSearch | Navigate(path: string) | ShowHelp

  /** `navigator.platform` mentions "MAC" in any case. */
  predicate IsMac(platform: string) {
    Contains(Upper(platform), "MAC")
  }

  predicate ModifierHeld(platform: string, e: KeyEvent) {
    if IsMac(platform) then e.metaKey else e.ctrlKey
  }

  /** The action for a lower-cased key; the calendar and settings pages also
      need shift. */
  function Dispatch(key: string, shift: bool): (a: Action)
    ensures a.Navigate? ==> a.path in {"/dashboard", "/tasks", "/notes", "/bookmarks", "/calendar", "/profile"}
    ensures key !in {"k", "d", "t", "n", "b", "c", "s", "/"} ==> a == Nothing
    ensures key in {"c", "s"} ==> (a.Navigate? <==> shift)
  {
    if key == "k" then FocusSearch
    else if key == "d" then Navigate("/dashboard")
    else if key == "t" then Navigate("/tasks")
    else if key == "n" then Navigate("/notes")
    else if key == "b" then Navigate("/bookmarks")
    else if key == "c" then (if shift then Navigate("/calendar") else Nothing)
    else if key == "s" then (if shift then Navigate("/profile") else Nothing)
    else if key == "/" then ShowHelp
    else Nothing
  }

  /** `handleKeyPress`: nothing without the modifier; otherwise the action
      of the lower-cased key. */
  function HandleKey(platform: string, e: KeyEvent): (a: Action)
    ensures !ModifierHeld(platform, e) ==> a == Nothing
    ensures Lower(e.key) !in {"k", "d", "t", "n", "b", "c", "s", "/"} ==> a == Nothing
    ensures a.Navigate? ==> ModifierHeld(platform, e)
  {
    if !ModifierHeld(platform, e) then Nothing
    else Dispatch(Lower(e.key), e.shiftKey)
  }

  /** Shortcuts ignore the case of the key. */
  lemma IgnoresCase(platform: string, e: KeyEvent)
    ensures HandleKey(platform, e.(key := Upper(e.key))) == HandleKey(platform, e)
  {
    LowerOfUpper(e.key);
  }

  /** The page each navigation key opens, with the modifier held. */
  lemma PageKeys(platform: string, e: KeyEvent)
    requires ModifierHeld(platform, e)
    ensures Lower(e.key) == "d" ==> HandleKey(platform, e) == Navigate("/dashboard")
    ensures Lower(e.key) == "t" ==> HandleKey(platform, e) == Navigate("/tasks")
    ensures Lower(e.key) == "n" ==> HandleKey(platform, e) == Navigate("/notes")
    ensures Lower(e.key) == "b" ==> HandleKey(platform, e) == Navigate("/bookmarks")
    ensures Lower(e.key) == "c" ==> HandleKey(platform, e) == (if e.shiftKey then Navigate("/calendar") else Nothing)
    ensures Lower(e.key) == "s" ==> HandleKey(platform, e) == (if e.shiftKey then Navigate("/profile") else Nothing)
    ensures Lower(e.key) == "k" ==> HandleKey(platform, e) == FocusSearch
    ensures Lower(e.key) == "/" ==> HandleKey(platform, e) == ShowHelp
  {
  }

  /** On a Mac the control key alone does nothing, and elsewhere the
      command key alone does nothing. */
  lemma WrongModifier(platform: string, key: string, shift: bool)
    ensures IsMac(platform) ==> HandleKey(platform, KeyEvent(key, false, true, shift)) == Nothing
    ensures !IsMac(platform) ==> HandleKey(platform, KeyEvent(key, true, false, shift)) == Nothing
  {
  }
}

=== FILE: sorting.dfy ===
/** A stable insertion sort parameterised by a comparison, used for the
    database's `sort()` on each collection and for the client's
    `Array.prototype.sort` in the activity feed. */
module Sorting {

  /** `le` is total and transitive, as every sort order used here is. */
  ghost predicate TotalPreorder<T(!new)>(le: (T, T) -> bool) {
    && (forall a, b :: le(a, b) || le(b, a))
    && (forall a, b, c :: le(a, b) && le(b, c) ==> le(a, c))
  }

  /** Every element may come before every later one. */
  predicate SortedBy<T>(s: seq<T>, le: (T, T) -> bool) {
    forall i, j :: 0 <= i < j < |s| ==> le(s[i], s[j])
  }

  /** Puts `x` before the first element it may precede. */
  function Insert<T(!new)>(x: T, s: seq<T>, le: (T, T) -> bool): (r: seq<T>)
    requires TotalPreorder(le)
    requires SortedBy(s, le)
    ensures SortedBy(r, le)
    ensures multiset(r) == multiset(s) + multiset{x}
    ensures |r| == |s| + 1
  {
    if |s| == 0 then [x]
    else if le(x, s[0]) then [x] + s
    else
      var rest := Insert(x, s[1..], le);
      assert s == [s[0]] + s[1..];
      forall k | 0 <= k < |rest| ensures le(s[0], rest[k]) {
        assert rest[k] in multiset(s[1..]) + multiset{x};
        if rest[k] != x {
          assert rest[k] in s[1..];
        }
      }
      [s[0]] + rest
  }

  /** A sorted permutation of `s`. */
  function Sort<T(!new)>(s: seq<T>, le: (T, T) -> bool): (r: seq<T>)
    requires TotalPreorder(le)
    ensures SortedBy(r, le)
    ensures multiset(r) == multiset(s)
    ensures |r| == |s|
  {
    if |s| == 0 then []
    else
      assert s == [s[0]] + s[1..];
      Insert(s[0], Sort(s[1..], le), le)
  }
}

=== FILE: strings.dfy ===
/** The string operations the routes and pages use: white-space trimming (the
    validator library's `trim()` sanitizer, Mongoose's `trim` setter and
    `String.prototype.trim`), ASCII case mapping, prefix and substring tests. */
module Strings {

  /** White space removed by trimming, restricted to ASCII. */
  predicate IsSpace(c: char) {
    c == ' ' || c == '\t' || c == '\n' || c == '\r' || c == '\U{000B}' || c == '\U{000C}'
  }

  /** Every character is white space (the empty string included). */
  predicate Blank(s: string) {
    forall i :: 0 <= i < |s| ==> IsSpace(s[i])
  }

  /** No leading and no trailing white space. */
  predicate Trimmed(s: string) {
    |s| == 0 || (!IsSpace(s[0]) && !IsSpace(s[|s| - 1]))
  }

  function TrimStart(s: string): (r: string)
    ensures |r| <= |s| && r == s[|s| - |r|..]
    ensures |r| > 0 ==> !IsSpace(r[0])
    ensures forall i :: 0 <= i < |s| - |r| ==> IsSpace(s[i])
  {
    if |s| > 0 && IsSpace(s[0]) then TrimStart(s[1..]) else s
  }

  function TrimEnd(s: string): (r: string)
    ensures |r| <= |s| && r == s[..|r|]
    ensures |r| > 0 ==> !IsSpace(r[|r| - 1])
    ensures forall i :: |r| <= i < |s| ==> IsSpace(s[i])
  {
    if |s| > 0 && IsSpace(s[|s| - 1]) then TrimEnd(s[..|s| - 1]) else s
  }

  /** Removes leading and trailing white space: the result is a trimmed
      infix of `s`, and it is empty exactly when `s` is blank. */
  function Trim(s: string): (r: string)
    ensures Trimmed(r)
    ensures |r| <= |s|
    ensures |r| == 0 <==> Blank(s)
  {
    var t := TrimStart(s);
    var r := TrimEnd(t);
    assert |r| == 0 ==> Blank(s) by {
      if |r| == 0 {
        assert |t| == 0;
      }
    }
    r
  }

  function LowerChar(c: char): char {
    if 'A' <= c <= 'Z' then (c as int - 'A' as int + 'a' as int) as char else c
  }

  function UpperChar(c: char): char {
    if 'a' <= c <= 'z' then (c as int - 'a' as int + 'A' as int) as char else c
  }

  /** ASCII `toLowerCase()`: same length, each letter mapped to lower case. */
  function Lower(s: string): (r: string)
    ensures |r| == |s|
    ensures forall i :: 0 <= i < |s| ==> r[i] == LowerChar(s[i])
  {
    if |s| == 0 then "" else [LowerChar(s[0])] + Lower(s[1..])
  }

  /** ASCII `toUpperCase()`. */
  function Upper(s: string): (r: string)
    ensures |r| == |s|
    ensures forall i :: 0 <= i < |s| ==> r[i] == UpperChar(s[i])
  {
    if |s| == 0 then "" else [UpperChar(s[0])] + Upper(s[1..])
  }

  predicate StartsWith(s: string, prefix: string) {
    |prefix| <= |s| && s[..|prefix|] == prefix
  }

  /** `hay.includes(needle)`: `needle` occurs at some position of `hay`. */
  predicate Contains(hay: string, needle: string)
    decreases |hay|
  {
    StartsWith(hay, needle) || (|hay| > 0 && Contains(hay[1..], needle))
  }

  /** Case-insensitive containment, as a regular expression with the `i` flag
      and no metacharacters, or `a.toLowerCase().includes(b.toLowerCase())`. */
  predicate ContainsIgnoringCase(hay: string, needle: string) {
    Contains(Lower(hay), Lower(needle))
  }

  lemma TrimmedIsFixed(s: string)
    requires Trimmed(s)
    ensures Trim(s) == s
  {
    assert TrimStart(s) == s;
    assert TrimEnd(s) == s;
  }

  /** Trimming twice is trimming once. */
  lemma TrimIdempotent(s: string)
    ensures Trim(Trim(s)) == Trim(s)
  {
    TrimmedIsFixed(Trim(s));
  }

  lemma {:induction false} LowerIdempotent(s: string)
    ensures Lower(Lower(s)) == Lower(s)
  {
    if |s| > 0 {
      LowerIdempotent(s[1..]);
      assert Lower(s)[1..] == Lower(s[1..]);
    }
  }

  /** Lower-casing forgets an earlier upper-casing. */
  lemma {:induction false} LowerOfUpper(s: string)
    ensures Lower(Upper(s)) == Lower(s)
  {
    if |s| > 0 {
      LowerOfUpper(s[1..]);
      assert Upper(s)[1..] == Upper(s[1..]);
      assert Lower(Upper(s))[1..] == Lower(Upper(s)[1..]);
    }
  }

  /** `needle` occurs in `hay` starting at position `i`. */
  predicate OccursAt(hay: string, needle: string, i: nat) {
    i + |needle| <= |hay| && hay[i..i + |needle|] == needle
  }

  /** An occurrence at some position makes `needle` contained in `hay`. */
  lemma {:induction false} ContainsAt(hay: string, needle: string, i: nat)
    requires OccursAt(hay, needle, i)
    ensures Contains(hay, needle)
  {
    if i > 0 {
      assert hay[1..][i - 1..i - 1 + |needle|] == hay[i..i + |needle|];
      ContainsAt(hay[1..], needle, i - 1);
    }
  }

  /** Containment means an occurrence at some position. */
  lemma {:induction false} ContainsWitness(hay: string, needle: string)
    requires Contains(hay, needle)
    ensures exists i: nat :: OccursAt(hay, needle, i)
  {
    if StartsWith(hay, needle) {
      assert OccursAt(hay, needle, 0);
    } else {
      ContainsWitness(hay[1..], needle);
      var i: nat :| OccursAt(hay[1..], needle, i);
      assert hay[i + 1..i + 1 + |needle|] == hay[1..][i..i + |needle|];
      assert OccursAt(hay, needle, i + 1);
    }
  }

  /** A string contains each of its infixes. */
  lemma ContainsInfix(a: string, b: string, c: string)
    ensures Contains(a + b + c, b)
  {
    assert (a + b + c)[|a|..|a| + |b|] == b;
    ContainsAt(a + b + c, b, |a|);
  }

  /** A needle holding a character the haystack lacks does not occur in it. */
  lemma {:induction false} MissingChar(hay: string, needle: string, c: char)
    requires c in needle && c !in hay
    ensures !Contains(hay, needle)
    decreases |hay|
  {
    var k :| 0 <= k < |needle| && needle[k] == c;
    if |needle| <= |hay| {
      assert hay[..|needle|][k] == hay[k];
    }
    if |hay| > 0 {
      assert forall x :: x in hay[1..] ==> x in hay;
      MissingChar(hay[1..], needle, c);
    }
  }

  /** A non-empty needle never occurs in the empty string. */
  lemma NothingInEmpty(needle: string)
    requires |needle| > 0
    ensures !Contains("", needle)
  {
  }

  /** The empty needle occurs everywhere. */
  lemma EmptyEverywhere(hay: string)
    ensures Contains(hay, "")
  {
    assert hay[..0] == "";
  }
}

=== FILE: tasks_page.dfy ===
/** The tasks page: the list filter, the completion toggle, the priority
    colours and the task form. */
module TasksPage {
  import opened Json
  import Seqs
  import opened DataStore

  /** Whether a task is shown under a filter: "all", "completed", "active",
      or otherwise a priority. */
  predicate Shows(filter: string, t: Fields) {
    if filter == "all" then true
    else if filter == "completed" then Flag(t, "completed")
    else if filter == "active" then !Flag(t, "completed")
    else HasText(t, "priority", filter)
  }

  /** `filteredTasks`: the shown tasks, in list order. */
  function Filtered(tasks: Records, filter: string): (r: Records)
    ensures forall t :: t in r <==> t in tasks && Shows(filter, t)
    ensures Seqs.Subsequence(r, tasks)
  {
    Seqs.FilterIsSubsequence(tasks, t => Shows(filter, t));
    Seqs.Filter(tasks, t => Shows(filter, t))
  }

  /** The "all" filter hides nothing. */
  lemma {:induction false} AllShowsEverything(tasks: Records)
    ensures Filtered(tasks, "all") == tasks
  {
    if |tasks| > 0 {
      AllShowsEverything(tasks[1..]);
      assert tasks == [tasks[0]] + tasks[1..];
    }
  }

  /** Every task is either completed or active, never both. */
  lemma {:induction false} CompletedAndActive(tasks: Records)
    ensures |Filtered(tasks, "completed")| + |Filtered(tasks, "active")| == |tasks|
  {
    if |tasks| > 0 {
      CompletedAndActive(tasks[1..]);
    }
  }

  /** The update sent by the completion toggle: the flipped flag, and the
      matching status. */
  function TogglePayload(t: Fields): (p: Fields)
    ensures p.Keys == {"completed", "status"}
    ensures p["completed"] == Bool(!Flag(t, "completed"))
    ensures p["status"] == Str("completed") <==> !Flag(t, "completed")
    ensures p["status"] == Str("todo") <==> Flag(t, "completed")
  {
    var done := !Flag(t, "completed");
    map["completed" := Bool(done), "status" := Str(if done then "completed" else "todo")]
  }

  /** Toggling a task twice, with each payload applied as the server does,
      restores its completion flag and sets the matching status. */
  lemma ToggleTwice(t: Fields)
    ensures var once := Spread(t, TogglePayload(t));
            var twice := Spread(once, TogglePayload(once));
            Flag(twice, "completed") == Flag(t, "completed")
            && twice["status"] == Str(if Flag(t, "completed") then "completed" else "todo")
  {
  }

  /** `getPriorityColor`: the four priorities have their colours, anything
      else is gray. */
  function PriorityColor(priority: string): (c: string)
    ensures priority == "urgent" <==> c == "red"
    ensures priority == "high" <==> c == "orange"
    ensures priority == "medium" <==> c == "yellow"
    ensures priority == "low" <==> c == "green"
    ensures c == "gray" <==> priority !in {"urgent", "high", "medium", "low"}
  {
    if priority == "urgent" then "red"
    else if priority == "high" then "orange"
    else if priority == "medium" then "yellow"
    else if priority == "low" then "green"
    else "gray"
  }

  datatype TaskForm = TaskForm(title: Value, description: Value, priority: Value, status: Value, dueDate: string, tags: Value)

  /** The form as `resetForm` leaves it and as the page opens. */
  const EmptyForm := TaskForm(Str(""), Str(""), Str("medium"), Str("todo"), "", Arr([]))

  /** `s.split(sep)[0]`: the text before the first `sep`. */
  function Before(s: string, sep: char): (r: string)
    ensures |r| <= |s| && r == s[..|r|]
    ensures sep !in r
    ensures |r| == |s| || s[|r|] == sep
  {
    if |s| == 0 || s[0] == sep then "" else [s[0]] + Before(s[1..], sep)
  }

  /** The form filled from a task being edited: a missing description or
      tag list becomes empty, and the due date keeps only its day. */
  function EditForm(t: Fields): (f: TaskForm)
    ensures Flag(t, "dueDate") ==> StartsWithDay(Text(t, "dueDate"), f.dueDate)
    ensures !Flag(t, "dueDate") ==> f.dueDate == ""
    ensures Flag(t, "description") ==> f.description == t["description"]
    ensures !Flag(t, "description") ==> f.description == Str("")
    ensures Flag(t, "tags") ==> f.tags == t["tags"]
    ensures !Flag(t, "tags") ==> f.tags == Arr([])
    ensures f.title == (if "title" in t then t["title"] else Null)
    ensures f.priority == (if "priority" in t then t["priority"] else Null)
    ensures f.status == (if "status" in t then t["status"] else Null)
  {
    TaskForm(
      if "title" in t then t["title"] else Null,
      if Flag(t, "description") then t["description"] else Str(""),
      if "priority" in t then t["priority"] else Null,
      if "status" in t then t["status"] else Null,
      if Flag(t, "dueDate") then Before(Text(t, "dueDate"), 'T') else "",
      if Flag(t, "tags") then t["tags"] else Arr([]))
  }

  /** `day` is the date part of `stamp`: a prefix with no `T`, ending where
      the time part starts. */
  predicate StartsWithDay(stamp: string, day: string) {
    |day| <= |stamp| && day == stamp[..|day|] && 'T' !in day && (|day| == |stamp| || stamp[|day|] == 'T')
  }

  /** An ISO instant is cut to its date. */
  lemma {:induction false} DayOfInstant(day: string, time: string)
    requires 'T' !in day
    ensures Before(day + "T" + time, 'T') == day
  {
    if |day| > 0 {
      assert (day + "T" + time)[1..] == day[1..] + "T" + time;
      DayOfInstant(day[1..], time);
    }
  }
}

=== FILE: theme_store.dfy ===
/** The light/dark theme: the store's value, the saved copy in local
    storage and the `dark` class on the document element. */
module ThemeStore {
  import opened Options

  datatype Theme = Theme(theme: string, saved: string, darkClass: bool)

  /** The three agree: the saved copy is the theme and the class is present
      exactly for "dark". */
  predicate Consistent(t: Theme) {
    t.saved == t.theme && (t.darkClass <==> t.theme == "dark")
  }

  /** On load: the saved theme, or "light" when none is saved; the class
      is added for a saved "dark". */
  function Initial(saved: Option<string>): (t: Theme)
    ensures t.theme == (if saved.Some? && |saved.value| > 0 then saved.value else "light")
    ensures t.darkClass <==> t.theme == "dark"
  {
    var theme := if saved.Some? && |saved.value| > 0 then saved.value else "light";
    Theme(theme, if saved.Some? then saved.value else "", theme == "dark")
  }

  /** `toggleTheme`: "light" becomes "dark", anything else "light"; the
      copy and the class follow. */
  function Toggle(t: Theme): (r: Theme)
    ensures r.theme == (if t.theme == "light" then "dark" else "light")
    ensures Consistent(r)
  {
    var next := if t.theme == "light" then "dark" else "light";
    Theme(next, next, next == "dark")
  }

  /** `setTheme(x)`: theme and saved copy both become `x`. */
  function SetTheme(t: Theme, x: string): (r: Theme)
    ensures r.theme == x && r.saved == x
    ensures Consistent(r)
  {
    Theme(x, x, x == "dark")
  }

  /** Toggling twice from "light" or "dark" returns to the theme. */
  lemma ToggleTwice(t: Theme)
    requires t.theme in {"light", "dark"}
    ensures Toggle(Toggle(t)).theme == t.theme
    ensures Consistent(t) ==> Toggle(Toggle(t)) == t
  {
  }

  /** Any other theme value is not restored: it toggles to "light". */
  lemma ToggleNormalises(t: Theme)
    requires t.theme !in {"light", "dark"}
    ensures Toggle(t).theme == "light" && Toggle(Toggle(t)).theme == "dark"
  {
  }
}

=== FILE: widget_batch.dfy ===
/** PUT /batch/update on widgets: each item `{id, position, size}` updates
    the widget with that id only when it belongs to the caller, and yields
    the updated widget or `null`. The updates run one after another; a cast
    error in one of them fails the request without undoing the others. */
module WidgetBatch {
  import opened Options
  import opened Json
  import WidgetModel
  import opened Resources

  /** One item of the `widgets` array: `undefined` parts are `None`. */
  datatype Item = Item(id: Option<string>, position: Option<Value>, size: Option<Value>)

  /** The `widgets` array of the body; `None` when it is missing, not an
      array, or holds a `null` (reading `.id` of it throws). Any other
      non-object element has no `id`, `position` or `size`. */
  function Items(body: Fields): (r: Option<seq<Item>>)
    ensures r.Some? <==> "widgets" in body && body["widgets"].Arr? && Null !in body["widgets"].items
    ensures r.Some? ==> |r.value| == |body["widgets"].items|
  {
    if "widgets" in body && body["widgets"].Arr? then ItemsOf(body["widgets"].items) else None
  }

  function ItemsOf(vs: seq<Value>): (r: Option<seq<Item>>)
    ensures r.Some? <==> Null !in vs
    ensures r.Some? ==> |r.value| == |vs|
    ensures r.Some? ==> forall i :: 0 <= i < |vs| && !vs[i].Obj? ==> r.value[i] == Item(None, None, None)
    ensures r.Some? ==> forall i :: 0 <= i < |vs| && vs[i].Obj? && "position" in vs[i].props ==>
      r.value[i].position == Some(vs[i].props["position"])
  {
    if |vs| == 0 then Some([])
    else if vs[0].Null? then None
    else
      var item := ItemOf(vs[0]);
      var rest :- ItemsOf(vs[1..]);
      assert forall i :: 1 <= i < |vs| ==> vs[i] == vs[1..][i - 1];
      Some([item] + rest)
  }

  /** One element of the array read as an item. */
  function ItemOf(v: Value): (r: Item)
    ensures !v.Obj? ==> r == Item(None, None, None)
    ensures v.Obj? ==> (r.position.Some? <==> "position" in v.props) && (r.size.Some? <==> "size" in v.props)
    ensures v.Obj? && "position" in v.props ==> r.position == Some(v.props["position"])
    ensures v.Obj? && "size" in v.props ==> r.size == Some(v.props["size"])
    ensures r.id.Some? ==> v.Obj? && "id" in v.props && v.props["id"] == Str(r.id.value)
  {
    if !v.Obj? then Item(None, None, None)
    else
      var p := v.props;
      Item(
        if "id" in p && p["id"].Str? then Some(p["id"].s) else None,
        if "position" in p then Some(p["position"]) else None,
        if "size" in p then Some(p["size"]) else None)
  }

  /** `t` differs from `s` at most in the position and size of the caller's
      widgets: same ids, same owners, every other path as it was. */
  ghost predicate GeometryOnly(s: Store, t: Store, caller: UserId) {
    && t.Keys == s.Keys
    && (forall j :: j in s ==> t[j].id == s[j].id && t[j].user == s[j].user)
    && (forall j :: j in s && s[j].user != caller ==> t[j] == s[j])
    && (forall j, key :: j in s && key != "position" && key != "size" ==>
          (key in t[j].fields <==> key in s[j].fields)
          && (key in s[j].fields ==> t[j].fields[key] == s[j].fields[key]))
  }

  /** One part of the update: nothing when `undefined`, else its cast. */
  function Part(key: string, v: Option<Value>, instant: string -> Option<int>): (r: Option<Fields>)
    ensures r.Some? ==> r.value.Keys <= {key}
  {
    if v.None? then Some(map[])
    else
      var c :- WidgetModel.CastPath(key, v.value, instant);
      Some(map[key := c])
  }

  /** The update `{position, size}` with `undefined` parts dropped and each
      part cast; `None` on a cast error. */
  function Patch(item: Item, instant: string -> Option<int>): (r: Option<Fields>)
    ensures r.Some? ==> r.value.Keys <= {"position", "size"}
  {
    var position :- Part("position", item.position, instant);
    var size :- Part("size", item.size, instant);
    Some(position + size)
  }

  /** The outcome of one `findOneAndUpdate({_id: id, user: caller}, ...)`:
      the updated widget or `None`, the store, and whether it succeeded. */
  datatype Step = Step(result: Option<Doc>, store: Store, ok: bool)

  /** The update is cast before the query runs, so a cast error fails the
      step whichever widget the item names. */
  function Apply(s: Store, caller: UserId, item: Item, instant: string -> Option<int>): (r: Step)
    ensures GeometryOnly(s, r.store, caller)
    ensures r.ok <==> Patch(item, instant).Some?
    ensures r.result.Some? <==> r.ok && Owned(s, caller, item)
    ensures r.result.None? ==> r.store == s
    ensures r.result.Some? ==>
      var id := item.id.value;
      r.store == s[id := s[id].(fields := Spread(s[id].fields, Patch(item, instant).value))]
    ensures r.result.Some? ==> r.result.value == r.store[item.id.value]
    ensures r.result.Some? ==> Shows(s, item, r.result.value, Patch(item, instant).value)
  {
    var patch := Patch(item, instant);
    if patch.None? then Step(None, s, false)
    else if !Owned(s, caller, item) then Step(None, s, true)
    else
      var id := item.id.value;
      var doc := s[id].(fields := Spread(s[id].fields, patch.value));
      Step(Some(doc), s[id := doc], true)
  }

  /** `doc` is the widget the item names, as stored in `s`, with the cast
      `patch` applied: same id and owner, the patched paths as cast, every
      other path as stored. */
  ghost predicate Shows(s: Store, item: Item, doc: Doc, patch: Fields) {
    && item.id.Some? && item.id.value in s
    && doc.id == s[item.id.value].id && doc.user == s[item.id.value].user
    && (forall key :: key in patch ==> key in doc.fields && doc.fields[key] == patch[key])
    && (forall key :: key != "position" && key != "size" ==>
          (key in doc.fields <==> key in s[item.id.value].fields)
          && (key in doc.fields ==> doc.fields[key] == s[item.id.value].fields[key]))
  }

  /** The items applied in order. */
  function ApplyAll(s: Store, caller: UserId, items: seq<Item>, instant: string -> Option<int>): (r: (seq<Option<Doc>>, Store, bool))
    ensures |r.0| == |items|
    ensures GeometryOnly(s, r.1, caller)
  {
    if |items| == 0 then ([], s, true)
    else
      var step := Apply(s, caller, items[0], instant);
      var rest := ApplyAll(step.store, caller, items[1..], instant);
      GeometryTrans(s, step.store, rest.1, caller);
      ([step.result] + rest.0, rest.1, step.ok && rest.2)
  }

  /** Two geometry-only changes in a row are one. */
  lemma GeometryTrans(s: Store, t: Store, u: Store, caller: UserId)
    requires GeometryOnly(s, t, caller) && GeometryOnly(t, u, caller)
    ensures GeometryOnly(s, u, caller)
  {
  }

  /** Whether an item names a widget of the caller in `s`. */
  predicate Owned(s: Store, caller: UserId, item: Item) {
    item.id.Some? && item.id.value in s && s[item.id.value].user == caller
  }

  /** The batch succeeds exactly when every item's update casts. */
  lemma {:induction false} ApplyAllOk(s: Store, caller: UserId, items: seq<Item>, instant: string -> Option<int>)
    ensures ApplyAll(s, caller, items, instant).2 <==> forall i :: 0 <= i < |items| ==> Patch(items[i], instant).Some?
  {
    if |items| > 0 {
      var step := Apply(s, caller, items[0], instant);
      var rest := ApplyAll(step.store, caller, items[1..], instant);
      assert ApplyAll(s, caller, items, instant).2 == (step.ok && rest.2);
      ApplyAllOk(step.store, caller, items[1..], instant);
      assert forall i :: 1 <= i < |items| ==> items[1..][i - 1] == items[i];
      assert (forall i :: 0 <= i < |items| ==> Patch(items[i], instant).Some?) <==>
        Patch(items[0], instant).Some? && forall i :: 0 <= i < |items[1..]| ==> Patch(items[1..][i], instant).Some?;
    }
  }

  /** Each non-null result is for an item naming a widget of the caller and is
      that widget with the item's own position and size; when the batch
      succeeds, each such item has a result. Earlier updates never change
      which widgets the caller owns, nor anything but geometry. */
  lemma {:induction false} ApplyAllResults(s: Store, caller: UserId, items: seq<Item>, instant: string -> Option<int>)
    ensures var r := ApplyAll(s, caller, items, instant);
            forall i :: 0 <= i < |items| ==> (r.0[i].Some? ==> Owned(s, caller, items[i]))
    ensures var r := ApplyAll(s, caller, items, instant);
            forall i :: 0 <= i < |items| && r.0[i].Some? ==>
              Patch(items[i], instant).Some? && Shows(s, items[i], r.0[i].value, Patch(items[i], instant).value)
    ensures var r := ApplyAll(s, caller, items, instant);
            r.2 ==> forall i :: 0 <= i < |items| ==> (Owned(s, caller, items[i]) ==> r.0[i].Some?)
  {
    if |items| > 0 {
      var step := Apply(s, caller, items[0], instant);
      var rest := ApplyAll(step.store, caller, items[1..], instant);
      var r := ApplyAll(s, caller, items, instant);
      ApplyAllResults(step.store, caller, items[1..], instant);
      forall i | 1 <= i < |items|
        ensures r.0[i] == rest.0[i - 1]
        ensures items[1..][i - 1] == items[i]
        ensures Owned(s, caller, items[i]) <==> Owned(step.store, caller, items[i])
        ensures r.0[i].Some? ==> Shows(s, items[i], r.0[i].value, Patch(items[i], instant).value)
      {
        assert items[1..][i - 1] == items[i];
        OwnedKept(s, step.store, caller, items[i]);
        if r.0[i].Some? {
          ShowsKept(s, step.store, caller, items[i], r.0[i].value, Patch(items[i], instant).value);
        }
      }
    }
  }

  /** What a later update shows of a widget, it shows of the store before
      an earlier geometry-only change, outside position and size. */
  lemma ShowsKept(s: Store, t: Store, caller: UserId, item: Item, doc: Doc, patch: Fields)
    requires GeometryOnly(s, t, caller) && Shows(t, item, doc, patch)
    ensures Shows(s, item, doc, patch)
  {
  }

  /** One step of the run: the first item's step, then the rest. */
  lemma ApplyAllUnfold(s: Store, caller: UserId, items: seq<Item>, instant: string -> Option<int>)
    requires 0 < |items|
    ensures var step := Apply(s, caller, items[0], instant);
            var rest := ApplyAll(step.store, caller, items[1..], instant);
            var r := ApplyAll(s, caller, items, instant);
            && r.0[0] == step.result
            && (forall k :: 0 <= k < |rest.0| ==> r.0[k + 1] == rest.0[k] && items[1..][k] == items[k + 1])
            && r.1 == rest.1
  {
  }

  /** A widget that no result names is left as it was. */
  lemma {:induction false} ApplyAllUntouched(s: Store, caller: UserId, items: seq<Item>, instant: string -> Option<int>, j: Id)
    requires j in s
    requires forall i :: 0 <= i < |items| ==> ApplyAll(s, caller, items, instant).0[i].None? || items[i].id != Some(j)
    ensures ApplyAll(s, caller, items, instant).1[j] == s[j]
  {
    if |items| > 0 {
      var step := Apply(s, caller, items[0], instant);
      var rest := ApplyAll(step.store, caller, items[1..], instant);
      var r := ApplyAll(s, caller, items, instant);
      ApplyAllUnfold(s, caller, items, instant);
      assert step.store[j] == s[j];
      forall i | 0 <= i < |items[1..]| ensures rest.0[i].None? || items[1..][i].id != Some(j) {
        assert r.0[i + 1] == rest.0[i] && items[1..][i] == items[i + 1];
      }
      ApplyAllUntouched(step.store, caller, items[1..], instant, j);
    }
  }

  /** A widget that some result names holds the last such result: each
      update writes its widget before the next one runs. */
  lemma {:induction false} ApplyAllLastWins(s: Store, caller: UserId, items: seq<Item>, instant: string -> Option<int>, i: nat)
    requires i < |items| && Owned(s, caller, items[i])
    requires ApplyAll(s, caller, items, instant).0[i].Some?
    requires Last(ApplyAll(s, caller, items, instant).0, items, i)
    ensures ApplyAll(s, caller, items, instant).1[items[i].id.value] == ApplyAll(s, caller, items, instant).0[i].value
  {
    if i == 0 {
      FirstWins(s, caller, items, instant);
    } else {
      var step := Apply(s, caller, items[0], instant);
      LastInTail(s, caller, items, instant, i);
      OwnedKept(s, step.store, caller, items[i]);
      ApplyAllLastWins(step.store, caller, items[1..], instant, i - 1);
    }
  }

  lemma FirstWins(s: Store, caller: UserId, items: seq<Item>, instant: string -> Option<int>)
    requires 0 < |items| && Owned(s, caller, items[0])
    requires ApplyAll(s, caller, items, instant).0[0].Some?
    requires Last(ApplyAll(s, caller, items, instant).0, items, 0)
    ensures ApplyAll(s, caller, items, instant).1[items[0].id.value] == ApplyAll(s, caller, items, instant).0[0].value
  {
    var step := Apply(s, caller, items[0], instant);
    FirstNotRenamed(s, caller, items, instant);
    ApplyAllUntouched(step.store, caller, items[1..], instant, items[0].id.value);
  }

  /** When the first result is the last for its widget, the rest of the run
      leaves that widget alone. */
  lemma FirstNotRenamed(s: Store, caller: UserId, items: seq<Item>, instant: string -> Option<int>)
    requires 0 < |items| && Owned(s, caller, items[0])
    requires ApplyAll(s, caller, items, instant).0[0].Some?
    requires Last(ApplyAll(s, caller, items, instant).0, items, 0)
    ensures var step := Apply(s, caller, items[0], instant);
            && step.result == ApplyAll(s, caller, items, instant).0[0]
            && ApplyAll(s, caller, items, instant).1 == ApplyAll(step.store, caller, items[1..], instant).1
            && step.store[items[0].id.value] == step.result.value
            && forall k :: 0 <= k < |items[1..]| ==>
                 ApplyAll(step.store, caller, items[1..], instant).0[k].None? || items[1..][k].id != Some(items[0].id.value)
  {
    var step := Apply(s, caller, items[0], instant);
    var rest := ApplyAll(step.store, caller, items[1..], instant);
    var r := ApplyAll(s, caller, items, instant);
    ApplyAllUnfold(s, caller, items, instant);
    forall k | 0 <= k < |items[1..]| ensures rest.0[k].None? || items[1..][k].id != Some(items[0].id.value) {
      assert r.0[k + 1] == rest.0[k] && items[1..][k] == items[k + 1];
    }
  }

  /** A later result that is the last for its widget is the last in the rest
      of the run too. */
  lemma LastInTail(s: Store, caller: UserId, items: seq<Item>, instant: string -> Option<int>, i: nat)
    requires 0 < i < |items|
    requires Last(ApplyAll(s, caller, items, instant).0, items, i)
    ensures var step := Apply(s, caller, items[0], instant);
            var rest := ApplyAll(step.store, caller, items[1..], instant);
            && items[1..][i - 1] == items[i]
            && ApplyAll(s, caller, items, instant).0[i] == rest.0[i - 1]
            && ApplyAll(s, caller, items, instant).1 == rest.1
            && Last(rest.0, items[1..], i - 1)
  {
    var step := Apply(s, caller, items[0], instant);
    var rest := ApplyAll(step.store, caller, items[1..], instant);
    var r := ApplyAll(s, caller, items, instant);
    ApplyAllUnfold(s, caller, items, instant);
    forall k | i - 1 < k < |items[1..]| ensures rest.0[k].None? || items[1..][k].id != items[1..][i - 1].id {
      assert r.0[k + 1] == rest.0[k] && items[1..][k] == items[k + 1];
    }
  }

  /** No later item has a result for the same widget as item `i`. */
  ghost predicate Last(results: seq<Option<Doc>>, items: seq<Item>, i: nat)
    requires |results| == |items| && i < |items|
  {
    forall k :: i < k < |items| ==> results[k].None? || items[k].id != items[i].id
  }

  /** A geometry-only change keeps which widgets the caller owns. */
  lemma OwnedKept(s: Store, t: Store, caller: UserId, item: Item)
    requires GeometryOnly(s, t, caller)
    ensures Owned(s, caller, item) <==> Owned(t, caller, item)
  {
  }

  /** The batch route. It never emits. */
  function BatchUpdate(s: Store, log: seq<Emit>, caller: UserId, body: Fields, env: Env): (o: Outcome)
    ensures o.log == log
    ensures o.reply.Batch? || o.reply.Failed?
    ensures Items(body).None? ==> o.reply.Failed? && o.store == s
    ensures GeometryOnly(s, o.store, caller)
    ensures o.reply.Batch? <==>
      Items(body).Some? && forall i :: 0 <= i < |Items(body).value| ==> Patch(Items(body).value[i], env.instant).Some?
    ensures o.reply.Batch? ==>
      var items := Items(body).value;
      && |o.reply.items| == |items|
      && forall i :: 0 <= i < |items| ==>
           && (o.reply.items[i].Some? <==> Owned(s, caller, items[i]))
           && (o.reply.items[i].Some? ==> Shows(s, items[i], o.reply.items[i].value, Patch(items[i], env.instant).value))
    ensures o.reply.Batch? ==>
      var items := Items(body).value;
      && (forall j :: j in s && (forall i :: 0 <= i < |items| ==> o.reply.items[i].None? || items[i].id != Some(j)) ==>
            o.store[j] == s[j])
      && (forall i :: 0 <= i < |items| && o.reply.items[i].Some? && Last(o.reply.items, items, i) ==>
            o.store[items[i].id.value] == o.reply.items[i].value)
    ensures Items(body).Some? ==> o.store == ApplyAll(s, caller, Items(body).value, env.instant).1
  {
    match Items(body)
    case None => Outcome(Failed, s, log)
    case Some(items) =>
      var r := ApplyAll(s, caller, items, env.instant);
      ApplyAllOk(s, caller, items, env.instant);
      ApplyAllResults(s, caller, items, env.instant);
      forall j | j in s && (forall i :: 0 <= i < |items| ==> r.0[i].None? || items[i].id != Some(j))
        ensures r.1[j] == s[j]
      {
        ApplyAllUntouched(s, caller, items, env.instant, j);
      }
      forall i | 0 <= i < |items| && r.0[i].Some? && Last(r.0, items, i)
        ensures r.1[items[i].id.value] == r.0[i].value
      {
        ApplyAllLastWins(s, caller, items, env.instant, i);
      }
      Outcome(if r.2 then Batch(r.0) else Failed, r.1, log)
  }
}

=== FILE: widget_model.dfy ===
/** The Widget schema: a required type drawn from a fixed enumeration, a grid
    position and size with per-coordinate defaults, a visibility flag, free-form
    settings and a creation time. There is no `updatedAt` path. */
module WidgetModel {
  import opened Options
  import opened Json
  import opened Casting

  datatype WidgetType = TasksWidget | NotesWidget | BookmarksWidget | CalendarWidget
                      | WeatherWidget | ClockWidget | QuotesWidget

  /** The enumeration value a widget type is stored as. */
  function TypeName(t: WidgetType): (r: string)
    ensures |r| > 0
  {
    match t
    case TasksWidget => "tasks"
    case NotesWidget => "notes"
    case BookmarksWidget => "bookmarks"
    case CalendarWidget => "calendar"
    case WeatherWidget => "weather"
    case ClockWidget => "clock"
    case QuotesWidget => "quotes"
  }

  /** The `enum` validator: `None` for every string outside the enumeration. */
  function ParseType(s: string): (r: Option<WidgetType>)
    ensures r.Some? ==> TypeName(r.value) == s
  {
    if s == "tasks" then Some(TasksWidget)
    else if s == "notes" then Some(NotesWidget)
    else if s == "bookmarks" then Some(BookmarksWidget)
    else if s == "calendar" then Some(CalendarWidget)
    else if s == "weather" then Some(WeatherWidget)
    else if s == "clock" then Some(ClockWidget)
    else if s == "quotes" then Some(QuotesWidget)
    else None
  }

  /** Every enumeration value is accepted and read back as itself. */
  lemma ParseTypeName(t: WidgetType)
    ensures ParseType(TypeName(t)) == Some(t)
  {
  }

  /** A string is accepted exactly when it names one of the seven types. */
  lemma ParseTypeExact(s: string)
    ensures ParseType(s).Some? <==> exists t: WidgetType :: TypeName(t) == s
  {
    if ParseType(s).None? {
      forall t: WidgetType ensures TypeName(t) != s {
        ParseTypeName(t);
      }
    }
  }

  datatype Widget = Widget(
    kind: WidgetType,
    x: int, y: int,
    w: int, h: int,
    isVisible: bool,
    settings: Value,
    createdAt: int)

  const DefaultPosition := Obj(map["x" := Num(0), "y" := Num(0)])
  const DefaultSize := Obj(map["w" := Num(4), "h" := Num(4)])

  function Defaults(now: int): Fields {
    map[
      "position" := DefaultPosition,
      "size" := DefaultSize,
      "isVisible" := Bool(true),
      "settings" := Obj(map[]),
      "createdAt" := Num(now)]
  }

  predicate IsNumber(v: Value) { v.Num? }

  function CastPosition(v: Value): Option<Value> {
    CastPair(v, "x", Num(0), IsNumber, "y", Num(0), IsNumber)
  }

  function CastSize(v: Value): Option<Value> {
    CastPair(v, "w", Num(4), IsNumber, "h", Num(4), IsNumber)
  }

  /** The cast of one path: the nested position and size take their
      per-coordinate defaults, `createdAt` becomes an instant. */
  function CastPath(key: string, v: Value, instant: string -> Option<int>): Option<Value> {
    if key == "position" then CastPosition(v)
    else if key == "size" then CastSize(v)
    else if key == "createdAt" then CastDate(v, instant)
    else Some(v)
  }

  function Coordinates(v: Value, a: string, b: string): Option<(int, int)> {
    if v.Obj? && a in v.props && v.props[a].Num? && b in v.props && v.props[b].Num?
    then Some((v.props[a].n, v.props[b].n))
    else None
  }

  /** The typed reading of a cast document; the type must be in the enumeration. */
  function Read(f: Fields): Option<Widget> {
    var name :- TextOpt(f, "type");
    var kind :- ParseType(name);
    var position :- if "position" in f then Coordinates(f["position"], "x", "y") else None;
    var size :- if "size" in f then Coordinates(f["size"], "w", "h") else None;
    var visible :- Boolean(f, "isVisible");
    var settings :- if "settings" in f then Some(f["settings"]) else None;
    var created :- Time(f, "createdAt");
    Some(Widget(kind, position.0, position.1, size.0, size.1, visible, settings, created))
  }

  predicate Accepts(f: Fields) {
    Read(f).Some?
  }

  function ToFields(wd: Widget): Fields {
    map[
      "type" := Str(TypeName(wd.kind)),
      "position" := Obj(map["x" := Num(wd.x), "y" := Num(wd.y)]),
      "size" := Obj(map["w" := Num(wd.w), "h" := Num(wd.h)]),
      "isVisible" := Bool(wd.isVisible),
      "settings" := wd.settings,
      "createdAt" := Num(wd.createdAt)]
  }

  /** Reading a stored widget gives the widget back. */
  lemma ReadToFields(wd: Widget)
    ensures Read(ToFields(wd)) == Some(wd)
  {
    ParseTypeName(wd.kind);
  }

  /** A document with only a valid type takes every default: position (0,0),
      size 4x4, visible, empty settings, created now. */
  lemma DefaultsOnly(t: WidgetType, now: int)
    ensures var f := Defaults(now)["type" := Str(TypeName(t))];
            Read(f) == Some(Widget(t, 0, 0, 4, 4, true, Obj(map[]), now))
  {
    ParseTypeName(t);
  }

  /** The schema has no `updatedAt` path: it is neither defaulted nor stored. */
  lemma NoUpdatedAt(wd: Widget, now: int)
    ensures "updatedAt" !in Defaults(now) && "updatedAt" !in ToFields(wd)
  {
  }

  lemma CastPathIdempotent(key: string, v: Value, instant: string -> Option<int>)
    requires CastPath(key, v, instant).Some?
    ensures CastPath(key, CastPath(key, v, instant).value, instant) == CastPath(key, v, instant)
  {
    if key == "position" {
      CastPairIdempotent(v, "x", Num(0), IsNumber, "y", Num(0), IsNumber);
    } else if key == "size" {
      CastPairIdempotent(v, "w", Num(4), IsNumber, "h", Num(4), IsNumber);
    }
  }
}
